=== FILE: README.md ===
# apibaileys session core in Dafny

This project models the core of apibaileys. apibaileys is an HTTP control plane that runs many WhatsApp sessions ("instances"). Each instance has its own credentials, message cache and webhook.

The model is purely functional. Registries, stores and persisted documents are immutable maps and sequences, and every operation returns the next state.

| file | module | models |
|---|---|---|
| `js.dfy` | `Js` | JavaScript values, truthiness, `a \|\| b`, optional property access, `Option`/`Result` |
| `dict.dfy` | `Dict` | an insertion-ordered JavaScript object / `Map` |
| `bson.dfy` | `Bson` | the two `toBuffer` conversions of BSON binary nodes |
| `message_store.dfy` | `MessageStore` | `makeSimpleStore`, its bind handlers, the snapshot written to the database and the reload |
| `auth_state.dfy` | `AuthState` | `useMongoAuthState`: credential/key document, `keys.get`, `keys.set`, `saveCreds`, `setWebhook` |
| `polls.dfy` | `Polls` | `isPollCreation`, `optionHashMap`, `handlePollVote` |
| `dispatch.dfy` | `Dispatch` | the `ev.process` callback: poll events, `messages.update` tallies, the forwarding filter, `sendWebhookEvent` |
| `session_manager.dfy` | `SessionManager` | the session registry: `createInstance`, the `connection.update` handler, restart, update, delete, the status queries |
| `message_controller.dfy` | `MessageController` | `sendMessage`, `sendMedia`, `deleteMessage`, `sendPoll` |
| `routes.dfy` | `Routes` | the global-key middleware, `checkInstance` and the `/instance` routes |
| `instance_api.dfy` | `InstanceApi` | the single-file v5 server `code.js`: config list, runtime registry, keys, instance routes |

The model abstracts the following:
- Transport-library functions are arrow-typed fields of `Polls.Lib` and are otherwise unconstrained. These are `decryptPollVote`, `getAggregateVotesInPollMessage`, `getKeyAuthor`, `sha256` and `updateMessageWithPollUpdate`.
- The database collections are maps from instance id to document.
- A socket is identified by a generation number (`gen`) handed out by the registry. A `connection.update` and a `creds.update` carry the generation of the socket that emitted them. Store events carry none and are applied to the id's current record.
- A timer the handler sets is returned as a value (`RestartLater`, `CreateLater`). The caller fires it later with `Fire`.
- The value `initAuthCreds()` would produce is a parameter. So are the message the fallback fetch would return and the outcome of the interactive pairing.

A few ghost predicates state which states are reachable. `SessionManager.Valid`, `MessageStore.Valid`, `Dict.Valid` and `InstanceApi.Valid` all hold initially and are preserved by every operation. Operations that rely on them require them.

## Model

| member | source | states |
|---|---|---|
| Js.Or | routes/index.js:14 | `a \|\| b` is `a` when `a` is truthy, else `b`; the result is truthy iff either operand is |
| Bson.ToBuffer | sessions/mongoStore.js:4-10 | non-objects and values without binary nodes come back unchanged, a binary node becomes its buffer, arrays keep their length and objects their keys, each binary element or field becomes its buffer and each element or field without binary nodes is kept, and no binary node is left anywhere |
| Bson.AuthAndStoreAgree | sessions/mongoAuthState.js:4-9 | the credential-store variant (which converts array elements in place instead of mapping the array) computes the same value as the message-store variant |
| Bson.ToBufferIdempotent | sessions/mongoStore.js:4-10 | converting twice is the same as converting once |
| Dict.Put | sessions/mongoStore.js:16 | setting a key maps it to the value; a new key goes to the end of the order, an existing key keeps its place |
| MessageStore.InsertAllChats | sessions/mongoStore.js:16 | the chat ids after `insertAll` are the old ids plus the ids of the batch; conversations are untouched |
| MessageStore.ChatsLastWins | sessions/mongoStore.js:16 | after `insertAll`, an id maps to the last chat of the batch with that id, or to its previous chat if the batch has none |
| MessageStore.AllChats | sessions/mongoStore.js:17 | `all()` lists one chat per stored id, in insertion order, with no id twice |
| MessageStore.Insert | sessions/mongoStore.js:21-24 | the intended `insert`: conversation `jid` becomes its old messages followed by `msgs`, and no other conversation or chat changes |
| MessageStore.InsertAsWritten | sessions/mongoStore.js:21-24 | the `insert` as written never changes the store when it succeeds |
| MessageStore.InsertAsWrittenThrows | sessions/mongoStore.js:21-24 | on a store without a conversation named "messages", the `insert` as written throws, where the intended insert appends |
| MessageStore.OnMessagesUpsert | sessions/mongoStore.js:40-45 | the upsert handler keeps the store well formed and leaves the chats alone |
| MessageStore.UpsertAppends | sessions/mongoStore.js:40-45 | after an upsert batch, every conversation is its old messages followed by the batch's messages addressed to it, in batch order |
| MessageStore.Merge | sessions/mongoStore.js:52 | `{...old, ...update}`: patch fields win, other old fields stay, the key set is the union |
| MessageStore.FindIndex | sessions/mongoStore.js:29 | the index found is the first message with that id; none means no message has it |
| MessageStore.UpdateOne | sessions/mongoStore.js:47-54 | only the first message with the update's id in its own conversation is replaced, by the merge; length and every other entry are unchanged; no match means no change |
| MessageStore.OnMessagesUpdate | sessions/mongoStore.js:47-54 | an update batch keeps the chats, the conversation ids and every conversation's length |
| MessageStore.Replace | sessions/sessionManager.js:100-104 | folding a vote into the stored creation message in place changes only that position of that conversation |
| MessageStore.Scan | sessions/mongoStore.js:32-35 | the fallback scan returns the first conversation, in key order, that holds the id, at its first such message; none means none holds it |
| MessageStore.Locate | sessions/mongoStore.js:26-37 | a hit in the named conversation is taken from there; any result holds the message with that id |
| MessageStore.LoadMessageFromOwnConversation | sessions/mongoStore.js:26-31 | when conversation `jid` holds the id, `loadMessage` returns its first message with that id |
| MessageStore.LoadMessageFallback | sessions/mongoStore.js:32-36 | `loadMessage` is undefined iff no conversation holds the id; otherwise it returns a stored message |
| MessageStore.InsertTotal | sessions/mongoStore.js:21-24 | the intended insert adds exactly `\|msgs\|` messages to the total |
| MessageStore.UpsertTotal | sessions/mongoStore.js:40-45 | an upsert batch adds exactly its length to the total: nothing is removed |
| MessageStore.UpdateTotal | sessions/mongoStore.js:47-54 | an update batch never changes the total |
| MessageStore.ReplaceTotal | sessions/sessionManager.js:100-104 | writing back a located message keeps the total |
| MessageStore.Snapshot | sessions/mongoStore.js:84-93 | the written document carries the id, every conversation under its key in order, and one entry per chat |
| MessageStore.Reload | sessions/mongoStore.js:60-73 | the reloaded store is well formed, and empty without a document |
| MessageStore.ReloadAsWrittenThrows | sessions/mongoStore.js:66-73 | reloading with the `insert` as written throws iff the snapshot holds any conversation |
| MessageStore.ReloadSnapshot | sessions/mongoStore.js:60-93 | reloading the snapshot of a store gives back exactly that store: chats, conversations and their order |
| MessageStore.PersistedMessageRoundTrip | sessions/mongoStore.js:21-37 | a message inserted, snapshotted and reloaded is found again by `loadMessage` |
| AuthState.Load | sessions/mongoAuthState.js:13-16 | without a document: fresh credentials, no keys, no webhook; with one: stored keys (or none) and stored credentials when truthy |
| AuthState.Write | sessions/mongoAuthState.js:18-24 | the one document of the id gets credentials, keys and webhook; its api key and every other document are unchanged |
| AuthState.Get | sessions/mongoAuthState.js:30-36 | the result's domain is exactly the requested ids; an entry is present iff the category holds that id, and then it is that key |
| AuthState.SetKeys | sessions/mongoAuthState.js:37-43 | every given key is stored, every other key and category is kept, the id sets are unions, and the document is written |
| AuthState.SaveCreds | sessions/mongoAuthState.js:46-48 | the document gets the current credentials and keys; other documents are unchanged |
| AuthState.SetWebhook | sessions/mongoAuthState.js:49-52 | the state and the written document both carry the new webhook |
| AuthState.GetAfterSet | sessions/mongoAuthState.js:30-43 | after `set(data)`, `get(c, ids)` returns `data[c][id]` for each requested id in `data[c]` |
| AuthState.LoadAfterWrite | sessions/mongoAuthState.js:13-24 | loading what was written gives back the same state when the credentials are truthy |
| AuthState.LoadBlank | sessions/mongoAuthState.js:15-16 | an id without a document starts with fresh credentials and no keys |
| Polls.KeyValue | sessions/sessionManager.js:40-44 | a message key as a value keeps its id and conversation |
| Polls.HashNames | sessions/sessionManager.js:47-57 | the option table is keyed by exactly the hashes of the option names |
| Polls.HashNamesInverts | sessions/sessionManager.js:47-57 | every table entry maps a hash back to a name with that hash; with distinct hashes, each name is found under its own hash |
| Polls.SelectedOptions | sessions/sessionManager.js:110-111 | one label per selected option, each a name from the table or "Unknown"; nothing without a selection array |
| Polls.SelectedOptionsName | sessions/sessionManager.js:47-57 | label `i` is the option name whose hash is the `i`-th selected key, when the hashes separate the names and the name is not empty; a key missing from the table gives "Unknown" |
| Polls.HandleVote | sessions/sessionManager.js:59-120 | a message without a poll update is no vote and leaves the store alone; an emitted update names the creation key, the vote's key and the voter |
| Polls.FoldVote | sessions/sessionManager.js:89-119 | once the creation message is found, the vote is dropped without its secret and the store is unchanged; an emitted vote is folded into that stored message in place (same key, only its content updated with the decrypted vote and the numeric timestamp), every other message and conversation is unchanged, and the emitted tally and option names are computed from the updated stored message |
| Polls.HandleVoteFolds | sessions/sessionManager.js:65-104 | the vote is folded at the position where the store holds the creation message, or else into the fetched message appended at the end of its conversation |
| Polls.FoldVoteTotal | sessions/sessionManager.js:100-105 | folding the vote into the stored creation message keeps the message count |
| Polls.HandleVoteAsWritten | sessions/sessionManager.js:59-120 | as written, a vote changes the store only when the creation message was already stored: a fetched one is never kept |
| Polls.FoldVoteOutcomeLocal | sessions/sessionManager.js:89-119 | what folding a vote reports depends only on the creation message, not on the rest of the store |
| Polls.FetchedVoteNotStored | sessions/sessionManager.js:69-82 | as written, a vote whose creation message had to be fetched reports the same outcome as intended, but the store is unchanged, where the intended insert adds the fetched message |
| Polls.FetchOnlyWhenMissing | sessions/sessionManager.js:64-83 | when the creation message is in the store, the fallback fetch has no influence |
| Polls.MissingCreationDropsVote | sessions/sessionManager.js:64-88 | when the creation message is neither stored nor fetched, the vote is dropped and the store unchanged |
| Polls.EmitNeedsSecret | sessions/sessionManager.js:89-119 | a `poll.update` is emitted only when the creation message used carries its secret |
| Polls.VoteKeepsMessages | sessions/sessionManager.js:59-120 | a vote adds at most the one fetched message and removes none |
| Dispatch.ProcessMessages | sessions/sessionManager.js:242-249 | handling an upsert batch keeps the store well formed and produces only `poll.create` and `poll.update` events |
| Dispatch.CreationsAnnounced | sessions/sessionManager.js:242-249 | unless a vote threw, every poll creation of the batch yields its `poll.create` event |
| Dispatch.OnlyVotesThrow | sessions/sessionManager.js:242-249 | only a message that carries a poll vote can end the batch with an exception |
| Dispatch.ProcessUpdates | sessions/sessionManager.js:250-266 | an update batch leaves the store alone and yields at most one `poll.update` per entry; only an entry with poll updates can throw |
| Dispatch.ProcessEvent | sessions/sessionManager.js:242-274 | one entry of the event map: the raw event is forwarded iff nothing threw and no message of an upsert carries a poll vote; other events are forwarded unchanged |
| Dispatch.ProcessBatch | sessions/sessionManager.js:240-275 | the entries of one event map in order, stopping at the first exception; an empty map does nothing |
| Dispatch.ThrownBatchEndsEarly | sessions/sessionManager.js:240-275 | once an entry throws, the entries after it are neither tallied nor forwarded |
| Dispatch.BatchForwards | sessions/sessionManager.js:268-273 | without an exception, every entry the forwarding rule lets through is forwarded under its own name |
| Dispatch.OtherEntriesForwarded | sessions/sessionManager.js:241-273 | a map without message events never throws, keeps the store and forwards every entry in order |
| Dispatch.SingleEntryBatch | sessions/sessionManager.js:240-275 | a map of one entry is processed as that entry |
| Dispatch.Deliver | sessions/sessionManager.js:142-158 | nothing is sent for an instance without a webhook; everything is sent otherwise |
| SessionManager.SaveRecord | sessions/sessionManager.js:122-126 | the record's document gets webhook and api key; credentials and other documents stay |
| SessionManager.InitSessionRecord | sessions/sessionManager.js:160-172 | a new record is connecting, without QR, reconnecting, with falsy webhook and api key stored as null |
| SessionManager.CreateInstance | sessions/sessionManager.js:174-196 | a registered id keeps its socket, record and documents except truthy webhook/api key; a new id gets a new socket, a connecting record, and a saved document |
| SessionManager.CreateInstanceAsWritten | sessions/sessionManager.js:174-184 | as written: a successful create is the intended one; a rejected create registers nothing, makes no socket, and leaves the webhook `setWebhook` already wrote |
| SessionManager.CreateAsWrittenRejects | sessions/sessionManager.js:181-183 | as written, creating an id that is not running but whose persisted store holds a conversation rejects and leaves it unregistered; the intended create registers it |
| SessionManager.CreateInstanceIdempotent | sessions/sessionManager.js:175-179 | creating twice with the same arguments is creating once |
| SessionManager.ApplyUpdate | sessions/sessionManager.js:200-238 | the handler changes only status, QR and the two restart flags; a close always ends `closed`; only a close can forget, retry or schedule a recreate |
| SessionManager.QrUpdate | sessions/sessionManager.js:202-207 | a QR update sets status `qr` and the QR code, marks the pairing cycle, and sends `qr` |
| SessionManager.OpenUpdate | sessions/sessionManager.js:208-219 | on open: status `open`, no QR, `wasQr` cleared; a pending restart flag is consumed without a timer; otherwise a restart is scheduled iff a QR was shown |
| SessionManager.NewLoginUpdate | sessions/sessionManager.js:220-223 | a new login sets the restart flag and schedules a restart iff none was pending |
| SessionManager.AtMostOneRestart | sessions/sessionManager.js:208-223 | one update schedules at most one restart, and only with the flag set |
| SessionManager.PendingRestartBlocks | sessions/sessionManager.js:213-223 | with the flag set, no restart is scheduled, except by an open update that also reports a new login |
| SessionManager.OpenWithNewLoginRestartsAgain | sessions/sessionManager.js:213-223 | an open update reporting a new login schedules a restart even when the flag was set |
| SessionManager.CloseUpdate | sessions/sessionManager.js:224-238 | on close: logout forgets the record; restart-required after a QR clears `wasQr` and schedules one delayed recreate; otherwise retry if reconnecting, else forget |
| SessionManager.Settle | sessions/sessionManager.js:228-237 | a forgotten record leaves the registry; otherwise the updated record replaces it |
| SessionManager.OnConnectionUpdateAsWritten | sessions/sessionManager.js:198-239 | as written: the update acts on whatever record the id has now; other records and all documents are unchanged |
| SessionManager.FireAsWritten | sessions/sessionManager.js:214-216 | as written, a delayed recreate of a registered id changes nothing, and a delayed restart is the intended one unless the reload rejects, which leaves the id unregistered |
| SessionManager.ReconnectIsNoOp | sessions/sessionManager.js:230-234 | as written, a close that should reconnect leaves the closed record with its old socket, and no new socket is made |
| SessionManager.DelayedRecreateIsNoOp | sessions/sessionManager.js:229-232 | as written, the delayed recreate after restart-required is scheduled, and when it fires it changes nothing |
| SessionManager.LateCloseHitsNewRecord | sessions/sessionManager.js:198-200 | as written, a close from the socket that a restart retired marks the new socket's record closed |
| SessionManager.LateLogoutRemovesNewRecord | sessions/sessionManager.js:198-200 | as written, a logout from the retired socket removes the new socket's record |
| SessionManager.OnConnectionUpdate | sessions/sessionManager.js:198-239 | corrected handler: updates from a socket that is not the registered one are ignored; other records are unchanged |
| SessionManager.Fire | sessions/sessionManager.js:230-234 | corrected timer: the record is recreated with a new, connecting socket |
| SessionManager.CloseReconnects | sessions/sessionManager.js:230-234 | corrected: a close that should reconnect yields a new connecting socket that keeps webhook and api key |
| SessionManager.RetiredSocketIgnored | sessions/sessionManager.js:198-200 | corrected: after a restart, every update from the retired socket is ignored |
| SessionManager.RestartInstance | sessions/sessionManager.js:296-309 | restart saves credentials, then recreates the id with a new connecting socket and the old truthy webhook/api key; other records are unchanged |
| SessionManager.RestartInstanceAsWritten | sessions/sessionManager.js:296-309 | as written: a successful restart is the intended one; a rejected one leaves the id without a record |
| SessionManager.RestartAsWrittenUnregisters | sessions/sessionManager.js:296-309 | as written, restarting a running instance whose persisted store holds a conversation rejects and the id ends unregistered; the intended restart registers a new socket |
| SessionManager.RestartKeepsCredentials | sessions/sessionManager.js:296-309 | a restart keeps credentials and keys |
| SessionManager.RestartKeepsPersistedStore | sessions/sessionManager.js:296-309 | a restart reloads the same message store that was last persisted |
| SessionManager.DeleteInstance | sessions/sessionManager.js:319-329 | delete removes the record, the credential document and the store document of that id, and nothing else |
| SessionManager.RecreateAfterDeleteStartsBlank | sessions/sessionManager.js:319-329 | creating a deleted id starts with fresh credentials, no keys and an empty store |
| SessionManager.UpdateInstance | sessions/sessionManager.js:311-317 | null for an unregistered id with no change; otherwise only fields given are overwritten, and the document carries them |
| SessionManager.OnCredsUpdate | sessions/sessionManager.js:197 | a credential update from the registered socket stores the updated credentials in the record and writes them with the keys; nothing else changes |
| SessionManager.CredsUpdateSurvivesRestart | sessions/sessionManager.js:197 | credentials updated by the running socket come back after a restart |
| SessionManager.CredsWriteRevertsWebhook | sessions/mongoAuthState.js:18-24 | after `updateInstance` saves a new webhook, the next credential write puts back the webhook loaded at creation |
| SessionManager.GetInstanceStatus | sessions/sessionManager.js:288-290 | the status of a registered id, `closed` for any other |
| SessionManager.GetInstanceQR | sessions/sessionManager.js:292-294 | a QR code is returned iff the id is registered with a truthy one |
| SessionManager.ListInstances | sessions/sessionManager.js:331-338 | one entry per given id, in order, with its status |
| SessionManager.ListsEveryStoredInstance | sessions/sessionManager.js:331-338 | given the stored ids once each, the listing names exactly the stored instances, each once |
| SessionManager.DeletedIsClosed | sessions/sessionManager.js:288-338 | a deleted id reports `closed`, no QR, and is listed as closed |
| SessionManager.OnEvent | sessions/sessionManager.js:240-275 | a single-entry event map changes only that instance's store; a message or chat event persists its snapshot; nothing is sent without a webhook |
| SessionManager.OnEvents | sessions/sessionManager.js:240-275 | a whole event map: the store binding applies every entry first, then the callback processes the entries up to the first exception; only that instance's store changes, the snapshot is persisted iff some entry is a message or chat event, and the webhook receives the batch's output |
| SessionManager.OnEventIsSingleEntry | sessions/sessionManager.js:240-275 | `OnEvent` is `OnEvents` on a map with one entry |
| SessionManager.ThrowSilencesLaterEntries | sessions/sessionManager.js:241-249 | when an entry throws, what the webhook receives is the output of the entries up to it, although the binding has applied all of them |
| SessionManager.EventsPersistStore | sessions/mongoStore.js:84-101 | after a message or chat event, reloading the persisted snapshot gives back the live store |
| MessageController.Jid | controllers/messageController.js:20 | the recipient jid is the number followed by `@s.whatsapp.net` |
| MessageController.BuildQuoted | controllers/messageController.js:4-10 | no quote iff the quoted id is falsy; otherwise it quotes that id in the recipient's conversation |
| MessageController.MediaTypeOf | controllers/messageController.js:42-48 | image, video or audio iff the mimetype starts with `image/`, `video/` or `audio/` (first match wins), document otherwise |
| MessageController.Mentions | controllers/messageController.js:20-23 | ghost mode mentions exactly the recipient; otherwise nobody |
| MessageController.Sent | controllers/messageController.js:21-30 | after a send attempt: 200 iff the send resolved, 500 iff it rejected |
| MessageController.SendMessage | controllers/messageController.js:12-31 | 404 iff the instance is not running; otherwise the text goes to the recipient with mentions and quote, answered 200 iff the send resolves and 500 iff it rejects |
| MessageController.SendMedia | controllers/messageController.js:33-56 | 404 before 400; a send is attempted iff running with media and mimetype, carrying the classified media, caption, mentions and quote; 200 iff it resolves, 500 iff it rejects |
| MessageController.DeleteMessage | controllers/messageController.js:58-73 | 404 iff not running; otherwise a revoke of the caller's message in the recipient's conversation, 200 iff it resolves, 500 iff it rejects |
| MessageController.SelectableCount | controllers/messageController.js:83 | all options when multiple choice is truthy, one otherwise |
| MessageController.StoredPoll | controllers/messageController.js:85-94 | the fetched full message when there is one, the sent message otherwise |
| MessageController.SendPoll | controllers/messageController.js:75-101 | 404 iff not running; otherwise the poll is sent; when the send resolves its message is appended to the recipient's conversation and the snapshot is persisted, when it rejects the answer is 500 and nothing is kept |
| MessageController.SendPollAsWritten | controllers/messageController.js:85-101 | as written, a 200 leaves the registry unchanged: the poll is not stored |
| MessageController.SendPollAsWrittenFails | controllers/messageController.js:85-101 | as written, a poll sent by a running instance without a conversation named "messages" answers 500 |
| MessageController.DeleteTargetsSentConversation | controllers/messageController.js:12-73 | a revoke addresses the conversation a text to the same number went to, as the caller's own message |
| MessageController.RejectedSendsAnswer500 | controllers/messageController.js:12-101 | for a running instance, each of the four handlers answers 500 when its send rejects, and `sendPoll` then keeps nothing |
| MessageController.SentPollIsFound | controllers/messageController.js:85-95 | the stored poll is found by `loadMessage`, live and after reloading the snapshot |
| Routes.GlobalKey | routes/index.js:4 | the configured key when truthy, `change-me` otherwise; never empty |
| Routes.GlobalGateCases | routes/index.js:6-11 | a non-empty header decides alone; without one, the query parameter must be the key |
| Routes.FirstTruthy | routes/index.js:13-18 | the instance name is the route parameter, else the body field, else the query field; the instance key is the header, else the body field, else the query field |
| Routes.CheckInstance | routes/index.js:13-22 | 400 iff no name; 404 iff no record; 401 iff the record has an api key the supplied key differs from; pass otherwise |
| Routes.OpenRecordPassesAnyKey | routes/index.js:19 | a record without api key passes any key |
| Routes.KeyedRecordNeedsItsKey | routes/index.js:19 | a record with an api key passes exactly that key |
| Routes.Handle | routes/index.js:6-117 | a wrong global key answers 401 with no change; any non-200 answer changes nothing; PUT succeeds only for a running id; the QR route succeeds only with a QR; create always registers the name |
| Routes.StoredButIdle | routes/index.js:68-87 | a stored but not running instance passes the check, yet PUT answers 404, status is `closed` and QR answers 404 |
| Routes.ReconnectIsRestart | routes/index.js:89-107 | reconnect and restart have the same effect |
| InstanceApi.ApplyPatch | code.js:67 | `{...c, ...p}`: fields given in the patch win, the others stay |
| InstanceApi.FindIndex | code.js:67 | the first entry with the id, or none iff no entry has it |
| InstanceApi.PatchCfg | code.js:65-69 | the first entry with the id is merged with the patch and every other entry is unchanged; no entry, no change; ids stay unique |
| InstanceApi.RemoveAt | code.js:315-317 | removing one entry of a list with unique ids removes exactly the entries with that id |
| InstanceApi.CloseInstance | code.js:80-89 | the runtime entry always goes; the session directory goes only when credentials are removed |
| InstanceApi.Init | code.js:116-185 | a ready init registers a new socket and directory with the runtime config kept (or built with an empty instance key); a failed pairing removes entry and directory; pairing codes are stored |
| InstanceApi.PostHook | code.js:92-113 | a payload is posted iff the running instance has a truthy webhook, carrying its runtime instance key |
| InstanceApi.OnConnectionUpdate | code.js:166-184 | events of a retired socket are ignored; open clears pairing code and watchdog and nulls the stored code; close removes the instance (credentials only on logout) and inits again with the original arguments |
| InstanceApi.OnWatchdog | code.js:146-152 | a watchdog of a retired socket or a finished pairing does nothing; otherwise the instance is re-initialised with its phone |
| InstanceApi.HasInstanceKey | code.js:207-212 | false for an empty key, true for the global key, otherwise only for a configured instance key of that id |
| InstanceApi.InstanceKeyExact | code.js:207-212 | with unique ids, a non-global key is accepted iff it is that id's instance key |
| InstanceApi.Create | code.js:222-243 | 401 unless the `apikey` header, else the query parameter, is the global key; 400 without an id or for a configured id; 200 exactly otherwise, appending one entry with defaults `""` and no pairing code |
| InstanceApi.AddInstance | code.js:233-240 | the new entry goes to the end with its drawn key, every earlier entry stays, and init keeps the runtime valid |
| InstanceApi.AppendKeepsValid | code.js:233-240 | appending an entry with a new id and running init on it keeps ids unique and every running instance configured |
| InstanceApi.Delete | code.js:313-320 | 404 for an unconfigured id; otherwise exactly the entries of that id go, with runtime entry and directory |
| InstanceApi.Edit | code.js:275-281 | only truthy phone and webhook are patched, in the list and in the running config; nothing else changes |
| InstanceApi.Stop | code.js:284-289 | 404 without a running entry; otherwise the entry is closed and its directory kept |
| InstanceApi.Start | code.js:292-300 | 404 for an unconfigured id, 400 for a running one, 200 exactly otherwise with a new socket |
| InstanceApi.Restart | code.js:303-310 | 404 for an unconfigured id; otherwise a new socket whose runtime instance key is empty |
| InstanceApi.InstanceRequest | code.js:253-258 | an `/instance/:id` request answers 401 iff the key (header, else query) fails `hasInstanceKey`, so a request without a key gets 401 before any 404 |
| InstanceApi.Cleanup | code.js:194-196 | exactly the directories that are configured ids survive |
| InstanceApi.InitKeepsKeysEmpty | code.js:128-133 | init never puts a non-empty instance key into the runtime config |
| InstanceApi.HookInstanceKeyEmpty | code.js:92-113 | every posted payload carries an empty instance key |
| InstanceApi.CreatedHookKeyEmpty | code.js:222-243 | create stores the given instance key in the list, but the running config has an empty one |
| InstanceApi.EditLostOnReconnect | code.js:178-183 | a webhook set by PATCH is replaced by the original argument at the next reconnect |
| InstanceApi.ClosedSocketIgnored | code.js:166-184 | after a restart, events of the old socket change nothing |
| InstanceApi.RoutesKeepIdsUnique | code.js:222-320 | create, delete and edit keep the ids of the list unique |

## Left out

- I/O is not modelled: MongoDB, the filesystem, outbound HTTP (`fetch`, `axios`), Express plumbing, `readline` prompts, `randHex`, logging. Persistence is a map of documents, and a webhook post is a returned value.
- Timers and asynchronous interleaving are not modelled. A scheduled restart or recreate is returned as a value and applied by `Fire`. `OnEvents` assumes the store's bind handlers run for every entry of an event map before the `ev.process` callback.
- Protocol and crypto functions of the transport library (`makeWASocket`, `decryptPollVote`, `getAggregateVotesInPollMessage`, `getKeyAuthor`, `sha256`, `initAuthCreds`) are parameters without properties.
- The JSON replacer of `sendWebhookEvent` (base64 of buffers, maps as entry lists) is left out. It depends on Node's serialisation.
- base.js, a single-session bot, is not part of this model.
- `restoreInstances` and `removeRecord` are left out. They are a database listing and a delete; `DeleteInstance` removes the documents directly.
- The group, contact, message and sticker endpoints of code.js and routes/index.js are left out, and so is the `OWNER_NUMBER` notification. They forward to the transport library. The four message controllers are modelled without the route glue.
- code.js `init`'s pairing retry loop and its interactive prompt are left out. The pairing outcome is a parameter, and a failed pairing is reported as `RetryPairing`.
- The code.js `GET /instance`, `GET /instance/:id` and `pairing-code` routes are left out. They only read the config list, and the key middleware in front of them is `InstanceApi.HasInstanceKey`.
- `closeInstance`'s `logout` call (code.js:85) is not modelled: it only reaches the transport library. It runs on every close path (stop, delete, restart, the watchdog and the close handler).
- Inputs that are not strings (a number as webhook, a non-string instance key) are outside the model.
- Routes.Handle: `ListAll` takes the ids of the stored records as an argument, in collection order, because the database order is not modelled; `SessionManager.ListsEveryStoredInstance` states the listing when they are the stored ids once each.
- Dispatch.Raw carries only the event name. The data forwarded with a raw `messages.update` also carries the `results` the loop wrote into each update (sessions/sessionManager.js:259, 272); those tallies are stated on the `poll.update` events instead.
- Dict: JavaScript enumerates integer-like keys of a plain object first, in numeric order, before the other keys in insertion order. The model keeps insertion order for every key. This matters only for conversation ids that are array indices, which a jid never is; it would affect the fallback scan order of `loadMessage` (sessions/mongoStore.js:32) and the snapshot key order (sessions/mongoStore.js:91).
- SessionManager.OnEvent: the `chats.upsert` payload is not applied to the chat map before the snapshot; only message events change the store.
- SessionManager.RestartInstance, SessionManager.OnEvent, SessionManager.OnCredsUpdate and SessionManager.Fire require the reachable-state invariant `SessionManager.Valid`. The source has no such precondition, but every reachable registry satisfies it.
- Polls.HandleVote: what a decrypted vote contains and how the tally is counted are stated only through the uninterpreted library functions; where the updated message goes and that the tally is read from it are stated (`Polls.FoldVote`, `Polls.HandleVoteFolds`).
- InstanceApi.OnWatchdog: the case of a failed pairing after the watchdog is stated only through `Init`.
- SessionManager.CreateInstance, SessionManager.RestartInstance and SessionManager.RestartKeepsPersistedStore use the corrected `insert` when the snapshot is reloaded (sessions/sessionManager.js:182). As written, a create whose stored snapshot holds a conversation rejects after `setWebhook`, and a restart then leaves the id unregistered. `CreateInstanceAsWritten`, `CreateAsWrittenRejects`, `RestartInstanceAsWritten` and `RestartAsWrittenUnregisters` state that behaviour.
- Routes.Handle: it answers through the corrected create and restart. As written, `POST /instance` and the restart route catch the rejection and answer 500 (routes/index.js:63-64, 94-96).
- SessionManager.Fire: the restart scheduled 1 s after `open` on a record that showed a QR code (sessions/sessionManager.js:214-216) uses the corrected restart. As written (`SessionManager.FireAsWritten`), it rejects inside its timer for a stored snapshot with a conversation and leaves the id unregistered, and `restoreInstances` swallows the same rejection at startup (sessions/sessionManager.js:138).
- Polls.HandleVote: a fetched creation message is inserted with the corrected `insert`. As written, the insert at sessions/sessionManager.js:77 throws and its catch discards the message (`HandleVoteAsWritten`, `FetchedVoteNotStored`).
- Polls.Lib: `number` stands for `Number(...)` on the vote's timestamp and is uninterpreted. `decrypt` is a total function. A `decryptPollVote` that throws (sessions/sessionManager.js:94, outside any `try`) would reject the `ev.process` callback, and that case is not modelled.
- SessionManager.OnCredsUpdate: an update from a retired socket is ignored. As written, the retired socket's `saveCreds` closure still writes its own credentials, and can re-create the credential document of a deleted id.
- SessionManager.OnEvent: store events are applied to the id's current record. As written, a retired socket's store closure writes its own detached store (sessions/mongoStore.js:75-94).
- AuthState.Load and MessageStore.Reload do not apply `Bson.ToBuffer`. Persistence returns exactly the values written, because the BSON encoding is not modelled. `ToBuffer` is the identity on values without binary nodes (`Bson.ToBufferFixesConverted`).
- `MAX_RETRY` (code.js:34) is never read, so a failing pairing is retried without bound (code.js:150-156). The retry loop itself is left out.

Behaviour of the code that the model follows:
- `createInstance` on a registered id is an idempotent no-op that returns the existing socket. It never fails with "already exists".
- The pairing state is called `qr`, and no status `pairing` exists.
- A logout removes only the in-memory record. The stored documents stay.
- Restart does not detach the old socket's listeners (Findings row 3).
- In code.js the webhook payload's `instanceKey` is always `""`: the record's configuration starts with `instanceKey: ''` (code.js:130) and the key drawn at creation (code.js:233) only goes to the config list (`InstanceApi.CreatedHookKeyEmpty`).
- A webhook set by `PATCH /instance/:id` is lost at the next reconnect, because `init` is called again with its original arguments (code.js:182; `InstanceApi.EditLostOnReconnect`).

## Findings

| source | as written | input that shows it | evidently intended | confidence | as-written member | corrected member |
|---|---|---|---|---|---|---|
| sessions/mongoStore.js:22 | `insert` reads `this.messages.messages[jid]`, but `insert` is called as `store.messages.insert`, so `this` is the inner object and the expression indexes the conversation named "messages" | a store with conversation `5511@s.whatsapp.net` and none named "messages": reloading its snapshot throws, so `createInstance` and `restartInstance` reject and `sendPoll` answers 500; a fetched poll creation message is dropped | append `msgs` to conversation `jid`, as the upsert handler does | not executed | MessageStore.InsertAsWritten, MessageStore.InsertAsWrittenThrows, MessageStore.ReloadAsWrittenThrows, MessageController.SendPollAsWrittenFails, SessionManager.CreateAsWrittenRejects, SessionManager.RestartAsWrittenUnregisters, Polls.FetchedVoteNotStored | MessageStore.Insert, MessageStore.ReloadSnapshot, MessageController.SentPollIsFound, SessionManager.CreateInstance, SessionManager.RestartKeepsPersistedStore, Polls.HandleVote |
| sessions/sessionManager.js:230-234 | the close handler calls `createInstance(id)` while `sessions[id]` is still registered, so the idempotent branch makes it a no-op | a close with status 428 on a reconnecting record: the record stays closed with its dead socket; the delayed recreate after 515 does nothing either | open a new socket for the id | not executed | SessionManager.ReconnectIsNoOp, SessionManager.DelayedRecreateIsNoOp | SessionManager.CloseReconnects |
| sessions/sessionManager.js:198-200 | the `connection.update` listener looks the record up by id, so a restart's retired socket still acts on the id | `restartInstance(id)`, then the old socket's close with status 401: the new record is removed | ignore events of a retired socket | not executed | SessionManager.LateCloseHitsNewRecord, SessionManager.LateLogoutRemovesNewRecord | SessionManager.RetiredSocketIgnored |

=== FILE: auth_state.dfy ===
/** The credential store of one instance (sessions/mongoAuthState.js): the
    identity credentials, the signal-key map `category -> (keyId -> material)`
    and the single persisted document they are written to. */
module AuthState {
  import opened Js

  /** `keys`: key category to key id to key material. */
  type KeyStore = map<string, map<string, Value>>

  /** The per-instance document of the session collection. The credential
      store writes `creds`, `keys` and `webhook`; the session manager's
      `saveRecord` writes `webhook` and `apiKey` into the same document.
      `None` is an absent (or `null`) field. */
  datatype Doc = Doc(creds: Option<Value>, keys: Option<KeyStore>, webhook: Option<string>, apiKey: Option<string>)

  /** The in-memory state behind `useMongoAuthState(id)`: `creds`, `keys` and
      `record.webhook` (the webhook as loaded, or as last set). */
  datatype Auth = Auth(id: string, creds: Value, keys: KeyStore, webhook: Option<string>)

  const EmptyDoc := Doc(None, None, None, None)

  /** `useMongoAuthState(id)`: reads the document, falling back to initCreds
      credentials (`initAuthCreds()`, passed in as `initCreds`) and an empty key map. */
  function Load(docs: map<string, Doc>, id: string, initCreds: Value): (a: Auth)
    ensures a.id == id
    ensures id !in docs ==> a.creds == initCreds && a.keys == map[] && a.webhook == None
    ensures id in docs ==> a.keys == docs[id].keys.GetOr(map[]) && a.webhook == docs[id].webhook
    ensures id in docs ==> a.creds == if docs[id].creds.Some? && IsTruthy(docs[id].creds.value) then docs[id].creds.value else initCreds
  {
    var d := if id in docs then docs[id] else EmptyDoc;
    var creds := if d.creds.Some? && IsTruthy(d.creds.value) then d.creds.value else initCreds;
    Auth(id, creds, d.keys.GetOr(map[]), d.webhook)
  }

  /** `write()`: one upsert of the document keyed by `a.id` that sets `creds`,
      `keys` and `webhook` and leaves every other field and document alone. */
  function Write(docs: map<string, Doc>, a: Auth): (r: map<string, Doc>)
    ensures r.Keys == docs.Keys + {a.id}
    ensures forall k | k in docs && k != a.id :: r[k] == docs[k]
    ensures r[a.id].creds == Some(a.creds) && r[a.id].keys == Some(a.keys) && r[a.id].webhook == a.webhook
    ensures r[a.id].apiKey == if a.id in docs then docs[a.id].apiKey else None
  {
    var d := if a.id in docs then docs[a.id] else EmptyDoc;
    docs[a.id := d.(creds := Some(a.creds), keys := Some(a.keys), webhook := a.webhook)]
  }

  /** `keys.get(type, ids)`: an entry for every requested id, holding the
      stored material or `undefined`. */
  function Get(a: Auth, category: string, ids: seq<string>): (r: map<string, Option<Value>>)
    ensures r.Keys == set id | id in ids
    ensures forall id | id in r :: r[id].Some? <==> category in a.keys && id in a.keys[category]
    ensures forall id | id in r && r[id].Some? :: r[id].value == a.keys[category][id]
  {
    map id | id in ids :: if category in a.keys && id in a.keys[category] then Some(a.keys[category][id]) else None
  }

  /** The key map after `keys.set(data)`: each category of `data` is created
      if missing and `Object.assign`ed with the given entries. */
  function Assign(keys: KeyStore, data: KeyStore): (r: KeyStore)
    ensures r.Keys == keys.Keys + data.Keys
  {
    map c | c in keys.Keys + data.Keys ::
      if c in data then (if c in keys then keys[c] else map[]) + data[c] else keys[c]
  }

  /** `keys.set(data)`: merge, then write the document. The given entries
      are added or overwritten; every other category and every other id of a
      given category keeps its material. */
  function SetKeys(a: Auth, docs: map<string, Doc>, data: KeyStore): (r: (Auth, map<string, Doc>))
    ensures r.0.id == a.id && r.0.creds == a.creds && r.0.webhook == a.webhook
    ensures r.0.keys.Keys == a.keys.Keys + data.Keys
    ensures forall c, id | c in data && id in data[c] :: id in r.0.keys[c] && r.0.keys[c][id] == data[c][id]
    ensures forall c | c in a.keys && c !in data :: r.0.keys[c] == a.keys[c]
    ensures forall c, id | c in a.keys && id in a.keys[c] && (c !in data || id !in data[c]) ::
      id in r.0.keys[c] && r.0.keys[c][id] == a.keys[c][id]
    ensures forall c | c in data ::
      (r.0.keys[c].Keys == (if c in a.keys then a.keys[c].Keys else {}) + data[c].Keys)
    ensures r.1 == Write(docs, r.0)
  {
    var a' := a.(keys := Assign(a.keys, data));
    (a', Write(docs, a'))
  }

  /** `saveCreds()`: write the document as it stands. */
  function SaveCreds(a: Auth, docs: map<string, Doc>): (r: map<string, Doc>)
    ensures a.id in r && r[a.id].creds == Some(a.creds) && r[a.id].keys == Some(a.keys)
    ensures forall k | k in docs && k != a.id :: k in r && r[k] == docs[k]
  {
    Write(docs, a)
  }

  /** `setWebhook(w)`: remember the webhook, then write the document. */
  function SetWebhook(a: Auth, docs: map<string, Doc>, w: Option<string>): (r: (Auth, map<string, Doc>))
    ensures r.0.webhook == w && r.0.keys == a.keys && r.0.creds == a.creds
    ensures r.1 == Write(docs, r.0)
    ensures a.id in r.1 && r.1[a.id].webhook == w
  {
    var a' := a.(webhook := w);
    (a', Write(docs, a'))
  }

  /** Every id given to `set` reads back as the material it was given. */
  lemma GetAfterSet(a: Auth, docs: map<string, Doc>, data: KeyStore, category: string, ids: seq<string>)
    requires category in data
    ensures forall id | id in ids && id in data[category] ::
      Get(SetKeys(a, docs, data).0, category, ids)[id] == Some(data[category][id])
  {
  }

  /** Reading back a written document reproduces the credential state. */
  lemma LoadAfterWrite(docs: map<string, Doc>, a: Auth, initCreds: Value)
    requires IsTruthy(a.creds)
    ensures Load(Write(docs, a), a.id, initCreds) == a
  {
  }

  /** Without a stored document the instance starts from initCreds credentials
      and no keys. */
  lemma LoadBlank(docs: map<string, Doc>, id: string, initCreds: Value)
    requires id !in docs
    ensures Load(docs, id, initCreds).keys == map[]
    ensures Load(docs, id, initCreds).creds == initCreds
  {
  }
}

=== FILE: bson.dfy ===
/** Conversion of documents read back from the document store: every BSON
    binary node becomes a plain byte buffer (sessions/mongoStore.js `toBuffer`
    and its twin in sessions/mongoAuthState.js). */
module Bson {
  import opened Js

  /** No BSON binary node occurs anywhere inside `v`. */
  predicate NoBinary(v: Value) {
    match v
    case Binary(_) => false
    case Arr(xs) => forall i | 0 <= i < |xs| :: NoBinary(xs[i])
    case Obj(fs) => forall k | k in fs :: NoBinary(fs[k])
    case _ => true
  }

  /** The message-store variant: falsy and non-object values are returned
      unchanged, a binary node by its buffer, arrays element-wise, and every
      property of any other object is converted in place. */
  function ToBuffer(v: Value): (r: Value)
    ensures NoBinary(r)
    ensures !IsObject(v) ==> r == v
    ensures v.Binary? ==> r == Buffer(v.bytes)
    ensures NoBinary(v) ==> r == v
    ensures v.Arr? ==> r.Arr? && |r.items| == |v.items|
    ensures v.Arr? ==> forall i | 0 <= i < |v.items| ::
      (v.items[i].Binary? ==> r.items[i] == Buffer(v.items[i].bytes))
      && (NoBinary(v.items[i]) ==> r.items[i] == v.items[i])
    ensures v.Obj? ==> r.Obj? && r.fields.Keys == v.fields.Keys
    ensures v.Obj? ==> forall k | k in v.fields ::
      (v.fields[k].Binary? ==> r.fields[k] == Buffer(v.fields[k].bytes))
      && (NoBinary(v.fields[k]) ==> r.fields[k] == v.fields[k])
  {
    match v
    case Binary(bytes) => Buffer(bytes)
    case Arr(xs) => Arr(seq(|xs|, i requires 0 <= i < |xs| => ToBuffer(xs[i])))
    case Obj(fs) => Obj(map k | k in fs :: ToBuffer(fs[k]))
    case _ => v
  }

  /** The credential-store variant, which has no array branch: an array is an
      object whose enumerable keys are its indices, so `for (const k in obj)`
      converts it index by index in place. */
  function ToBufferAuth(v: Value): (r: Value)
    ensures !IsObject(v) ==> r == v
  {
    if !IsTruthy(v) || !IsObject(v) then v
    else if v.Binary? then Buffer(v.bytes)
    else if v.Arr? then ForInArray(v.items, v.items, 0)
    else if v.Obj? then Obj(map k | k in v.fields :: ToBufferAuth(v.fields[k]))
    else v
  }

  /** `for (const k in arr) arr[k] = toBuffer(arr[k])`: `arr` is the array
      being converted in place, already converted below index `i`. */
  function ForInArray(xs: seq<Value>, arr: seq<Value>, i: nat): (r: Value)
    requires i <= |xs| == |arr|
    requires arr[i..] == xs[i..]
    ensures r.Arr? && |r.items| == |xs|
    decreases xs, |xs| - i
  {
    if i == |xs| then Arr(arr)
    else
      assert arr[i] == arr[i..][0] == xs[i..][0] == xs[i];
      ForInArray(xs, arr[i := ToBufferAuth(xs[i])], i + 1)
  }

  /** The in-place loop converts every element of the original array. */
  lemma {:induction false} ForInArrayConverts(xs: seq<Value>, arr: seq<Value>, i: nat)
    requires i <= |xs| == |arr|
    requires arr[i..] == xs[i..]
    requires forall j | 0 <= j < i :: arr[j] == ToBufferAuth(xs[j])
    ensures forall j | 0 <= j < |xs| :: ForInArray(xs, arr, i).items[j] == ToBufferAuth(xs[j])
    decreases |xs| - i
  {
    if i < |xs| {
      assert arr[i] == arr[i..][0] == xs[i..][0] == xs[i];
      var arr' := arr[i := ToBufferAuth(xs[i])];
      assert arr'[i + 1..] == xs[i + 1..] by {
        assert arr'[i + 1..] == arr[i + 1..] == arr[i..][1..];
      }
      ForInArrayConverts(xs, arr', i + 1);
    }
  }

  /** The missing array branch makes no difference: both variants convert
      every document the same way. */
  lemma {:induction false} AuthAndStoreAgree(v: Value)
    ensures ToBufferAuth(v) == ToBuffer(v)
  {
    match v
    case Arr(xs) =>
      ForInArrayConverts(xs, xs, 0);
      forall j | 0 <= j < |xs| ensures ToBufferAuth(xs[j]) == ToBuffer(xs[j]) {
        AuthAndStoreAgree(xs[j]);
      }
      assert ForInArray(xs, xs, 0).items == ToBuffer(v).items;
    case Obj(fs) =>
      forall k | k in fs ensures ToBufferAuth(fs[k]) == ToBuffer(fs[k]) {
        AuthAndStoreAgree(fs[k]);
      }
      assert ToBufferAuth(v).fields == ToBuffer(v).fields;
    case _ =>
  }

  /** A document without binary nodes is left as it is. */
  lemma {:induction false} ToBufferFixesConverted(v: Value)
    requires NoBinary(v)
    ensures ToBuffer(v) == v
  {
    match v
    case Arr(xs) =>
      forall j | 0 <= j < |xs| ensures ToBuffer(xs[j]) == xs[j] {
        ToBufferFixesConverted(xs[j]);
      }
      assert ToBuffer(v).items == xs;
    case Obj(fs) =>
      forall k | k in fs ensures ToBuffer(fs[k]) == fs[k] {
        ToBufferFixesConverted(fs[k]);
      }
      assert ToBuffer(v).fields == fs;
    case _ =>
  }

  /** Converting twice is converting once. */
  lemma ToBufferIdempotent(v: Value)
    ensures ToBuffer(ToBuffer(v)) == ToBuffer(v)
  {
    ToBufferFixesConverted(ToBuffer(v));
  }
}

=== FILE: dict.dfy ===
/** Insertion-ordered dictionaries with string keys: a JavaScript `Map`, or a
    plain object used as a dictionary whose keys are not array indices.
    Assigning an existing key keeps its position; a new key goes to the end. */
module Dict {
  import opened Js

  datatype Dict<V> = Dict(order: seq<string>, entries: map<string, V>)

  /** The enumeration order lists every key exactly once. */
  ghost predicate Valid<V>(d: Dict<V>) {
    && (forall i, j | 0 <= i < j < |d.order| :: d.order[i] != d.order[j])
    && (forall k :: k in d.entries <==> k in d.order)
  }

  function Empty<V>(): (d: Dict<V>)
    ensures Valid(d)
    ensures d.order == [] && d.entries == map[]
  {
    Dict([], map[])
  }

  /** `d[k]`, or `undefined`. */
  function Get<V>(d: Dict<V>, k: string): (r: Option<V>)
    ensures r.Some? <==> k in d.entries
    ensures r.Some? ==> r.value == d.entries[k]
  {
    if k in d.entries then Some(d.entries[k]) else None
  }

  /** `d[k] = v` (or `map.set(k, v)`). */
  function Put<V>(d: Dict<V>, k: string, v: V): (r: Dict<V>)
    ensures r.entries == d.entries[k := v]
    ensures k in d.entries ==> r.order == d.order
    ensures k !in d.entries ==> r.order == d.order + [k]
    ensures Valid(d) ==> Valid(r)
  {
    if k in d.entries then Dict(d.order, d.entries[k := v]) else Dict(d.order + [k], d.entries[k := v])
  }

  /** `Array.from(map.values())` / `Object.values(obj)`: the values in key order. */
  function Values<V>(d: Dict<V>): (r: seq<V>)
    requires Valid(d)
    ensures |r| == |d.order|
    ensures forall i | 0 <= i < |r| :: r[i] == d.entries[d.order[i]]
  {
    seq(|d.order|, i requires 0 <= i < |d.order| => d.entries[d.order[i]])
  }

  /** The dictionary holding only the first `n` keys of `d`, in `d`'s order. */
  function Prefix<V>(d: Dict<V>, n: nat): (r: Dict<V>)
    requires Valid(d) && n <= |d.order|
    ensures Valid(r)
  {
    Dict(d.order[..n], map k | k in d.order[..n] :: d.entries[k])
  }

  /** Re-inserting the next key of `d` into a prefix of `d` yields the next prefix. */
  lemma PutPrefix<V>(d: Dict<V>, n: nat)
    requires Valid(d) && n < |d.order|
    ensures d.order[n] !in Prefix(d, n).entries
    ensures Put(Prefix(d, n), d.order[n], d.entries[d.order[n]]) == Prefix(d, n + 1)
  {
    var k := d.order[n];
    assert d.order[..n + 1] == d.order[..n] + [k];
    assert k !in d.order[..n] by {
      forall i | 0 <= i < n ensures d.order[..n][i] != k {
        assert d.order[i] != d.order[n];
      }
    }
    var lhs := Put(Prefix(d, n), k, d.entries[k]);
    assert lhs.entries == Prefix(d, n + 1).entries;
  }

  /** The whole of `d` is its longest prefix. */
  lemma FullPrefix<V>(d: Dict<V>)
    requires Valid(d)
    ensures Prefix(d, |d.order|) == d
  {
    assert d.order[..|d.order|] == d.order;
    assert Prefix(d, |d.order|).entries == d.entries;
  }
}

=== FILE: dispatch.dfy ===
/** The event pipeline of one instance (sessions/sessionManager.js,
    `sock.ev.process`): poll creations and votes of a `messages.upsert`
    batch, poll tallies attached to `messages.update` entries, and which raw
    transport events are forwarded to the webhook. */
module Dispatch {
  import opened Js
  import MessageStore
  import opened Polls

  /** A transport event as `ev.process` delivers it. */
  datatype Event =
    | MessagesUpsert(messages: seq<Message>)
    | MessagesUpdate(updates: seq<MessageStore.MessageUpdate>)
    | Other(name: string)

  /** A webhook event the pipeline produces: a synthesized poll event, or the
      raw transport event forwarded under its own name. */
  datatype Outbound =
    | PollCreate(key: Value, poll: Value, results: Value)
    | PollVoteUpdate(event: PollUpdateEvent)
    | PollPatchUpdate(update: MessageStore.Patch)
    | Raw(eventType: string)

  /** What processing an event produced; `thrown` when an exception ended the
      processing callback early. */
  datatype Processed = Processed(store: Store, out: seq<Outbound>, thrown: bool)

  function EventName(e: Event): string {
    match e
    case MessagesUpsert(_) => "messages.upsert"
    case MessagesUpdate(_) => "messages.update"
    case Other(n) => n
  }

  /** The forwarding rule: a raw `messages.upsert` is held back when one of
      its messages carries a poll vote; every other event is forwarded. */
  predicate ShouldForward(e: Event) {
    !e.MessagesUpsert? || forall i | 0 <= i < |e.messages| :: !IsTruthy(PollUpdateOf(e.messages[i]))
  }

  /** `handlePollCreation`: the creation's key, content and empty tally. */
  function CreationEvent(lib: Lib, me: string, m: Message): Outbound {
    PollCreate(KeyValue(m.key), Content(m), lib.aggregate(Content(m), Arr([]), me))
  }

  /** The `messages.upsert` loop: a poll creation yields `poll.create`, any
      other message goes through `handlePollVote`. `fetch(m)` is what the
      fallback fetch for vote `m` would return. */
  function ProcessMessages(lib: Lib, me: string, s: Store, msgs: seq<Message>, fetch: Message -> Fetch): (r: Processed)
    ensures MessageStore.Valid(s) ==> MessageStore.Valid(r.store)
    ensures forall e | e in r.out :: e.PollCreate? || e.PollVoteUpdate?
    decreases |msgs|
  {
    if msgs == [] then Processed(s, [], false)
    else
      var m := msgs[0];
      if IsPollCreation(m) then
        var rest := ProcessMessages(lib, me, s, msgs[1..], fetch);
        Processed(rest.store, [CreationEvent(lib, me, m)] + rest.out, rest.thrown)
      else
        var v := HandleVote(lib, me, s, m, fetch(m));
        if v.outcome == Thrown then Processed(v.store, [], true)
        else
          var here := if v.outcome.Emit? then [PollVoteUpdate(v.outcome.event)] else [];
          var rest := ProcessMessages(lib, me, v.store, msgs[1..], fetch);
          Processed(rest.store, here + rest.out, rest.thrown)
  }

  /** Unless a vote threw, every poll creation of the batch yields its
      `poll.create` event. */
  lemma {:induction false} CreationsAnnounced(lib: Lib, me: string, s: Store, msgs: seq<Message>, fetch: Message -> Fetch)
    ensures var r := ProcessMessages(lib, me, s, msgs, fetch);
            !r.thrown ==> forall i | 0 <= i < |msgs| && IsPollCreation(msgs[i]) :: CreationEvent(lib, me, msgs[i]) in r.out
    decreases |msgs|
  {
    if msgs != [] {
      assert forall i | 1 <= i < |msgs| :: msgs[i] == msgs[1..][i - 1];
      var m := msgs[0];
      if IsPollCreation(m) {
        CreationsAnnounced(lib, me, s, msgs[1..], fetch);
      } else {
        var v := HandleVote(lib, me, s, m, fetch(m));
        if v.outcome != Thrown {
          CreationsAnnounced(lib, me, v.store, msgs[1..], fetch);
        }
      }
    }
  }

  /** Only a message carrying a poll vote can end the batch with an exception. */
  lemma {:induction false} OnlyVotesThrow(lib: Lib, me: string, s: Store, msgs: seq<Message>, fetch: Message -> Fetch)
    ensures ProcessMessages(lib, me, s, msgs, fetch).thrown ==>
      exists i | 0 <= i < |msgs| :: !IsPollCreation(msgs[i]) && IsTruthy(PollUpdateOf(msgs[i]))
    decreases |msgs|
  {
    if msgs != [] {
      var m := msgs[0];
      if IsPollCreation(m) {
        OnlyVotesThrow(lib, me, s, msgs[1..], fetch);
        assert forall i | 1 <= i < |msgs| :: msgs[i] == msgs[1..][i - 1];
      } else {
        var v := HandleVote(lib, me, s, m, fetch(m));
        if v.outcome != Thrown {
          OnlyVotesThrow(lib, me, v.store, msgs[1..], fetch);
          assert forall i | 1 <= i < |msgs| :: msgs[i] == msgs[1..][i - 1];
        }
      }
    }
  }

  /** The `messages.update` loop: an entry carrying poll updates is sent as
      `poll.update`, with the recomputed tally attached when the creation
      message is in the store. `pollUpdates[0].pollCreationMessageKey` throws
      when the array is empty or the key is missing. */
  function ProcessUpdates(lib: Lib, me: string, s: Store, ups: seq<MessageStore.MessageUpdate>): (r: Processed)
    ensures r.store == s
    ensures forall e | e in r.out :: e.PollPatchUpdate?
    ensures |r.out| <= |ups|
    ensures r.thrown ==> exists i | 0 <= i < |ups| :: "pollUpdates" in ups[i].update.fields
    decreases |ups|
  {
    if ups == [] then Processed(s, [], false)
    else
      var u := ups[0];
      var pus := if "pollUpdates" in u.update.fields then u.update.fields["pollUpdates"] else Undefined;
      if !IsTruthy(pus) then
        var rest := ProcessUpdates(lib, me, s, ups[1..]);
        Processed(s, rest.out, rest.thrown)
      else
        var first := if pus.Arr? then (if |pus.items| > 0 then pus.items[0] else Undefined) else Get(pus, "0");
        var ck := Get(first, "pollCreationMessageKey");
        if first in {Undefined, Null} || ck in {Undefined, Null} then Processed(s, [], true)
        else
          var j := AsString(Get(ck, "remoteJid"));
          var jid := if Truthy(j) then j.value else u.key.remoteJid;
          var cid := AsString(Get(ck, "id"));
          var pc := if cid.Some? then MessageStore.LoadMessage(s, jid, cid.value) else None;
          var update := if pc.Some?
            then u.update.(fields := u.update.fields["results" := lib.aggregate(Content(pc.value), pus, me)])
            else u.update;
          var rest := ProcessUpdates(lib, me, s, ups[1..]);
          Processed(s, [PollPatchUpdate(update)] + rest.out, rest.thrown)
  }

  /** One event of an `ev.process` batch: its poll handling, then the raw
      event when the forwarding rule lets it through and nothing threw. */
  function ProcessEvent(lib: Lib, me: string, s: Store, e: Event, fetch: Message -> Fetch): (r: Processed)
    ensures MessageStore.Valid(s) ==> MessageStore.Valid(r.store)
    ensures Raw(EventName(e)) in r.out <==> !r.thrown && ShouldForward(e)
    ensures e.Other? ==> r == Processed(s, [Raw(e.name)], false)
  {
    match e
    case MessagesUpsert(msgs) =>
      var p := ProcessMessages(lib, me, s, msgs, fetch);
      Processed(p.store, p.out + (if !p.thrown && ShouldForward(e) then [Raw(EventName(e))] else []), p.thrown)
    case MessagesUpdate(ups) =>
      var p := ProcessUpdates(lib, me, s, ups);
      Processed(p.store, p.out + (if !p.thrown then [Raw(EventName(e))] else []), p.thrown)
    case Other(n) => Processed(s, [Raw(n)], false)
  }

  /** The `ev.process` callback over the entries of one event map, in
      order. An exception rejects the callback, so the entries after a
      throwing one are neither tallied nor forwarded. */
  function ProcessBatch(lib: Lib, me: string, s: Store, es: seq<Event>, fetch: Message -> Fetch): (r: Processed)
    ensures MessageStore.Valid(s) ==> MessageStore.Valid(r.store)
    ensures es == [] ==> r == Processed(s, [], false)
    decreases |es|
  {
    if es == [] then Processed(s, [], false)
    else
      var p := ProcessEvent(lib, me, s, es[0], fetch);
      if p.thrown then p
      else
        var rest := ProcessBatch(lib, me, p.store, es[1..], fetch);
        Processed(rest.store, p.out + rest.out, rest.thrown)
  }

  /** Once an entry throws, the rest of the map is skipped: appending more
      entries after a thrown prefix changes nothing. */
  lemma {:induction false} ThrownBatchEndsEarly(lib: Lib, me: string, s: Store, es1: seq<Event>, es2: seq<Event>, fetch: Message -> Fetch)
    requires ProcessBatch(lib, me, s, es1, fetch).thrown
    ensures ProcessBatch(lib, me, s, es1 + es2, fetch) == ProcessBatch(lib, me, s, es1, fetch)
    decreases |es1|
  {
    var es := es1 + es2;
    assert es[0] == es1[0];
    var p := ProcessEvent(lib, me, s, es1[0], fetch);
    if p.thrown {
      assert ProcessBatch(lib, me, s, es, fetch) == p;
    } else {
      assert es[1..] == es1[1..] + es2;
      ThrownBatchEndsEarly(lib, me, p.store, es1[1..], es2, fetch);
    }
  }

  /** Without a throw, every entry the forwarding rule lets through is
      forwarded under its own name. */
  lemma {:induction false} BatchForwards(lib: Lib, me: string, s: Store, es: seq<Event>, fetch: Message -> Fetch)
    ensures var r := ProcessBatch(lib, me, s, es, fetch);
      !r.thrown ==> forall i | 0 <= i < |es| && ShouldForward(es[i]) :: Raw(EventName(es[i])) in r.out
    decreases |es|
  {
    if es != [] {
      var p := ProcessEvent(lib, me, s, es[0], fetch);
      if !p.thrown {
        BatchForwards(lib, me, p.store, es[1..], fetch);
        assert forall i | 1 <= i < |es| :: es[i] == es[1..][i - 1];
      }
    }
  }

  /** A map of events other than the two message events never throws,
      leaves the store alone and forwards each entry in order. */
  lemma {:induction false} OtherEntriesForwarded(lib: Lib, me: string, s: Store, es: seq<Event>, fetch: Message -> Fetch)
    requires forall i | 0 <= i < |es| :: es[i].Other?
    ensures ProcessBatch(lib, me, s, es, fetch) == Processed(s, seq(|es|, i requires 0 <= i < |es| => Raw(es[i].name)), false)
    decreases |es|
  {
    if es != [] {
      OtherEntriesForwarded(lib, me, s, es[1..], fetch);
      assert [Raw(es[0].name)] + seq(|es| - 1, i requires 0 <= i < |es| - 1 => Raw(es[1..][i].name))
          == seq(|es|, i requires 0 <= i < |es| => Raw(es[i].name));
    }
  }

  /** A map of one entry is processed as that entry alone. */
  lemma SingleEntryBatch(lib: Lib, me: string, s: Store, e: Event, fetch: Message -> Fetch)
    ensures ProcessBatch(lib, me, s, [e], fetch) == ProcessEvent(lib, me, s, e, fetch)
  {
    var p := ProcessEvent(lib, me, s, e, fetch);
    if !p.thrown {
      assert [e][1..] == [];
      assert p.out + [] == p.out;
    }
  }

  /** `sendWebhookEvent`: nothing is sent unless the instance has a webhook. */
  function Deliver<T>(webhook: Option<string>, out: seq<T>): (r: seq<T>)
    ensures !Truthy(webhook) ==> r == []
    ensures Truthy(webhook) ==> r == out
  {
    if Truthy(webhook) then out else []
  }

  /** Processed on its own, an event other than the two message events is
      forwarded verbatim; in a map with other entries, `ThrownBatchEndsEarly`
      says when it is skipped. */
  lemma OtherEventsAlwaysForwarded(lib: Lib, me: string, s: Store, name: string, fetch: Message -> Fetch)
    requires name != "messages.upsert" && name != "messages.update"
    ensures ProcessEvent(lib, me, s, Other(name), fetch).out == [Raw(name)]
  {
  }
}

=== FILE: instance_api.dfy ===
/** The single-file v5 server (code.js): the persisted instance list, the
    runtime registry of live sockets, the two key checks, and the list and
    registry effects of the `/instance` routes.

    The instance file is a sequence of configuration records; the session
    directories are a set of names; each runtime record carries the
    generation of its socket. Closing an instance removes all listeners of
    its socket, so an event is handled only while its socket is the one
    registered under the id. */
module InstanceApi {
  import opened Js

  /** `DisconnectReason.loggedOut`. */
  const LoggedOut := 401

  /** One entry of `instances.json`. */
  datatype Cfg = Cfg(id: string, phone: string, webhook: string, pairingCode: Option<string>, instanceKey: string)

  /** The fields `patchCfg` is given; `None` is a field the patch lacks, and
      `pairingCode := Some(None)` writes null. */
  datatype CfgPatch = CfgPatch(phone: Option<string>, webhook: Option<string>, pairingCode: Option<Option<string>>)

  /** `{ ...c, ...p }`: the fields present in the patch win. */
  function ApplyPatch(c: Cfg, p: CfgPatch): (r: Cfg)
    ensures r.id == c.id && r.instanceKey == c.instanceKey
    ensures r.phone == p.phone.GetOr(c.phone) && r.webhook == p.webhook.GetOr(c.webhook)
    ensures r.pairingCode == p.pairingCode.GetOr(c.pairingCode)
  {
    Cfg(c.id, p.phone.GetOr(c.phone), p.webhook.GetOr(c.webhook), p.pairingCode.GetOr(c.pairingCode), c.instanceKey)
  }

  /** `list.findIndex(c => c.id === id)`. */
  function FindIndex(list: seq<Cfg>, id: string): (r: Option<nat>)
    ensures r.Some? ==> r.value < |list| && list[r.value].id == id
    ensures r.Some? ==> forall j | 0 <= j < r.value :: list[j].id != id
    ensures r.None? <==> forall j | 0 <= j < |list| :: list[j].id != id
  {
    if list == [] then None
    else if list[0].id == id then Some(0)
    else match FindIndex(list[1..], id)
      case None => None
      case Some(i) => Some(i + 1)
  }

  predicate Configured(list: seq<Cfg>, id: string) {
    exists i | 0 <= i < |list| :: list[i].id == id
  }

  /** No two entries of the file share an id. */
  predicate UniqueIds(list: seq<Cfg>) {
    forall i, j | 0 <= i < j < |list| :: list[i].id != list[j].id
  }

  /** `patchCfg(id, p)`: the first entry with that id is merged with the
      patch; every other entry is untouched; no entry, no change. */
  function PatchCfg(list: seq<Cfg>, id: string, p: CfgPatch): (r: seq<Cfg>)
    ensures |r| == |list|
    ensures forall i | 0 <= i < |list| :: r[i].id == list[i].id
    ensures !Configured(list, id) ==> r == list
    ensures Configured(list, id) ==> exists i | 0 <= i < |list| && list[i].id == id ::
      r[i] == ApplyPatch(list[i], p) && forall j | 0 <= j < |list| && j != i :: r[j] == list[j]
    ensures UniqueIds(list) ==> UniqueIds(r)
  {
    match FindIndex(list, id)
    case None => list
    case Some(i) => list[i := ApplyPatch(list[i], p)]
  }

  /** The file without the entry at `i` (`list.splice(i, 1)`). */
  function RemoveAt(list: seq<Cfg>, i: nat): (r: seq<Cfg>)
    requires i < |list|
    ensures |r| == |list| - 1
    ensures UniqueIds(list) ==> UniqueIds(r)
    ensures UniqueIds(list) ==> forall c :: c in r <==> c in list && c.id != list[i].id
  {
    var r := list[..i] + list[i + 1..];
    assert forall j | 0 <= j < |r| :: r[j] == (if j < i then list[j] else list[j + 1]);
    r
  }

  // ---------------------------------------------------------------------
  // Runtime

  /** `rec.cfg`: phone and webhook as given to `init` (possibly undefined)
      and the instance key the webhook payload carries. */
  datatype RtCfg = RtCfg(phone: Option<string>, webhook: Option<string>, instanceKey: string)

  /** A runtime record. `argPhone`/`argWebhook` are the arguments of the
      `init` call that created it, which its close handler reuses;
      `watchdog` is the number the pairing watchdog recreates with, while
      that watchdog is armed. */
  datatype Rec = Rec(gen: nat, cfg: RtCfg, pairingCode: Option<string>, watchdog: Option<string>,
                     argPhone: Option<string>, argWebhook: Option<string>)

  /** The process state: the instance file, the runtime map, the names of
      the session directories, and the generation the next socket gets. */
  datatype Runtime = Runtime(list: seq<Cfg>, instances: map<string, Rec>, dirs: set<string>, nextGen: nat)

  /** Ids in the file are unique, every running instance is configured and
      has a directory, and its socket was already created. */
  ghost predicate Valid(rt: Runtime) {
    && UniqueIds(rt.list)
    && forall id | id in rt.instances ::
         Configured(rt.list, id) && id in rt.dirs && rt.instances[id].gen < rt.nextGen
  }

  /** `closeInstance(id, rmCreds)`: the runtime entry always goes (with its
      watchdog and listeners); the session directory goes only with
      `rmCreds`. */
  function CloseInstance(rt: Runtime, id: string, rmCreds: bool): (r: Runtime)
    ensures r.instances == rt.instances - {id}
    ensures r.dirs == if rmCreds then rt.dirs - {id} else rt.dirs
    ensures r.list == rt.list && r.nextGen == rt.nextGen
  {
    rt.(instances := rt.instances - {id}, dirs := if rmCreds then rt.dirs - {id} else rt.dirs)
  }

  /** What the pairing step of `init` met: registered credentials, a pairing
      code (with the number typed at the prompt, used when no phone was
      given), or a failed code request. It is an input, not derived from the
      runtime: right after `closeInstance(id, true)` has removed the
      credential directory (`Restart`, `OnWatchdog`, a logged-out close) the
      source can only meet `Paired` or `PairFailed`, and no contract here
      depends on a caller passing `Registered` there. */
  datatype Pairing = Registered | Paired(code: string, typed: string) | PairFailed

  datatype InitOutcome = Ready | RetryPairing

  /** `init(id, phone, webhook)` up to the point where it returns: create
      the directory and a new socket, register the record (taking over the
      configuration of a record still registered), then pair. A failed
      pairing closes the instance with its credentials and asks for a
      retry. */
  function Init(rt: Runtime, id: string, phone: Option<string>, webhook: Option<string>, pairing: Pairing): (r: (Runtime, InitOutcome))
    ensures r.0.nextGen == rt.nextGen + 1
    ensures r.1 == RetryPairing <==> pairing == PairFailed
    ensures r.1 == RetryPairing ==> r.0.instances == rt.instances - {id} && r.0.dirs == rt.dirs - {id} && r.0.list == rt.list
    ensures r.1 == Ready ==> id in r.0.instances && r.0.instances[id].gen == rt.nextGen && id in r.0.dirs
    ensures r.1 == Ready ==> r.0.instances.Keys == rt.instances.Keys + {id} && r.0.dirs == rt.dirs + {id}
    ensures r.1 == Ready && id !in rt.instances ==>
      r.0.instances[id].cfg.webhook == webhook && r.0.instances[id].cfg.instanceKey == ""
    ensures r.1 == Ready && id in rt.instances ==>
      r.0.instances[id].cfg.webhook == rt.instances[id].cfg.webhook && r.0.instances[id].cfg.instanceKey == rt.instances[id].cfg.instanceKey
    ensures forall k | k in rt.instances && k != id :: k in r.0.instances && r.0.instances[k] == rt.instances[k]
    ensures |r.0.list| == |rt.list|
    ensures forall i | 0 <= i < |rt.list| :: r.0.list[i].id == rt.list[i].id
    ensures UniqueIds(rt.list) ==> UniqueIds(r.0.list)
    ensures pairing.Paired? ==> r.0.instances[id].pairingCode == Some(pairing.code) && r.0.instances[id].watchdog.Some?
    ensures pairing.Paired? && Configured(rt.list, id) ==>
      rt.list[FindIndex(rt.list, id).value].id == id && r.0.list[FindIndex(rt.list, id).value].pairingCode == Some(pairing.code)
  {
    var g := rt.nextGen;
    var cfg := if id in rt.instances then rt.instances[id].cfg else RtCfg(phone, webhook, "");
    var rec := Rec(g, cfg, None, None, phone, webhook);
    var rt1 := Runtime(rt.list, rt.instances[id := rec], rt.dirs + {id}, g + 1);
    match pairing
    case Registered => (rt1, Ready)
    case Paired(code, typed) =>
      var ph := if Truthy(phone) then phone.value else typed;
      var rec' := rec.(pairingCode := Some(code), cfg := cfg.(phone := Some(ph)), watchdog := Some(ph));
      var list := PatchCfg(rt.list, id, CfgPatch(Some(ph), None, Some(Some(code))));
      (rt1.(instances := rt1.instances[id := rec'], list := list), Ready)
    case PairFailed => (CloseInstance(rt1, id, true), RetryPairing)
  }

  /** A `connection.update` the handler reads. */
  datatype Connection = ConnOpen | ConnClose | ConnConnecting
  datatype Update = Update(connection: Option<Connection>, statusCode: Option<int>)

  /** Whether socket `from` is the one registered under `id`, i.e. still has
      its listeners. */
  predicate Owns(rt: Runtime, id: string, from: nat) {
    id in rt.instances && rt.instances[id].gen == from
  }

  /** `postHook(id, type, data)`: the payload posted, or none when the
      running record has no webhook. */
  datatype Payload = Payload(instanceId: string, event: string, apiKey: string, instanceKey: string)

  function PostHook(rt: Runtime, apiKey: string, id: string, event: string): (r: Option<Payload>)
    ensures r.Some? <==> id in rt.instances && Truthy(rt.instances[id].cfg.webhook)
    ensures r.Some? ==> r.value == Payload(id, event, apiKey, rt.instances[id].cfg.instanceKey)
  {
    if id in rt.instances && Truthy(rt.instances[id].cfg.webhook)
    then Some(Payload(id, event, apiKey, rt.instances[id].cfg.instanceKey))
    else None
  }

  /** The v5 `connection.update` listeners of socket `from`: the update is
      posted to the webhook; `open` disarms the watchdog and clears the
      pairing code in memory and in the file; `close` disarms the watchdog,
      closes the instance (deleting its credentials only on logout) and runs
      `init` again with the original arguments. */
  function OnConnectionUpdate(rt: Runtime, apiKey: string, id: string, from: nat, u: Update, pairing: Pairing): (r: (Runtime, Option<Payload>))
    ensures !Owns(rt, id, from) ==> r == (rt, None)
    ensures Owns(rt, id, from) ==> r.1 == PostHook(rt, apiKey, id, "connection.update")
    ensures Owns(rt, id, from) && u.connection == Some(ConnOpen) ==>
      id in r.0.instances && r.0.instances[id].pairingCode == None && r.0.instances[id].watchdog == None
      && r.0.instances[id].gen == from && r.0.list == PatchCfg(rt.list, id, CfgPatch(None, None, Some(None)))
    ensures Owns(rt, id, from) && u.connection == Some(ConnClose) ==>
      r.0 == Init(CloseInstance(rt, id, u.statusCode == Some(LoggedOut)), id,
                  rt.instances[id].argPhone, rt.instances[id].argWebhook, pairing).0
    ensures u.connection !in {Some(ConnOpen), Some(ConnClose)} ==> r.0 == rt
  {
    if !Owns(rt, id, from) then (rt, None)
    else
      var posted := PostHook(rt, apiKey, id, "connection.update");
      var rec := rt.instances[id];
      if u.connection == Some(ConnOpen) then
        var rec' := rec.(watchdog := None, pairingCode := None);
        (rt.(instances := rt.instances[id := rec'], list := PatchCfg(rt.list, id, CfgPatch(None, None, Some(None)))), posted)
      else if u.connection == Some(ConnClose) then
        var closed := CloseInstance(rt, id, u.statusCode == Some(LoggedOut));
        (Init(closed, id, rec.argPhone, rec.argWebhook, pairing).0, posted)
      else (rt, posted)
  }

  /** The pairing watchdog of socket `from` expiring: close with credentials
      and `init` again with the number used for pairing. */
  function OnWatchdog(rt: Runtime, id: string, from: nat, pairing: Pairing): (r: Runtime)
    ensures !Owns(rt, id, from) || rt.instances[id].watchdog.None? ==> r == rt
    ensures Owns(rt, id, from) && rt.instances[id].watchdog.Some? && pairing != PairFailed ==>
      id in r.instances && r.instances[id].gen == rt.nextGen && r.instances[id].argPhone == rt.instances[id].watchdog
  {
    if !Owns(rt, id, from) || rt.instances[id].watchdog.None? then rt
    else Init(CloseInstance(rt, id, true), id, rt.instances[id].watchdog, rt.instances[id].argWebhook, pairing).0
  }

  // ---------------------------------------------------------------------
  // Keys

  /** `hasGlobalKey(k)`: a global key is configured and `k` is it. */
  predicate HasGlobalKey(apiKey: string, k: Option<string>) {
    apiKey != "" && k == Some(apiKey)
  }

  /** `hasInstanceKey(id, k)`. */
  function HasInstanceKey(apiKey: string, list: seq<Cfg>, id: string, k: Option<string>): (r: bool)
    ensures !Truthy(k) ==> !r
    ensures Truthy(k) && HasGlobalKey(apiKey, k) ==> r
    ensures r ==> HasGlobalKey(apiKey, k) || exists i | 0 <= i < |list| :: list[i].id == id && Some(list[i].instanceKey) == k
  {
    if !Truthy(k) then false
    else if HasGlobalKey(apiKey, k) then true
    else match FindIndex(list, id)
      case None => false
      case Some(i) => list[i].instanceKey == k.value
  }

  /** With unique ids, an instance key opens exactly its own instance. */
  lemma InstanceKeyExact(apiKey: string, list: seq<Cfg>, id: string, k: Option<string>)
    requires UniqueIds(list) && Truthy(k) && !HasGlobalKey(apiKey, k)
    ensures HasInstanceKey(apiKey, list, id, k) <==> exists i | 0 <= i < |list| :: list[i].id == id && list[i].instanceKey == k.value
  {
    if i :| 0 <= i < |list| && list[i].id == id && list[i].instanceKey == k.value {
      var f := FindIndex(list, id);
      assert f.Some? && f.value == i;
    }
  }

  // ---------------------------------------------------------------------
  // Routes

  /** A response status and the state after the handler. */
  datatype Reply = Reply(code: int, rt: Runtime)

  /** `POST /instance/create`. `instanceKey` is what `randHex(16)` drew. */
  function Create(rt: Runtime, apiKey: string, header: Option<string>, query: Option<string>, id: Option<string>,
                  phone: Option<string>, webhook: Option<string>, instanceKey: string, pairing: Pairing): (r: Reply)
    ensures !HasGlobalKey(apiKey, Or(header, query)) ==> r == Reply(401, rt)
    ensures HasGlobalKey(apiKey, Or(header, query)) && !Truthy(id) ==> r == Reply(400, rt)
    ensures HasGlobalKey(apiKey, Or(header, query)) && Truthy(id) && Configured(rt.list, id.value) ==> r == Reply(400, rt)
    ensures r.code == 200 <==> HasGlobalKey(apiKey, Or(header, query)) && Truthy(id) && !Configured(rt.list, id.value)
    ensures r.code == 200 ==>
      (|r.rt.list| == |rt.list| + 1
       && r.rt.list[|rt.list|].id == id.value && r.rt.list[|rt.list|].instanceKey == instanceKey
       && forall i | 0 <= i < |rt.list| :: r.rt.list[i] == rt.list[i])
    ensures r.code == 200 && pairing == Registered ==>
      r.rt.list[|rt.list|] == Cfg(id.value, if Truthy(phone) then phone.value else "",
                                  if Truthy(webhook) then webhook.value else "", None, instanceKey)
    ensures Valid(rt) ==> Valid(r.rt)
  {
    if !HasGlobalKey(apiKey, Or(header, query)) then Reply(401, rt)
    else if !Truthy(id) then Reply(400, rt)
    else if FindIndex(rt.list, id.value).Some? then Reply(400, rt)
    else Reply(200, AddInstance(rt, id.value, phone, webhook, instanceKey, pairing))
  }

  /** The part of `POST /instance/create` after the checks: append the entry
      with its defaults, then `init`. */
  function AddInstance(rt: Runtime, id: string, phone: Option<string>, webhook: Option<string>,
                       instanceKey: string, pairing: Pairing): (r: Runtime)
    requires !Configured(rt.list, id)
    ensures |r.list| == |rt.list| + 1
    ensures r.list[|rt.list|].id == id && r.list[|rt.list|].instanceKey == instanceKey
    ensures forall i | 0 <= i < |rt.list| :: r.list[i] == rt.list[i]
    ensures pairing == Registered ==>
      r.list[|rt.list|] == Cfg(id, if Truthy(phone) then phone.value else "",
                               if Truthy(webhook) then webhook.value else "", None, instanceKey)
    ensures Valid(rt) ==> Valid(r)
  {
    var c := Cfg(id, Or(phone, Some("")).value, Or(webhook, Some("")).value, None, instanceKey);
    var listed := rt.(list := rt.list + [c]);
    assert forall i | 0 <= i < |rt.list| :: listed.list[i] == rt.list[i];
    AppendKeepsValid(rt, c, phone, webhook, pairing);
    Init(listed, id, phone, webhook, pairing).0
  }

  /** Appending an entry with a new id and running `init` on it keeps the
      runtime valid. */
  lemma AppendKeepsValid(rt: Runtime, c: Cfg, phone: Option<string>, webhook: Option<string>, pairing: Pairing)
    requires !Configured(rt.list, c.id)
    ensures Valid(rt) ==> Valid(Init(rt.(list := rt.list + [c]), c.id, phone, webhook, pairing).0)
  {
    if Valid(rt) {
      var listed := rt.(list := rt.list + [c]);
      assert forall i | 0 <= i < |rt.list| :: listed.list[i] == rt.list[i];
      assert UniqueIds(listed.list);
      var r := Init(listed, c.id, phone, webhook, pairing).0;
      forall k | k in r.instances
        ensures Configured(r.list, k) && k in r.dirs && r.instances[k].gen < r.nextGen
      {
        if k == c.id {
          assert r.list[|rt.list|].id == k;
        } else {
          var j :| 0 <= j < |rt.list| && rt.list[j].id == k;
          assert r.list[j].id == k;
        }
      }
    }
  }

  /** `DELETE /instance/:id`: the entry leaves the file and the instance is
      closed with its credentials. */
  function Delete(rt: Runtime, id: string): (r: Reply)
    ensures !Configured(rt.list, id) ==> r == Reply(404, rt)
    ensures Configured(rt.list, id) ==>
      (r.code == 200 && |r.rt.list| == |rt.list| - 1 && id !in r.rt.instances && id !in r.rt.dirs)
    ensures Configured(rt.list, id) && UniqueIds(rt.list) ==>
      forall c :: c in r.rt.list <==> c in rt.list && c.id != id
    ensures Valid(rt) ==> Valid(r.rt)
  {
    match FindIndex(rt.list, id)
    case None => Reply(404, rt)
    case Some(i) =>
      var list := RemoveAt(rt.list, i);
      var r := CloseInstance(rt.(list := list), id, true);
      assert Valid(rt) ==> forall k | k in r.instances :: Configured(list, k) by {
        if Valid(rt) {
          forall k | k in r.instances ensures Configured(list, k) {
            var j :| 0 <= j < |rt.list| && rt.list[j].id == k;
            assert rt.list[j] in list;
          }
        }
      }
      Reply(200, r)
  }

  /** `PATCH /instance/:id`: only a truthy phone or webhook is written, to
      the file and to the running record; the reply is always `updated`. */
  function Edit(rt: Runtime, id: string, phone: Option<string>, webhook: Option<string>): (r: Reply)
    ensures r.code == 200 && r.rt.dirs == rt.dirs && r.rt.nextGen == rt.nextGen
    ensures r.rt.list == PatchCfg(rt.list, id, CfgPatch(if Truthy(phone) then phone else None, if Truthy(webhook) then webhook else None, None))
    ensures r.rt.instances.Keys == rt.instances.Keys
    ensures id in rt.instances ==> r.rt.instances[id].cfg.webhook == (if Truthy(webhook) then webhook else rt.instances[id].cfg.webhook)
    ensures id in rt.instances ==> r.rt.instances[id].cfg.phone == (if Truthy(phone) then phone else rt.instances[id].cfg.phone)
    ensures id in rt.instances ==> r.rt.instances[id] == rt.instances[id].(cfg := r.rt.instances[id].cfg)
    ensures forall k | k in rt.instances && k != id :: r.rt.instances[k] == rt.instances[k]
    ensures Valid(rt) ==> Valid(r.rt)
  {
    var p := CfgPatch(if Truthy(phone) then phone else None, if Truthy(webhook) then webhook else None, None);
    var list := PatchCfg(rt.list, id, p);
    var instances := if id in rt.instances then
        var rec := rt.instances[id];
        rt.instances[id := rec.(cfg := rec.cfg.(phone := if Truthy(phone) then phone else rec.cfg.phone,
                                                   webhook := if Truthy(webhook) then webhook else rec.cfg.webhook))]
      else rt.instances;
    assert forall k :: Configured(rt.list, k) ==> Configured(list, k);
    Reply(200, rt.(list := list, instances := instances))
  }

  /** `POST /instance/:id/stop`: only a running instance; credentials stay. */
  function Stop(rt: Runtime, id: string): (r: Reply)
    ensures id !in rt.instances ==> r == Reply(404, rt)
    ensures id in rt.instances ==> r == Reply(200, CloseInstance(rt, id, false)) && r.rt.dirs == rt.dirs
    ensures Valid(rt) ==> Valid(r.rt)
  {
    if id !in rt.instances then Reply(404, rt) else Reply(200, CloseInstance(rt, id, false))
  }

  /** `POST /instance/:id/start`: a configured instance that is not running
      is started from its file entry. */
  function Start(rt: Runtime, id: string, pairing: Pairing): (r: Reply)
    ensures !Configured(rt.list, id) ==> r == Reply(404, rt)
    ensures Configured(rt.list, id) && id in rt.instances ==> r == Reply(400, rt)
    ensures r.code == 200 <==> Configured(rt.list, id) && id !in rt.instances
    ensures r.code == 200 && pairing != PairFailed ==> id in r.rt.instances && r.rt.instances[id].gen == rt.nextGen
    ensures Valid(rt) ==> Valid(r.rt)
  {
    match FindIndex(rt.list, id)
    case None => Reply(404, rt)
    case Some(i) =>
      if id in rt.instances then Reply(400, rt)
      else
        var c := rt.list[i];
        Reply(200, Init(rt, c.id, Some(c.phone), Some(c.webhook), pairing).0)
  }

  /** `POST /instance/:id/restart`: close with credentials, then start again
      from the file entry. */
  function Restart(rt: Runtime, id: string, pairing: Pairing): (r: Reply)
    ensures !Configured(rt.list, id) ==> r == Reply(404, rt)
    ensures Configured(rt.list, id) ==> r.code == 200
    ensures Configured(rt.list, id) && pairing != PairFailed ==>
      id in r.rt.instances && r.rt.instances[id].gen == rt.nextGen && r.rt.instances[id].cfg.instanceKey == ""
    ensures Valid(rt) ==> Valid(r.rt)
  {
    match FindIndex(rt.list, id)
    case None => Reply(404, rt)
    case Some(i) =>
      var c := rt.list[i];
      Reply(200, Init(CloseInstance(rt, id, true), c.id, Some(c.phone), Some(c.webhook), pairing).0)
  }

  /** The routes behind the `/instance/:id` key middleware. */
  datatype InstanceRoute =
    | StopRoute
    | StartRoute(pairing: Pairing)
    | RestartRoute(pairing: Pairing)
    | DeleteRoute
    | EditRoute(phone: Option<string>, webhook: Option<string>)

  /** A request to `/instance/:id/...`: the middleware checks the `apikey`
      header, else the `apikey` query parameter, with `hasInstanceKey` and
      answers 401 before the route runs. */
  function InstanceRequest(rt: Runtime, apiKey: string, id: string, header: Option<string>, query: Option<string>,
                           route: InstanceRoute): (r: Reply)
    ensures r == Reply(401, rt) <==> !HasInstanceKey(apiKey, rt.list, id, Or(header, query))
    ensures !Truthy(header) && !Truthy(query) ==> r == Reply(401, rt)
    ensures r.code == 404 ==> HasInstanceKey(apiKey, rt.list, id, Or(header, query)) && Truthy(Or(header, query))
    ensures Valid(rt) ==> Valid(r.rt)
  {
    if !HasInstanceKey(apiKey, rt.list, id, Or(header, query)) then Reply(401, rt)
    else match route
      case StopRoute => Stop(rt, id)
      case StartRoute(pairing) => Start(rt, id, pairing)
      case RestartRoute(pairing) => Restart(rt, id, pairing)
      case DeleteRoute => Delete(rt, id)
      case EditRoute(phone, webhook) => Edit(rt, id, phone, webhook)
  }

  /** Boot cleanup: remove every session directory that is not a configured
      id, and only those. */
  function Cleanup(dirs: set<string>, list: seq<Cfg>): (r: set<string>)
    ensures forall d :: d in r <==> d in dirs && Configured(list, d)
  {
    set d | d in dirs && FindIndex(list, d).Some?
  }

  // ---------------------------------------------------------------------
  // Properties

  /** No running record ever holds an instance key other than the empty
      one: `init` starts every record with an empty key and copies only the
      key of a record still registered. */
  ghost predicate RuntimeKeysEmpty(rt: Runtime) {
    forall id | id in rt.instances :: rt.instances[id].cfg.instanceKey == ""
  }

  lemma InitKeepsKeysEmpty(rt: Runtime, id: string, phone: Option<string>, webhook: Option<string>, pairing: Pairing)
    requires RuntimeKeysEmpty(rt)
    ensures RuntimeKeysEmpty(Init(rt, id, phone, webhook, pairing).0)
  {
  }

  /** Hence every webhook payload carries an empty instance key, whatever
      key the file records for the instance. */
  lemma HookInstanceKeyEmpty(rt: Runtime, apiKey: string, id: string, event: string)
    requires RuntimeKeysEmpty(rt)
    ensures PostHook(rt, apiKey, id, event).Some? ==> PostHook(rt, apiKey, id, event).value.instanceKey == ""
  {
  }

  /** An instance created through the API starts with an empty runtime
      instance key although its file entry holds the drawn one. */
  lemma CreatedHookKeyEmpty(rt: Runtime, apiKey: string, header: Option<string>, query: Option<string>, id: string,
                            phone: Option<string>, webhook: Option<string>, instanceKey: string)
    requires Valid(rt) && HasGlobalKey(apiKey, Or(header, query)) && id != "" && !Configured(rt.list, id)
    ensures var r := Create(rt, apiKey, header, query, Some(id), phone, webhook, instanceKey, Registered).rt;
            r.list[|rt.list|].instanceKey == instanceKey && r.instances[id].cfg.instanceKey == ""
  {
  }

  /** A webhook changed by `PATCH` is forgotten at the next reconnect: the
      close handler runs `init` with the arguments of the original call. */
  lemma EditLostOnReconnect(rt: Runtime, apiKey: string, id: string, w: string, code: Option<int>)
    requires Valid(rt) && id in rt.instances && w != ""
    ensures var edited := Edit(rt, id, None, Some(w)).rt;
            var g := edited.instances[id].gen;
            var r := OnConnectionUpdate(edited, apiKey, id, g, Update(Some(ConnClose), code), Registered).0;
            edited.instances[id].cfg.webhook == Some(w)
            && r.instances[id].cfg.webhook == rt.instances[id].argWebhook
  {
  }

  /** Events of a closed socket are ignored: after a stop, restart or
      delete, nothing the old socket emits changes the state. */
  lemma ClosedSocketIgnored(rt: Runtime, apiKey: string, id: string, u: Update, pairing: Pairing, p2: Pairing)
    requires Valid(rt) && id in rt.instances
    ensures var g := rt.instances[id].gen;
            var r := Restart(rt, id, pairing).rt;
            OnConnectionUpdate(r, apiKey, id, g, u, p2) == (r, None)
  {
  }

  /** Every route keeps the file free of duplicate ids. */
  lemma RoutesKeepIdsUnique(rt: Runtime, apiKey: string, header: Option<string>, query: Option<string>, id: string,
                            phone: Option<string>, webhook: Option<string>, instanceKey: string, pairing: Pairing)
    requires UniqueIds(rt.list)
    ensures UniqueIds(Create(rt, apiKey, header, query, Some(id), phone, webhook, instanceKey, pairing).rt.list)
    ensures UniqueIds(Delete(rt, id).rt.list)
    ensures UniqueIds(Edit(rt, id, phone, webhook).rt.list)
  {
    var c := Cfg(id, Or(phone, Some("")).value, Or(webhook, Some("")).value, None, instanceKey);
    if HasGlobalKey(apiKey, Or(header, query)) && id != "" && !Configured(rt.list, id) {
      var l := rt.list + [c];
      assert forall i | 0 <= i < |rt.list| :: l[i] == rt.list[i];
      assert UniqueIds(l);
    }
  }
}

=== FILE: js.dfy ===
/** JavaScript values as the services see them: `undefined`/`null` versus a
    present value, truthiness, the `||` default operator and optional
    chaining over JSON-like documents. */
module Js {

  /** A value that may be `undefined` (or `null`) in the source. */
  datatype Option<+T> = None | Some(value: T) {

    /** The value, or `default` when absent. */
    function GetOr(default: T): T {
      match this
      case Some(v) => v
      case None => default
    }
  }

  /** The outcome of an operation that may throw; `error` names the exception. */
  datatype Result<+T> = Success(value: T) | Failure(error: string)

  /** JavaScript truthiness of a string that may be missing: `undefined`,
      `null` and `""` are falsy, every other string is truthy. */
  predicate Truthy(s: Option<string>) {
    s.Some? && s.value != ""
  }

  /** `a || b` over strings that may be missing. */
  function Or(a: Option<string>, b: Option<string>): (r: Option<string>)
    ensures Truthy(a) ==> r == a
    ensures !Truthy(a) ==> r == b
    ensures Truthy(r) <==> Truthy(a) || Truthy(b)
  {
    if Truthy(a) then a else b
  }

  /** `a || null` over strings that may be missing: the falsy ones collapse to `null`. */
  function OrNull(a: Option<string>): (r: Option<string>)
    ensures r.Some? <==> Truthy(a)
    ensures r.Some? ==> r == a
  {
    Or(a, None)
  }

  /** A JSON/BSON-like document value. `Binary` is a BSON binary node (the
      shape the document store hands back); `Buffer` is a Node byte buffer.
      Numbers are integers: floating point is not modelled. */
  datatype Value =
    | Undefined
    | Null
    | Bool(b: bool)
    | Num(n: int)
    | Str(s: string)
    | Binary(bytes: seq<bv8>)
    | Buffer(data: seq<bv8>)
    | Arr(items: seq<Value>)
    | Obj(fields: map<string, Value>)

  /** JavaScript truthiness of a value (objects, arrays and buffers are always truthy). */
  predicate IsTruthy(v: Value) {
    match v
    case Undefined => false
    case Null => false
    case Bool(b) => b
    case Num(n) => n != 0
    case Str(s) => s != ""
    case _ => true
  }

  /** `typeof v === 'object' && v !== null`. */
  predicate IsObject(v: Value) {
    v.Binary? || v.Buffer? || v.Arr? || v.Obj?
  }

  /** Optional property access `v?.name`: `undefined` unless `v` is an object
      that has the property. */
  function Get(v: Value, name: string): (r: Value)
    ensures r != Undefined ==> v.Obj? && name in v.fields && r == v.fields[name]
  {
    if v.Obj? && name in v.fields then v.fields[name] else Undefined
  }

  /** A string-valued property read as an optional string. */
  function AsString(v: Value): (r: Option<string>)
    ensures r.Some? <==> v.Str?
  {
    if v.Str? then Some(v.s) else None
  }
}

=== FILE: message_controller.dfy ===
/** The message handlers of controllers/messageController.js: argument
    checks, the recipient jid, the quoted-message reference, the media type
    classifier, mentions in ghost mode, and the poll that is sent and then
    kept in the instance's store. What the socket sends is returned as an
    `Outgoing` value, and `sendOk` says whether the socket's send resolved:
    a rejected send is answered with 500. */
module MessageController {
  import opened Js
  import MessageStore
  import Polls
  import SessionManager

  const UserSuffix := "@s.whatsapp.net"

  /** `${number}@s.whatsapp.net`; a missing number prints as `undefined`. */
  function Jid(number: Option<string>): (r: string)
    ensures |r| > |UserSuffix| - 1 && r[|r| - |UserSuffix|..] == UserSuffix
    ensures number.Some? ==> |number.value| <= |r| && r[..|number.value|] == number.value
  {
    number.GetOr("undefined") + UserSuffix
  }

  /** The reference `buildQuoted` makes: the quoted message's key in the
      recipient's conversation (its content is an empty conversation). */
  datatype Quoted = Quoted(remoteJid: string, id: string)

  function BuildQuoted(jid: string, quotedId: Option<string>): (r: Option<Quoted>)
    ensures r.None? <==> !Truthy(quotedId)
    ensures r.Some? ==> r.value.remoteJid == jid && r.value.id == quotedId.value
  {
    if Truthy(quotedId) then Some(Quoted(jid, quotedId.value)) else None
  }

  datatype MediaType = Image | Video | Audio | Document

  predicate StartsWith(s: string, prefix: string) {
    |prefix| <= |s| && s[..|prefix|] == prefix
  }

  /** The media type `sendMedia` files the payload under. */
  function MediaTypeOf(mimetype: string): (r: MediaType)
    ensures r == Image <==> StartsWith(mimetype, "image/")
    ensures r == Video <==> !StartsWith(mimetype, "image/") && StartsWith(mimetype, "video/")
    ensures r == Audio <==> !StartsWith(mimetype, "image/") && !StartsWith(mimetype, "video/") && StartsWith(mimetype, "audio/")
    ensures r == Document <==> !StartsWith(mimetype, "image/") && !StartsWith(mimetype, "video/") && !StartsWith(mimetype, "audio/")
  {
    if StartsWith(mimetype, "image/") then Image
    else if StartsWith(mimetype, "video/") then Video
    else if StartsWith(mimetype, "audio/") then Audio
    else Document
  }

  /** `contextInfo.mentionedJid`: the recipient alone in ghost mode, nobody
      otherwise. */
  function Mentions(jid: string, ghostMode: Value): (r: seq<string>)
    ensures IsTruthy(ghostMode) ==> r == [jid]
    ensures !IsTruthy(ghostMode) ==> r == []
  {
    if IsTruthy(ghostMode) then [jid] else []
  }

  /** What a handler asks the socket to send. */
  datatype Outgoing =
    | Text(to: string, text: Value, mentions: seq<string>, quoted: Option<Quoted>)
    | Media(to: string, kind: MediaType, media: string, mimetype: string, caption: Value, mentions: seq<string>, quoted: Option<Quoted>)
    | Revoke(to: string, remoteJid: string, fromMe: bool, id: Value)
    | PollMessage(to: string, name: Value, values: seq<Value>, selectableCount: nat)

  /** A response status and the message sent, if any. */
  datatype Reply = Reply(code: int, sent: Option<Outgoing>)

  /** `getInstance(instance)` finds a socket. */
  predicate Running(m: SessionManager.Manager, instance: string) {
    instance in m.reg
  }

  /** The answer once the socket was asked to send `out`: 200 when the send
      resolved, 500 when it rejected. */
  function Sent(out: Outgoing, sendOk: bool): (r: Reply)
    ensures r.sent == Some(out)
    ensures r.code == 200 <==> sendOk
    ensures r.code == 500 <==> !sendOk
  {
    Reply(if sendOk then 200 else 500, Some(out))
  }

  /** `sendMessage`: 404 for an instance that is not running, otherwise a
      text to the recipient; 500 when the send rejects. */
  function SendMessage(m: SessionManager.Manager, instance: string, number: Option<string>, message: Value,
                       ghostMode: Value, quotedId: Option<string>, sendOk: bool): (r: Reply)
    ensures !Running(m, instance) <==> r == Reply(404, None)
    ensures Running(m, instance) ==> r.sent.Some? && r.sent.value.Text?
    ensures Running(m, instance) ==> (r.code == 200 <==> sendOk) && (r.code == 500 <==> !sendOk)
    ensures r.sent.Some? ==> r.sent.value.to == Jid(number) && r.sent.value.text == message
    ensures r.sent.Some? ==> r.sent.value.mentions == (if IsTruthy(ghostMode) then [Jid(number)] else [])
    ensures r.sent.Some? ==> r.sent.value.quoted == BuildQuoted(Jid(number), quotedId)
  {
    if !Running(m, instance) then Reply(404, None)
    else
      var jid := Jid(number);
      Sent(Text(jid, message, Mentions(jid, ghostMode), BuildQuoted(jid, quotedId)), sendOk)
  }

  /** `sendMedia`: 404 for an instance that is not running, then 400 when
      the media or its mimetype is missing, otherwise the media under the
      type its mimetype names; 500 when the send rejects. The caption
      defaults to the empty string. */
  function SendMedia(m: SessionManager.Manager, instance: string, number: Option<string>, caption: Value,
                     media: Option<string>, mimetype: Option<string>, ghostMode: Value, quotedId: Option<string>,
                     sendOk: bool): (r: Reply)
    ensures !Running(m, instance) ==> r == Reply(404, None)
    ensures Running(m, instance) && (!Truthy(media) || !Truthy(mimetype)) ==> r == Reply(400, None)
    ensures r.sent.Some? <==> Running(m, instance) && Truthy(media) && Truthy(mimetype)
    ensures r.code == 200 <==> Running(m, instance) && Truthy(media) && Truthy(mimetype) && sendOk
    ensures r.code == 500 <==> Running(m, instance) && Truthy(media) && Truthy(mimetype) && !sendOk
    ensures r.sent.Some? ==>
      (r.sent.value.Media?
       && r.sent.value.to == Jid(number) && r.sent.value.kind == MediaTypeOf(mimetype.value)
       && r.sent.value.media == media.value && r.sent.value.mimetype == mimetype.value
       && r.sent.value.caption == (if caption == Undefined then Str("") else caption)
       && r.sent.value.mentions == Mentions(Jid(number), ghostMode)
       && r.sent.value.quoted == BuildQuoted(Jid(number), quotedId))
  {
    if !Running(m, instance) then Reply(404, None)
    else if !Truthy(media) || !Truthy(mimetype) then Reply(400, None)
    else
      var jid := Jid(number);
      var cap := if caption == Undefined then Str("") else caption;
      Sent(Media(jid, MediaTypeOf(mimetype.value), media.value, mimetype.value, cap,
                 Mentions(jid, ghostMode), BuildQuoted(jid, quotedId)), sendOk)
  }

  /** `deleteMessage`: revoke the caller's own message in the recipient's
      conversation; 500 when the send rejects. */
  function DeleteMessage(m: SessionManager.Manager, instance: string, number: Option<string>, messageId: Value,
                         sendOk: bool): (r: Reply)
    ensures !Running(m, instance) <==> r == Reply(404, None)
    ensures Running(m, instance) ==> r.sent == Some(Revoke(Jid(number), Jid(number), true, messageId))
    ensures Running(m, instance) ==> (r.code == 200 <==> sendOk) && (r.code == 500 <==> !sendOk)
  {
    if !Running(m, instance) then Reply(404, None)
    else Sent(Revoke(Jid(number), Jid(number), true, messageId), sendOk)
  }

  /** The poll's `selectableCount`: every option when multiple answers
      are allowed, one otherwise. */
  function SelectableCount(options: seq<Value>, multiple: Value): (r: nat)
    ensures IsTruthy(multiple) ==> r == |options|
    ensures !IsTruthy(multiple) ==> r == 1
  {
    if IsTruthy(multiple) then |options| else 1
  }

  /** The message `sendPoll` keeps: the socket's full copy when its loader
      returned one, the sent message otherwise. */
  function StoredPoll(sent: MessageStore.Message, fetch: Polls.Fetch): (r: MessageStore.Message)
    ensures fetch.Loaded? && fetch.found.Some? ==> r == fetch.found.value
    ensures !(fetch.Loaded? && fetch.found.Some?) ==> r == sent
  {
    if fetch.Loaded? && fetch.found.Some? then fetch.found.value else sent
  }

  /** `sendPoll`: 404 for an unknown instance; otherwise the poll is sent,
      the kept message is appended to the recipient's conversation and the
      store is written. `sent` is the message the socket returned and
      `fetch` what its loader gave back; a rejected send answers 500 and
      stores nothing. */
  function SendPoll(m: SessionManager.Manager, instance: string, number: Option<string>, question: Value,
                    options: seq<Value>, multiple: Value, sent: MessageStore.Message, fetch: Polls.Fetch, sendOk: bool)
    : (r: (SessionManager.Manager, Reply))
    requires SessionManager.Valid(m)
    ensures instance !in m.reg <==> r.1 == Reply(404, None)
    ensures instance !in m.reg || !sendOk ==> r.0 == m
    ensures instance in m.reg ==> r.1.sent == Some(PollMessage(Jid(number), question, options, SelectableCount(options, multiple)))
    ensures instance in m.reg ==> (r.1.code == 200 <==> sendOk) && (r.1.code == 500 <==> !sendOk)
    ensures instance in m.reg && sendOk ==>
      (instance in r.0.reg
       && MessageStore.Conv(r.0.reg[instance].store, Jid(number))
          == MessageStore.Conv(m.reg[instance].store, Jid(number)) + [StoredPoll(sent, fetch)]
       && (forall j | j != Jid(number) :: MessageStore.Conv(r.0.reg[instance].store, j) == MessageStore.Conv(m.reg[instance].store, j)))
    ensures SessionManager.Valid(r.0)
    ensures instance in m.reg && sendOk ==>
      instance in r.0.storeDocs && MessageStore.Valid(r.0.reg[instance].store)
      && r.0.storeDocs[instance] == MessageStore.Snapshot(instance, r.0.reg[instance].store)
    ensures r.0.reg.Keys == m.reg.Keys && r.0.docs == m.docs && r.0.nextGen == m.nextGen
  {
    if instance !in m.reg then (m, Reply(404, None))
    else
      var s := m.reg[instance];
      var jid := Jid(number);
      var poll := PollMessage(jid, question, options, SelectableCount(options, multiple));
      if !sendOk then (m, Sent(poll, false))
      else
        var store := MessageStore.Insert(s.store, jid, [StoredPoll(sent, fetch)]);
        var docs := m.storeDocs[instance := MessageStore.Snapshot(instance, store)];
        var m' := m.(reg := m.reg[instance := s.(store := store)], storeDocs := docs);
        (m', Sent(poll, true))
  }

  /** `sendPoll` with `messages.insert` as written: the poll is sent, then
      the insert either throws (answer 500) or files the message where no
      conversation shows it (the store is unchanged). */
  function SendPollAsWritten(m: SessionManager.Manager, instance: string, number: Option<string>, question: Value,
                             options: seq<Value>, multiple: Value, sent: MessageStore.Message, fetch: Polls.Fetch, sendOk: bool)
    : (r: (SessionManager.Manager, Reply))
    requires SessionManager.Valid(m)
    ensures instance !in m.reg ==> r == (m, Reply(404, None))
    ensures r.1.code == 200 ==> r.0.reg == m.reg
  {
    if instance !in m.reg then (m, Reply(404, None))
    else
      var s := m.reg[instance];
      var jid := Jid(number);
      var poll := Some(PollMessage(jid, question, options, SelectableCount(options, multiple)));
      if !sendOk then (m, Reply(500, poll))
      else match MessageStore.InsertAsWritten(s.store, jid, [StoredPoll(sent, fetch)])
      case Failure(_) => (m, Reply(500, poll))
      case Success(store) =>
        var docs := m.storeDocs[instance := MessageStore.Snapshot(instance, store)];
        (m.(reg := m.reg[instance := s.(store := store)], storeDocs := docs), Reply(200, poll))
  }

  /** As written, a poll sent from an instance whose store has no
      conversation named "messages" gets a 500 reply after it went out. */
  lemma SendPollAsWrittenFails(m: SessionManager.Manager, instance: string, number: Option<string>, question: Value,
                               options: seq<Value>, multiple: Value, sent: MessageStore.Message, fetch: Polls.Fetch)
    requires SessionManager.Valid(m) && instance in m.reg && "messages" !in m.reg[instance].store.convs.entries
    ensures SendPollAsWritten(m, instance, number, question, options, multiple, sent, fetch, true).1.code == 500
    ensures SendPoll(m, instance, number, question, options, multiple, sent, fetch, true).1.code == 200
  {
  }

  /** A poll kept by `sendPoll` is found again by its id, in the live store
      and in the store reloaded from the written document, provided the
      conversation had no earlier message with that id. */
  lemma SentPollIsFound(m: SessionManager.Manager, instance: string, number: Option<string>, question: Value,
                        options: seq<Value>, multiple: Value, sent: MessageStore.Message, fetch: Polls.Fetch)
    requires SessionManager.Valid(m) && instance in m.reg
    requires var c := MessageStore.Conv(m.reg[instance].store, Jid(number));
             forall j | 0 <= j < |c| :: c[j].key.id != StoredPoll(sent, fetch).key.id
    ensures var r := SendPoll(m, instance, number, question, options, multiple, sent, fetch, true).0;
            var p := StoredPoll(sent, fetch);
            MessageStore.LoadMessage(r.reg[instance].store, Jid(number), p.key.id) == Some(p)
            && MessageStore.LoadMessage(MessageStore.Reload(Some(r.storeDocs[instance])), Jid(number), p.key.id) == Some(p)
  {
    var s := m.reg[instance].store;
    var p := StoredPoll(sent, fetch);
    MessageStore.PersistedMessageRoundTrip(instance, s, Jid(number), p);
    MessageStore.LoadMessageFromOwnConversation(MessageStore.Insert(s, Jid(number), [p]), Jid(number), p.key.id, |MessageStore.Conv(s, Jid(number))|);
  }
  /** A revoke addresses the conversation a text to the same number went
      to, and names the caller as the message's sender. */
  lemma DeleteTargetsSentConversation(m: SessionManager.Manager, instance: string, number: Option<string>, message: Value,
                                      ghostMode: Value, quotedId: Option<string>, messageId: Value, ok1: bool, ok2: bool)
    requires Running(m, instance)
    ensures var t := SendMessage(m, instance, number, message, ghostMode, quotedId, ok1).sent;
            var d := DeleteMessage(m, instance, number, messageId, ok2).sent;
            t.Some? && d.Some? && d.value.to == t.value.to && d.value.remoteJid == t.value.to && d.value.fromMe
  {
  }

  /** Whichever handler it is, a running instance whose send rejects gets
      500 after the attempt, and `sendPoll` then keeps nothing. */
  lemma RejectedSendsAnswer500(m: SessionManager.Manager, instance: string, number: Option<string>, text: Value,
                               media: string, mimetype: string, ghostMode: Value, quotedId: Option<string>,
                               question: Value, options: seq<Value>, multiple: Value,
                               sent: MessageStore.Message, fetch: Polls.Fetch)
    requires SessionManager.Valid(m) && Running(m, instance) && media != "" && mimetype != ""
    ensures SendMessage(m, instance, number, text, ghostMode, quotedId, false).code == 500
    ensures SendMedia(m, instance, number, text, Some(media), Some(mimetype), ghostMode, quotedId, false).code == 500
    ensures DeleteMessage(m, instance, number, text, false).code == 500
    ensures SendPoll(m, instance, number, question, options, multiple, sent, fetch, false) == (m, Reply(500, SendPoll(m, instance, number, question, options, multiple, sent, fetch, true).1.sent))
  {
  }
}

=== FILE: message_store.dfy ===
/** The per-instance message store (sessions/mongoStore.js): chats keyed by
    id, messages grouped by conversation id in arrival order, the lookup rule
    with its fallback scan, the event handlers bound to the transport's event
    stream, and the full-snapshot persistence with its reload. */
module MessageStore {
  import opened Js
  import Dict

  /** A message key: the conversation (`remoteJid`) and the message id. */
  datatype MsgKey = MsgKey(remoteJid: string, id: string, fromMe: bool, participant: Option<string>)

  /** A stored message: its key and every other top-level property. */
  datatype Message = Message(key: MsgKey, fields: map<string, Value>)

  /** The partial message of a `messages.update` event; `key` is present when
      the update replaces the key itself. */
  datatype Patch = Patch(key: Option<MsgKey>, fields: map<string, Value>)

  datatype MessageUpdate = MessageUpdate(key: MsgKey, update: Patch)

  datatype Chat = Chat(id: string, fields: map<string, Value>)

  /** `chats.data` (a `Map` keyed by chat id) and `messages.messages` (an
      object from conversation id to the conversation's array). */
  datatype Store = Store(chats: Dict.Dict<Chat>, convs: Dict.Dict<seq<Message>>)

  /** The persisted store document written by `write`. */
  datatype StoreDoc = StoreDoc(id: string, chats: seq<Chat>, messages: Dict.Dict<seq<Message>>)

  /** Where a message sits: conversation id and index in its array. */
  datatype Loc = Loc(jid: string, index: nat)

  const TypeError := "TypeError"

  ghost predicate Valid(s: Store) {
    && Dict.Valid(s.chats)
    && Dict.Valid(s.convs)
    && (forall k | k in s.chats.entries :: s.chats.entries[k].id == k)
  }

  /** `makeSimpleStore()`. */
  function Empty(): (s: Store)
    ensures Valid(s)
    ensures s.chats.entries == map[] && s.convs.entries == map[]
  {
    Store(Dict.Empty(), Dict.Empty())
  }

  /** The messages of conversation `jid`, empty when it has none. */
  function Conv(s: Store, jid: string): seq<Message> {
    if jid in s.convs.entries then s.convs.entries[jid] else []
  }

  // ---------------------------------------------------------------- chats

  /** `chats.insertAll(cs)`: `data.set(c.id, c)` for each chat in turn. */
  function InsertAllChats(s: Store, cs: seq<Chat>): (r: Store)
    ensures Valid(s) ==> Valid(r)
    ensures r.convs == s.convs
    ensures r.chats.entries.Keys == s.chats.entries.Keys + set c | c in cs :: c.id
  {
    if cs == [] then s
    else
      var last := cs[|cs| - 1];
      var prev := InsertAllChats(s, cs[..|cs| - 1]);
      assert cs == cs[..|cs| - 1] + [last];
      Store(Dict.Put(prev.chats, last.id, last), prev.convs)
  }

  /** `chats.all()`: one chat per id, in first-insertion order. */
  function AllChats(s: Store): (r: seq<Chat>)
    requires Valid(s)
    ensures |r| == |s.chats.order|
    ensures forall i | 0 <= i < |r| :: r[i].id == s.chats.order[i]
    ensures forall i, j | 0 <= i < j < |r| :: r[i].id != r[j].id
  {
    Dict.Values(s.chats)
  }

  /** The last chat of `cs` whose id is `id`. */
  function LastChat(cs: seq<Chat>, id: string): Option<Chat> {
    if cs == [] then None
    else if cs[|cs| - 1].id == id then Some(cs[|cs| - 1])
    else LastChat(cs[..|cs| - 1], id)
  }

  /** A later chat with the same id overwrites an earlier one; ids not in the
      batch keep their chat. */
  lemma {:induction false} ChatsLastWins(s: Store, cs: seq<Chat>, id: string)
    ensures Dict.Get(InsertAllChats(s, cs).chats, id) ==
            if LastChat(cs, id).Some? then LastChat(cs, id) else Dict.Get(s.chats, id)
  {
    if cs != [] {
      ChatsLastWins(s, cs[..|cs| - 1], id);
    }
  }

  // ------------------------------------------------------------ messages

  /** `messages.insert(jid, msgs)` with its evident meaning: append `msgs` to
      conversation `jid`, creating it when new (the same update the
      `messages.upsert` handler performs). */
  function Insert(s: Store, jid: string, msgs: seq<Message>): (r: Store)
    ensures Conv(r, jid) == Conv(s, jid) + msgs
    ensures forall j | j != jid :: Conv(r, j) == Conv(s, j)
    ensures jid in r.convs.entries
    ensures r.chats == s.chats
    ensures Valid(s) ==> Valid(r)
  {
    Store(s.chats, Dict.Put(s.convs, jid, Conv(s, jid) + msgs))
  }

  /** `messages.insert` as written. It is always invoked as
      `store.messages.insert(...)`, so `this` is the inner `messages` object
      and `this.messages.messages` reads the property "messages" of the
      conversation dictionary. Without a conversation of that id it is
      `undefined` and indexing it throws. With one, the messages go into a
      hidden property of that conversation's entry and no conversation
      changes, except that the key "array" hits the entry's own array and
      throws. */
  function InsertAsWritten(s: Store, jid: string, msgs: seq<Message>): (r: Result<Store>)
    ensures r.Success? ==> r.value == s
  {
    if "messages" !in s.convs.entries then Failure(TypeError)
    else if jid == "array" then Failure(TypeError)
    else Success(s)
  }

  /** On an ordinary store the as-written insert never stores anything: it throws. */
  lemma InsertAsWrittenThrows(s: Store, jid: string, msgs: seq<Message>)
    requires "messages" !in s.convs.entries
    ensures InsertAsWritten(s, jid, msgs) == Failure(TypeError)
    ensures Conv(Insert(s, jid, msgs), jid) == Conv(s, jid) + msgs
  {
  }

  /** The messages of `batch` addressed to conversation `jid`, in batch order. */
  function SentTo(batch: seq<Message>, jid: string): seq<Message> {
    if batch == [] then []
    else
      var last := batch[|batch| - 1];
      SentTo(batch[..|batch| - 1], jid) + (if last.key.remoteJid == jid then [last] else [])
  }

  /** The `messages.upsert` handler: each message is pushed onto the array of
      its own `key.remoteJid`. */
  function OnMessagesUpsert(s: Store, batch: seq<Message>): (r: Store)
    ensures Valid(s) ==> Valid(r)
    ensures r.chats == s.chats
  {
    if batch == [] then s
    else
      var last := batch[|batch| - 1];
      Insert(OnMessagesUpsert(s, batch[..|batch| - 1]), last.key.remoteJid, [last])
  }

  /** Each conversation gains exactly the batch's messages addressed to it, at
      the end and in batch order; every other conversation is unchanged. */
  lemma {:induction false} UpsertAppends(s: Store, batch: seq<Message>, jid: string)
    ensures Conv(OnMessagesUpsert(s, batch), jid) == Conv(s, jid) + SentTo(batch, jid)
  {
    if batch != [] {
      UpsertAppends(s, batch[..|batch| - 1], jid);
    }
  }

  /** `{...prev, ...update}`: the update's properties win. */
  function Merge(prev: Message, p: Patch): (r: Message)
    ensures forall f | f in p.fields :: f in r.fields && r.fields[f] == p.fields[f]
    ensures forall f | f in prev.fields && f !in p.fields :: f in r.fields && r.fields[f] == prev.fields[f]
    ensures r.fields.Keys == prev.fields.Keys + p.fields.Keys
    ensures r.key == p.key.GetOr(prev.key)
  {
    Message(p.key.GetOr(prev.key), prev.fields + p.fields)
  }

  /** `arr.findIndex(m => m.key.id === id)`. */
  function FindIndex(msgs: seq<Message>, id: string): (r: Option<nat>)
    ensures r.Some? ==> r.value < |msgs| && msgs[r.value].key.id == id
    ensures r.Some? ==> forall j | 0 <= j < r.value :: msgs[j].key.id != id
    ensures r.None? ==> forall j | 0 <= j < |msgs| :: msgs[j].key.id != id
  {
    if msgs == [] then None
    else if msgs[0].key.id == id then Some(0)
    else match FindIndex(msgs[1..], id)
      case None => None
      case Some(i) => Some(i + 1)
  }

  /** One entry of the `messages.update` handler. */
  function UpdateOne(s: Store, u: MessageUpdate): (r: Store)
    ensures Valid(s) ==> Valid(r)
    ensures r.chats == s.chats
    ensures forall j | j != u.key.remoteJid :: Conv(r, j) == Conv(s, j)
    ensures |Conv(r, u.key.remoteJid)| == |Conv(s, u.key.remoteJid)|
    ensures forall i | 0 <= i < |Conv(s, u.key.remoteJid)| ::
      Conv(r, u.key.remoteJid)[i] ==
        if FindIndex(Conv(s, u.key.remoteJid), u.key.id) == Some(i)
        then Merge(Conv(s, u.key.remoteJid)[i], u.update)
        else Conv(s, u.key.remoteJid)[i]
    ensures FindIndex(Conv(s, u.key.remoteJid), u.key.id).None? ==> r == s
  {
    var jid := u.key.remoteJid;
    if jid !in s.convs.entries then s
    else
      var arr := s.convs.entries[jid];
      match FindIndex(arr, u.key.id)
      case None => s
      case Some(i) => Store(s.chats, Dict.Put(s.convs, jid, arr[i := Merge(arr[i], u.update)]))
  }

  /** The `messages.update` handler: the updates applied in order. */
  function OnMessagesUpdate(s: Store, ups: seq<MessageUpdate>): (r: Store)
    ensures Valid(s) ==> Valid(r)
    ensures r.chats == s.chats
    ensures r.convs.entries.Keys == s.convs.entries.Keys
    ensures forall j :: |Conv(r, j)| == |Conv(s, j)|
  {
    if ups == [] then s
    else UpdateOne(OnMessagesUpdate(s, ups[..|ups| - 1]), ups[|ups| - 1])
  }

  /** The `chats.upsert` handler. */
  function OnChatsUpsert(s: Store, cs: seq<Chat>): (r: Store)
    ensures Valid(s) ==> Valid(r)
    ensures r.convs == s.convs
  {
    InsertAllChats(s, cs)
  }

  /** Replaces the message at `l`: the effect of mutating a stored message
      object in place. */
  function Replace(s: Store, l: Loc, m: Message): (r: Store)
    requires l.index < |Conv(s, l.jid)|
    ensures Valid(s) ==> Valid(r)
    ensures r.chats == s.chats
    ensures Conv(r, l.jid) == Conv(s, l.jid)[l.index := m]
    ensures forall j | j != l.jid :: Conv(r, j) == Conv(s, j)
  {
    Store(s.chats, Dict.Put(s.convs, l.jid, Conv(s, l.jid)[l.index := m]))
  }

  // -------------------------------------------------------------- lookup

  /** Some conversation holds a message with id `id`. */
  ghost predicate Holds(s: Store, id: string) {
    exists k, i | k in s.convs.entries && 0 <= i < |s.convs.entries[k]| :: s.convs.entries[k][i].key.id == id
  }

  /** The fallback scan over the conversations `ks`, in order: the first
      conversation holding `id`, at its first such message. */
  function Scan(s: Store, ks: seq<string>, id: string): (r: Option<Loc>)
    ensures r.Some? ==> r.value.jid in ks && FindIndex(Conv(s, r.value.jid), id) == Some(r.value.index)
    ensures r.None? ==> forall k | k in ks :: FindIndex(Conv(s, k), id).None?
    ensures r.Some? ==> exists n | 0 <= n < |ks| && ks[n] == r.value.jid ::
      forall j | 0 <= j < n :: FindIndex(Conv(s, ks[j]), id).None?
  {
    if ks == [] then None
    else match FindIndex(Conv(s, ks[0]), id)
      case Some(i) => Some(Loc(ks[0], i))
      case None => Scan(s, ks[1..], id)
  }

  /** Where `loadMessage(jid, id)` finds its message: the first match in
      conversation `jid`, else the first match of the scan. */
  function Locate(s: Store, jid: string, id: string): (r: Option<Loc>)
    ensures r.Some? ==> r.value.index < |Conv(s, r.value.jid)| && Conv(s, r.value.jid)[r.value.index].key.id == id
    ensures FindIndex(Conv(s, jid), id).Some? ==> r == Some(Loc(jid, FindIndex(Conv(s, jid), id).value))
  {
    match FindIndex(Conv(s, jid), id)
    case Some(i) => Some(Loc(jid, i))
    case None => Scan(s, s.convs.order, id)
  }

  /** `loadMessage(jid, id)`. */
  function LoadMessage(s: Store, jid: string, id: string): (r: Option<Message>)
    ensures r.Some? ==> r.value.key.id == id
  {
    match Locate(s, jid, id)
    case Some(l) => Some(Conv(s, l.jid)[l.index])
    case None => None
  }

  /** The named conversation is searched first, and its first match wins. */
  lemma LoadMessageFromOwnConversation(s: Store, jid: string, id: string, i: nat)
    requires i < |Conv(s, jid)| && Conv(s, jid)[i].key.id == id
    requires forall j | 0 <= j < i :: Conv(s, jid)[j].key.id != id
    ensures LoadMessage(s, jid, id) == Some(Conv(s, jid)[i])
  {
    var f := FindIndex(Conv(s, jid), id);
    assert f.Some?;
    assert Conv(s, jid)[f.value].key.id == id;
  }

  /** Without a match in the named conversation, some other conversation's
      match is returned, and nothing only when no conversation holds the id. */
  lemma LoadMessageFallback(s: Store, jid: string, id: string)
    requires Valid(s)
    ensures LoadMessage(s, jid, id).None? <==> !Holds(s, id)
    ensures LoadMessage(s, jid, id).Some? ==>
      exists k, i | k in s.convs.entries && 0 <= i < |s.convs.entries[k]| :: s.convs.entries[k][i] == LoadMessage(s, jid, id).value
  {
    var r := Locate(s, jid, id);
    if r.None? {
      assert FindIndex(Conv(s, jid), id).None?;
      forall k, i | k in s.convs.entries && 0 <= i < |s.convs.entries[k]|
        ensures s.convs.entries[k][i].key.id != id
      {
        assert k in s.convs.order;
        assert FindIndex(Conv(s, k), id).None?;
      }
    } else {
      var l := r.value;
      assert Conv(s, l.jid)[l.index].key.id == id;
      assert l.jid in s.convs.entries;
      assert s.convs.entries[l.jid][l.index] == LoadMessage(s, jid, id).value;
    }
  }

  // --------------------------------------------------------------- count

  /** The number of messages held in the conversations `ks`. */
  function SumOver(ks: seq<string>, e: map<string, seq<Message>>): nat {
    if ks == [] then 0
    else SumOver(ks[..|ks| - 1], e) + (if ks[|ks| - 1] in e then |e[ks[|ks| - 1]]| else 0)
  }

  /** The total number of stored messages (the `reduce` in `write`). */
  function Total(s: Store): nat {
    SumOver(s.convs.order, s.convs.entries)
  }

  lemma {:induction false} SumOverFrame(ks: seq<string>, e: map<string, seq<Message>>, k: string, v: seq<Message>)
    requires k !in ks
    ensures SumOver(ks, e[k := v]) == SumOver(ks, e)
  {
    if ks != [] {
      assert forall i | 0 <= i < |ks| - 1 :: ks[..|ks| - 1][i] == ks[i];
      SumOverFrame(ks[..|ks| - 1], e, k, v);
    }
  }

  lemma {:induction false} SumOverReplace(ks: seq<string>, e: map<string, seq<Message>>, k: string, v: seq<Message>)
    requires k in e
    requires forall i, j | 0 <= i < j < |ks| :: ks[i] != ks[j]
    requires k in ks
    ensures SumOver(ks, e[k := v]) + |e[k]| == SumOver(ks, e) + |v|
  {
    var n := |ks| - 1;
    var front := ks[..n];
    assert forall i, j | 0 <= i < j < |front| :: front[i] != front[j];
    if ks[n] == k {
      assert forall i | 0 <= i < n :: front[i] == ks[i] != ks[n];
      SumOverFrame(front, e, k, v);
    } else {
      assert k in front by { var i :| 0 <= i < |ks| && ks[i] == k; assert i < n; assert front[i] == k; }
      SumOverReplace(front, e, k, v);
    }
  }

  /** Appending to one conversation raises the total by the number appended. */
  lemma InsertTotal(s: Store, jid: string, msgs: seq<Message>)
    requires Valid(s)
    ensures Total(Insert(s, jid, msgs)) == Total(s) + |msgs|
  {
    var e := s.convs.entries;
    if jid in e {
      SumOverReplace(s.convs.order, e, jid, Conv(s, jid) + msgs);
    } else {
      var ks := s.convs.order;
      assert jid !in ks;
      assert [] + msgs == msgs;
      var r := Insert(s, jid, msgs);
      assert r.convs.order == ks + [jid];
      assert r.convs.entries == e[jid := msgs];
      assert (ks + [jid])[..|ks|] == ks;
      assert SumOver(ks + [jid], e[jid := msgs]) == SumOver(ks, e[jid := msgs]) + |msgs|;
      SumOverFrame(ks, e, jid, msgs);
    }
  }

  /** An upsert batch adds exactly its own messages to the total. */
  lemma {:induction false} UpsertTotal(s: Store, batch: seq<Message>)
    requires Valid(s)
    ensures Total(OnMessagesUpsert(s, batch)) == Total(s) + |batch|
  {
    if batch != [] {
      var front := batch[..|batch| - 1];
      UpsertTotal(s, front);
      InsertTotal(OnMessagesUpsert(s, front), batch[|batch| - 1].key.remoteJid, [batch[|batch| - 1]]);
    }
  }

  /** An update batch replaces messages but never adds or removes one. */
  lemma {:induction false} UpdateTotal(s: Store, ups: seq<MessageUpdate>)
    requires Valid(s)
    ensures Total(OnMessagesUpdate(s, ups)) == Total(s)
  {
    if ups != [] {
      var front := ups[..|ups| - 1];
      UpdateTotal(s, front);
      var mid := OnMessagesUpdate(s, front);
      var u := ups[|ups| - 1];
      var r := UpdateOne(mid, u);
      if r != mid {
        var jid := u.key.remoteJid;
        assert jid in mid.convs.entries;
        assert r.convs.order == mid.convs.order;
        assert r.convs.entries == mid.convs.entries[jid := Conv(r, jid)];
        SumOverReplace(mid.convs.order, mid.convs.entries, jid, Conv(r, jid));
      }
    }
  }

  /** Mutating a message in place neither adds nor removes one. */
  lemma ReplaceTotal(s: Store, l: Loc, m: Message)
    requires Valid(s) && l.index < |Conv(s, l.jid)|
    ensures Total(Replace(s, l, m)) == Total(s)
  {
    var r := Replace(s, l, m);
    assert l.jid in s.convs.entries;
    assert r.convs.order == s.convs.order;
    SumOverReplace(s.convs.order, s.convs.entries, l.jid, Conv(r, l.jid));
  }

  // --------------------------------------------------------- persistence

  /** The document `write` upserts: every chat, and every conversation's array
      under its id. */
  function Snapshot(id: string, s: Store): (d: StoreDoc)
    requires Valid(s)
    ensures d.id == id
    ensures d.messages.entries == s.convs.entries && d.messages.order == s.convs.order
    ensures |d.chats| == |s.chats.order|
  {
    StoreDoc(id, AllChats(s), s.convs)
  }

  /** `for (const jid in messages) store.messages.insert(jid, messages[jid])`
      over the keys `ks`. */
  function InsertEach(s: Store, messages: Dict.Dict<seq<Message>>, ks: seq<string>): (r: Store)
    ensures r.chats == s.chats
    ensures Valid(s) ==> Valid(r)
  {
    if ks == [] then s
    else
      var k := ks[|ks| - 1];
      Insert(InsertEach(s, messages, ks[..|ks| - 1]), k, Dict.Get(messages, k).GetOr([]))
  }

  /** The store `useMongoStore` rebuilds from the persisted document (none
      when nothing was ever written). */
  function Reload(doc: Option<StoreDoc>): (r: Store)
    ensures Valid(r)
    ensures doc.None? ==> r == Empty()
  {
    match doc
    case None => Empty()
    case Some(d) => InsertEach(InsertAllChats(Empty(), d.chats), d.messages, d.messages.order)
  }

  /** The same reload with `messages.insert` as written. */
  function ReloadAsWritten(doc: Option<StoreDoc>): (r: Result<Store>)
  {
    match doc
    case None => Success(Empty())
    case Some(d) => InsertEachAsWritten(InsertAllChats(Empty(), d.chats), d.messages, d.messages.order)
  }

  function InsertEachAsWritten(s: Store, messages: Dict.Dict<seq<Message>>, ks: seq<string>): (r: Result<Store>)
    ensures r.Success? ==> r.value.convs == s.convs
  {
    if ks == [] then Success(s)
    else match InsertAsWritten(s, ks[0], Dict.Get(messages, ks[0]).GetOr([]))
      case Failure(e) => Failure(e)
      case Success(s') => InsertEachAsWritten(s', messages, ks[1..])
  }

  /** As written, reloading any snapshot that holds a conversation throws. */
  lemma ReloadAsWrittenThrows(d: StoreDoc)
    ensures ReloadAsWritten(Some(d)).Failure? <==> d.messages.order != []
  {
  }

  lemma {:induction false} ReloadChatsPrefix(s: Store, n: nat)
    requires Valid(s) && n <= |s.chats.order|
    ensures InsertAllChats(Empty(), AllChats(s)[..n]).chats == Dict.Prefix(s.chats, n)
  {
    if n == 0 {
      assert Dict.Prefix(s.chats, 0).entries == map[];
    } else {
      var cs := AllChats(s)[..n];
      assert cs[..n - 1] == AllChats(s)[..n - 1];
      ReloadChatsPrefix(s, n - 1);
      Dict.PutPrefix(s.chats, n - 1);
    }
  }

  lemma {:induction false} ReloadConvsPrefix(start: Store, d: Dict.Dict<seq<Message>>, n: nat)
    requires Dict.Valid(d) && n <= |d.order|
    requires start.convs == Dict.Empty()
    ensures InsertEach(start, d, d.order[..n]).convs == Dict.Prefix(d, n)
  {
    if n == 0 {
      assert Dict.Prefix(d, 0).entries == map[];
    } else {
      assert d.order[..n][..n - 1] == d.order[..n - 1];
      ReloadConvsPrefix(start, d, n - 1);
      Dict.PutPrefix(d, n - 1);
      var k := d.order[n - 1];
      assert d.order[..n][n - 1] == k;
      assert Conv(InsertEach(start, d, d.order[..n - 1]), k) == [];
      assert [] + d.entries[k] == d.entries[k];
    }
  }

  /** Reloading a snapshot rebuilds exactly the store it was taken from: the
      same chats and conversations, in the same order. */
  lemma ReloadSnapshot(id: string, s: Store)
    requires Valid(s)
    ensures Reload(Some(Snapshot(id, s))) == s
  {
    var d := Snapshot(id, s);
    ReloadChatsPrefix(s, |s.chats.order|);
    assert AllChats(s)[..|s.chats.order|] == AllChats(s);
    Dict.FullPrefix(s.chats);
    var start := InsertAllChats(Empty(), d.chats);
    ReloadConvsPrefix(start, s.convs, |s.convs.order|);
    assert s.convs.order[..|s.convs.order|] == s.convs.order;
    Dict.FullPrefix(s.convs);
  }

  /** A message appended to a conversation whose other messages carry other
      ids is found again after persisting and reloading. */
  lemma PersistedMessageRoundTrip(id: string, s: Store, jid: string, m: Message)
    requires Valid(s)
    requires forall j | 0 <= j < |Conv(s, jid)| :: Conv(s, jid)[j].key.id != m.key.id
    ensures LoadMessage(Reload(Some(Snapshot(id, Insert(s, jid, [m])))), jid, m.key.id) == Some(m)
  {
    var s' := Insert(s, jid, [m]);
    ReloadSnapshot(id, s');
    LoadMessageFromOwnConversation(s', jid, m.key.id, |Conv(s, jid)|);
  }
}

=== FILE: polls.dfy ===
/** The poll engine of the session manager (sessions/sessionManager.js):
    recognising poll creations, resolving the creation message of a vote
    (store first, then one on-demand fetch), the gates that drop a vote, the
    option-name table, the `poll.update` payload, and the rule that decides
    whether a raw transport event is forwarded. The transport library's
    primitives (`decryptPollVote`, `updateMessageWithPollUpdate`,
    `getAggregateVotesInPollMessage`, `getKeyAuthor`, `sha256`) are
    uninterpreted functions. */
module Polls {
  import opened Js
  import MessageStore

  type Store = MessageStore.Store
  type Message = MessageStore.Message

  /** The transport library's primitives, left uninterpreted:
      `keyAuthor(key, me)` is `getKeyAuthor`, `decrypt` is `decryptPollVote`,
      `applyVote(content, v)` is the content after
      `updateMessageWithPollUpdate`, `aggregate(content, pollUpdates, me)` is
      `getAggregateVotesInPollMessage`, `optionHash(name)` is
      `sha256(Buffer.from(name)).toString()`, `optionKey(o)` is
      `o.toString()` for a selected option, and `number(v)` is `Number(v)`. */
  datatype Lib = Lib(
    keyAuthor: (Value, string) -> string,
    decrypt: (Value, VoteCtx) -> Value,
    applyVote: (Value, PollVote) -> Value,
    aggregate: (Value, Value, string) -> Value,
    optionHash: string -> string,
    optionKey: Value -> string,
    number: Value -> Value)

  /** The context object handed to `decryptPollVote`. */
  datatype VoteCtx = VoteCtx(pollCreatorJid: string, pollMsgId: Value, pollEncKey: Value, voterJid: string)

  /** The update handed to `updateMessageWithPollUpdate`. */
  datatype PollVote = PollVote(pollUpdateMessageKey: Value, vote: Value, senderTimestampMs: Value)

  /** The result of `sock.loadMessage(jid, id)`: no such function on the
      socket, a (possibly empty) answer, or a rejected promise. */
  datatype Fetch = NoLoader | Loaded(found: Option<Message>) | LoadFailed

  /** The `poll.update` payload built from a decrypted vote. */
  datatype PollUpdateEvent = PollUpdateEvent(
    pollCreationMessageKey: Value,
    pollUpdateMessageKey: Value,
    voter: string,
    selectedOptions: seq<string>,
    results: Value)

  /** How `handlePollVote` ends: not a vote, an exception, the vote dropped
      because the creation message or its secret is missing, or a
      `poll.update` event. */
  datatype VoteOutcome = NotAVote | Thrown | NoCreation | NoSecret | Emit(event: PollUpdateEvent)

  datatype VoteResult = VoteResult(store: Store, outcome: VoteOutcome)

  /** A message key as the object the library sees. */
  function KeyValue(k: MessageStore.MsgKey): (v: Value)
    ensures v.Obj? && Get(v, "id") == Str(k.id) && Get(v, "remoteJid") == Str(k.remoteJid)
  {
    Obj(map["remoteJid" := Str(k.remoteJid), "id" := Str(k.id), "fromMe" := Bool(k.fromMe)]
        + (if k.participant.Some? then map["participant" := Str(k.participant.value)] else map[]))
  }

  /** A top-level property of a message (`msg.name`). */
  function Prop(m: Message, name: string): Value {
    if name in m.fields then m.fields[name] else Undefined
  }

  /** `msg.message`, the message content. */
  function Content(m: Message): Value {
    Prop(m, "message")
  }

  /** `isPollCreation(msg)`: the content holds a poll creation of any version. */
  predicate IsPollCreation(m: Message) {
    || IsTruthy(Get(Content(m), "pollCreationMessage"))
    || IsTruthy(Get(Content(m), "pollCreationMessageV2"))
    || IsTruthy(Get(Content(m), "pollCreationMessageV3"))
  }

  /** `msg.message?.pollUpdateMessage`. */
  function PollUpdateOf(m: Message): Value {
    Get(Content(m), "pollUpdateMessage")
  }

  /** `msg.messageContextInfo?.messageSecret`, the poll's encryption key. */
  function Secret(m: Message): Value {
    Get(Prop(m, "messageContextInfo"), "messageSecret")
  }

  // ------------------------------------------------------- option table

  /** The options of the first poll-creation version that has an options
      property, or none. */
  function Options(pollMsg: Message): seq<Value> {
    var c := Content(pollMsg);
    var o1 := Get(Get(c, "pollCreationMessage"), "options");
    var o2 := Get(Get(c, "pollCreationMessageV2"), "options");
    var o3 := Get(Get(c, "pollCreationMessageV3"), "options");
    var opts := if IsTruthy(o1) then o1 else if IsTruthy(o2) then o2 else o3;
    if opts.Arr? then opts.items else []
  }

  /** `opt.optionName || ''`. */
  function OptionName(opt: Value): string {
    var n := AsString(Get(opt, "optionName"));
    if n.Some? then n.value else ""
  }

  /** `map[hash(name)] = name` for each name in turn. */
  function HashNames(hash: string -> string, names: seq<string>): (r: map<string, string>)
    ensures r.Keys == set n | n in names :: hash(n)
  {
    if names == [] then map[]
    else
      var last := names[|names| - 1];
      assert names == names[..|names| - 1] + [last];
      HashNames(hash, names[..|names| - 1])[hash(last) := last]
  }

  /** Every entry maps an option's hash back to an option name with that
      hash; when the hash separates the names, each name is found under its
      own hash. */
  lemma {:induction false} HashNamesInverts(hash: string -> string, names: seq<string>)
    ensures forall h | h in HashNames(hash, names) :: HashNames(hash, names)[h] in names && hash(HashNames(hash, names)[h]) == h
    ensures (forall a, b | a in names && b in names && a != b :: hash(a) != hash(b)) ==>
      forall n | n in names :: HashNames(hash, names)[hash(n)] == n
  {
    if names != [] {
      var front := names[..|names| - 1];
      HashNamesInverts(hash, front);
      assert names == front + [names[|names| - 1]];
    }
  }

  /** `optionHashMap(pollMsg)`. */
  function OptionHashMap(lib: Lib, pollMsg: Message): map<string, string> {
    HashNames(lib.optionHash, seq(|Options(pollMsg)|, i requires 0 <= i < |Options(pollMsg)| => OptionName(Options(pollMsg)[i])))
  }

  /** `vote.selectedOptions?.map(o => map[o.toString()] || 'Unknown') || []`. */
  function SelectedOptions(lib: Lib, vote: Value, table: map<string, string>): (r: seq<string>)
    ensures Get(vote, "selectedOptions").Arr? ==> |r| == |Get(vote, "selectedOptions").items|
    ensures !Get(vote, "selectedOptions").Arr? ==> r == []
    ensures forall i | 0 <= i < |r| :: r[i] == "Unknown" || r[i] in table.Values
  {
    var sel := Get(vote, "selectedOptions");
    if !sel.Arr? then []
    else
      seq(|sel.items|, i requires 0 <= i < |sel.items| =>
        (var k := lib.optionKey(sel.items[i]);
         if k in table && table[k] != "" then table[k] else "Unknown"))
  }

  /** Label `i` names the option voted for at position `i`: when the
      selected key is the hash of a non-empty option name and the hashes
      separate the names, the label is that name; a key that is not in the
      table is reported as "Unknown". */
  lemma SelectedOptionsName(lib: Lib, vote: Value, names: seq<string>, i: nat)
    requires Get(vote, "selectedOptions").Arr? && i < |Get(vote, "selectedOptions").items|
    ensures var r := SelectedOptions(lib, vote, HashNames(lib.optionHash, names));
      && (forall n | n in names && n != "" && lib.optionKey(Get(vote, "selectedOptions").items[i]) == lib.optionHash(n)
            && (forall a, b | a in names && b in names && a != b :: lib.optionHash(a) != lib.optionHash(b)) :: r[i] == n)
      && (lib.optionKey(Get(vote, "selectedOptions").items[i]) !in HashNames(lib.optionHash, names) ==> r[i] == "Unknown")
  {
    HashNamesInverts(lib.optionHash, names);
  }

  // ------------------------------------------------------------ votes

  /** `creationKey.remoteJid || msg.key.remoteJid`. */
  function CreationJid(creationKey: Value, m: Message): string {
    var j := AsString(Get(creationKey, "remoteJid"));
    if Truthy(j) then j.value else m.key.remoteJid
  }

  /** `store.loadMessage(jid, creationKey.id)`, located. */
  function LookupCreation(s: Store, creationKey: Value, m: Message): Option<MessageStore.Loc> {
    var cid := AsString(Get(creationKey, "id"));
    if cid.Some? then MessageStore.Locate(s, CreationJid(creationKey, m), cid.value) else None
  }

  /** `handlePollVote(id, msg)`, given what the one fallback fetch would
      return. A fetched creation message is appended to the store under the
      creation's conversation. The decrypted vote is folded into the stored
      creation message in place, and the tally is recomputed from all of
      that message's poll updates. */
  function HandleVote(lib: Lib, me: string, s: Store, m: Message, fetch: Fetch): (r: VoteResult)
    ensures r.outcome == NotAVote <==> !IsTruthy(PollUpdateOf(m))
    ensures r.outcome == NotAVote ==> r.store == s
    ensures MessageStore.Valid(s) ==> MessageStore.Valid(r.store)
    ensures r.outcome.Emit? ==> r.outcome.event.pollCreationMessageKey == Get(PollUpdateOf(m), "pollCreationMessageKey")
    ensures r.outcome.Emit? ==> r.outcome.event.pollUpdateMessageKey == KeyValue(m.key)
    ensures r.outcome.Emit? ==> r.outcome.event.voter == lib.keyAuthor(KeyValue(m.key), me)
  {
    var pu := PollUpdateOf(m);
    if !IsTruthy(pu) then VoteResult(s, NotAVote)
    else
      var ck := Get(pu, "pollCreationMessageKey");
      if ck == Undefined || ck == Null then VoteResult(s, Thrown)
      else
        var jid := CreationJid(ck, m);
        var found := LookupCreation(s, ck, m);
        var fetched := found.None? && fetch.Loaded? && fetch.found.Some?;
        var s1 := if fetched then MessageStore.Insert(s, jid, [fetch.found.value]) else s;
        var loc := if found.Some? then found else if fetched then Some(MessageStore.Loc(jid, |MessageStore.Conv(s, jid)|)) else None;
        if loc.None? then VoteResult(s, NoCreation)
        else
          assert loc.value.index < |MessageStore.Conv(s1, loc.value.jid)|;
          FoldVote(lib, me, s1, loc.value, m)
  }

  /** `handlePollVote` with `messages.insert` as written. The fetched
      creation message is never stored: the insert throws inside the `try`
      (or files the message where no conversation shows it), the `catch`
      swallows that, and the vote is folded into the detached fetched copy,
      which stands here as a store of its own. */
  function HandleVoteAsWritten(lib: Lib, me: string, s: Store, m: Message, fetch: Fetch): (r: VoteResult)
    ensures r.store != s ==> LookupCreation(s, Get(PollUpdateOf(m), "pollCreationMessageKey"), m).Some?
    ensures MessageStore.Valid(s) ==> MessageStore.Valid(r.store)
  {
    var pu := PollUpdateOf(m);
    if !IsTruthy(pu) then VoteResult(s, NotAVote)
    else
      var ck := Get(pu, "pollCreationMessageKey");
      if ck == Undefined || ck == Null then VoteResult(s, Thrown)
      else
        var jid := CreationJid(ck, m);
        var found := LookupCreation(s, ck, m);
        if found.Some? then FoldVote(lib, me, s, found.value, m)
        else if fetch.Loaded? && fetch.found.Some? then
          var detached := MessageStore.Insert(MessageStore.Empty(), jid, [fetch.found.value]);
          VoteResult(s, FoldVote(lib, me, detached, MessageStore.Loc(jid, 0), m).outcome)
        else VoteResult(s, NoCreation)
  }

  /** The vote `decryptPollVote` recovers from the update message `m`,
      keyed by the secret of the creation message `pollMsg`. */
  function DecryptVote(lib: Lib, me: string, m: Message, pollMsg: Message): Value {
    var pu := PollUpdateOf(m);
    var ck := Get(pu, "pollCreationMessageKey");
    lib.decrypt(Get(pu, "vote"),
      VoteCtx(lib.keyAuthor(ck, me), Get(ck, "id"), Secret(pollMsg), lib.keyAuthor(KeyValue(m.key), me)))
  }

  /** The update `updateMessageWithPollUpdate` receives for `m`. */
  function VoteUpdate(lib: Lib, me: string, m: Message, pollMsg: Message): PollVote {
    PollVote(KeyValue(m.key), DecryptVote(lib, me, m, pollMsg), lib.number(Get(PollUpdateOf(m), "senderTimestampMs")))
  }

  /** `pollMsg` after `updateMessageWithPollUpdate(pollMsg.message, …)`:
      only its content changes. */
  function Voted(lib: Lib, me: string, m: Message, pollMsg: Message): Message {
    pollMsg.(fields := pollMsg.fields["message" := lib.applyVote(Content(pollMsg), VoteUpdate(lib, me, m, pollMsg))])
  }

  /** The part of `handlePollVote` after the creation message is resolved:
      without its secret the vote is dropped; otherwise the decrypted vote is
      folded into the stored creation message in place and `poll.update` is
      emitted with the recomputed tally. */
  function FoldVote(lib: Lib, me: string, s: Store, loc: MessageStore.Loc, m: Message): (r: VoteResult)
    requires loc.index < |MessageStore.Conv(s, loc.jid)|
    ensures r.outcome != NotAVote
    ensures r.outcome.Emit? ==> IsTruthy(Secret(MessageStore.Conv(s, loc.jid)[loc.index]))
    ensures MessageStore.Valid(s) ==> MessageStore.Valid(r.store)
    ensures r.outcome.Emit? ==> r.outcome.event.pollCreationMessageKey == Get(PollUpdateOf(m), "pollCreationMessageKey")
    ensures r.outcome.Emit? ==> r.outcome.event.pollUpdateMessageKey == KeyValue(m.key)
    ensures r.outcome.Emit? ==> r.outcome.event.voter == lib.keyAuthor(KeyValue(m.key), me)
    ensures !r.outcome.Emit? ==> r.store == s
    ensures r.outcome.Emit? ==> r.store.chats == s.chats
    ensures r.outcome.Emit? ==> forall j | j != loc.jid :: MessageStore.Conv(r.store, j) == MessageStore.Conv(s, j)
    ensures r.outcome.Emit? ==> |MessageStore.Conv(r.store, loc.jid)| == |MessageStore.Conv(s, loc.jid)|
    ensures r.outcome.Emit? ==> forall i | 0 <= i < |MessageStore.Conv(s, loc.jid)| && i != loc.index ::
      MessageStore.Conv(r.store, loc.jid)[i] == MessageStore.Conv(s, loc.jid)[i]
    ensures r.outcome.Emit? ==>
      var before := MessageStore.Conv(s, loc.jid)[loc.index];
      var now := MessageStore.Conv(r.store, loc.jid)[loc.index];
      && now.key == before.key
      && now == Voted(lib, me, m, before)
      && r.outcome.event.results == lib.aggregate(Content(now), Get(Content(now), "pollUpdates"), me)
      && r.outcome.event.selectedOptions == SelectedOptions(lib, DecryptVote(lib, me, m, before), OptionHashMap(lib, now))
  {
    var pu := PollUpdateOf(m);
    var ck := Get(pu, "pollCreationMessageKey");
    var pollMsg := MessageStore.Conv(s, loc.jid)[loc.index];
    if !IsTruthy(Secret(pollMsg)) then VoteResult(s, NoSecret)
    else if !IsObject(Content(pollMsg)) then VoteResult(s, Thrown)
    else
      var voterKey := KeyValue(m.key);
      var updated := Voted(lib, me, m, pollMsg);
      var content := Content(updated);
      var s2 := MessageStore.Replace(s, loc, updated);
      var results := lib.aggregate(content, Get(content, "pollUpdates"), me);
      var table := OptionHashMap(lib, updated);
      VoteResult(s2, Emit(PollUpdateEvent(ck, voterKey, lib.keyAuthor(voterKey, me),
        SelectedOptions(lib, DecryptVote(lib, me, m, pollMsg), table), results)))
  }

  /** The fetch is a fallback only: when the store resolves the creation
      message, what the fetch would return changes nothing. */
  lemma FetchOnlyWhenMissing(lib: Lib, me: string, s: Store, m: Message, f1: Fetch, f2: Fetch)
    requires LookupCreation(s, Get(PollUpdateOf(m), "pollCreationMessageKey"), m).Some?
    ensures HandleVote(lib, me, s, m, f1) == HandleVote(lib, me, s, m, f2)
  {
  }

  /** A vote whose creation message is neither in the store nor returned by
      the one fetch is dropped: no event and no change to the store. */
  lemma MissingCreationDropsVote(lib: Lib, me: string, s: Store, m: Message, fetch: Fetch)
    requires IsTruthy(PollUpdateOf(m))
    requires Get(PollUpdateOf(m), "pollCreationMessageKey") !in {Undefined, Null}
    requires LookupCreation(s, Get(PollUpdateOf(m), "pollCreationMessageKey"), m).None?
    requires !(fetch.Loaded? && fetch.found.Some?)
    ensures HandleVote(lib, me, s, m, fetch) == VoteResult(s, NoCreation)
  {
  }

  /** A `poll.update` is emitted only for a creation message that carries
      its secret: the one the store resolves, or else the fetched one. */
  lemma EmitNeedsSecret(lib: Lib, me: string, s: Store, m: Message, fetch: Fetch)
    requires HandleVote(lib, me, s, m, fetch).outcome.Emit?
    ensures var l := LookupCreation(s, Get(PollUpdateOf(m), "pollCreationMessageKey"), m);
      if l.Some? then IsTruthy(Secret(MessageStore.Conv(s, l.value.jid)[l.value.index]))
      else fetch.Loaded? && fetch.found.Some? && IsTruthy(Secret(fetch.found.value))
  {
    var ck := Get(PollUpdateOf(m), "pollCreationMessageKey");
    var l := LookupCreation(s, ck, m);
    if l.None? {
      var jid := CreationJid(ck, m);
      var s1 := MessageStore.Insert(s, jid, [fetch.found.value]);
      assert MessageStore.Conv(s1, jid)[|MessageStore.Conv(s, jid)|] == fetch.found.value;
    }
  }

  /** Where `handlePollVote` folds the vote: into the creation message the
      store resolves, at its position; otherwise into the fetched message,
      just appended at the end of the creation's conversation. Together with
      `FoldVote`'s contract: the emitted tally is the tally of the message
      now in the store, and nothing else in the store changes. */
  lemma HandleVoteFolds(lib: Lib, me: string, s: Store, m: Message, fetch: Fetch)
    requires IsTruthy(PollUpdateOf(m))
    requires Get(PollUpdateOf(m), "pollCreationMessageKey") !in {Undefined, Null}
    ensures var ck := Get(PollUpdateOf(m), "pollCreationMessageKey");
      var l := LookupCreation(s, ck, m);
      l.Some? ==> (l.value.index < |MessageStore.Conv(s, l.value.jid)|
        && HandleVote(lib, me, s, m, fetch) == FoldVote(lib, me, s, l.value, m))
    ensures var ck := Get(PollUpdateOf(m), "pollCreationMessageKey");
      var jid := CreationJid(ck, m);
      LookupCreation(s, ck, m).None? && fetch.Loaded? && fetch.found.Some? ==>
        var s1 := MessageStore.Insert(s, jid, [fetch.found.value]);
        && MessageStore.Conv(s1, jid)[|MessageStore.Conv(s, jid)|] == fetch.found.value
        && HandleVote(lib, me, s, m, fetch) == FoldVote(lib, me, s1, MessageStore.Loc(jid, |MessageStore.Conv(s, jid)|), m)
  {
  }

  /** Folding a vote into its creation message keeps the message count. */
  lemma FoldVoteTotal(lib: Lib, me: string, s: Store, loc: MessageStore.Loc, m: Message)
    requires MessageStore.Valid(s) && loc.index < |MessageStore.Conv(s, loc.jid)|
    ensures MessageStore.Total(FoldVote(lib, me, s, loc, m).store) == MessageStore.Total(s)
  {
    var r := FoldVote(lib, me, s, loc, m);
    if r.outcome.Emit? {
      var pollMsg := MessageStore.Conv(s, loc.jid)[loc.index];
      MessageStore.ReplaceTotal(s, loc, Voted(lib, me, m, pollMsg));
    }
  }

  /** What folding a vote reports depends only on the creation message it
      is folded into, not on the rest of the store. */
  lemma FoldVoteOutcomeLocal(lib: Lib, me: string, s1: Store, l1: MessageStore.Loc, s2: Store, l2: MessageStore.Loc, m: Message)
    requires l1.index < |MessageStore.Conv(s1, l1.jid)| && l2.index < |MessageStore.Conv(s2, l2.jid)|
    requires MessageStore.Conv(s1, l1.jid)[l1.index] == MessageStore.Conv(s2, l2.jid)[l2.index]
    ensures FoldVote(lib, me, s1, l1, m).outcome == FoldVote(lib, me, s2, l2, m).outcome
  {
  }

  /** As written, a vote whose creation message had to be fetched reports
      the same outcome as the intended code, but the store keeps nothing of
      it, where the intended insert stores the fetched message. */
  lemma FetchedVoteNotStored(lib: Lib, me: string, s: Store, m: Message, fetch: Fetch)
    requires MessageStore.Valid(s)
    requires IsTruthy(PollUpdateOf(m))
    requires Get(PollUpdateOf(m), "pollCreationMessageKey") !in {Undefined, Null}
    requires LookupCreation(s, Get(PollUpdateOf(m), "pollCreationMessageKey"), m).None?
    requires fetch.Loaded? && fetch.found.Some?
    ensures HandleVoteAsWritten(lib, me, s, m, fetch).store == s
    ensures HandleVoteAsWritten(lib, me, s, m, fetch).outcome == HandleVote(lib, me, s, m, fetch).outcome
    ensures MessageStore.Total(HandleVote(lib, me, s, m, fetch).store) == MessageStore.Total(s) + 1
  {
    var ck := Get(PollUpdateOf(m), "pollCreationMessageKey");
    var jid := CreationJid(ck, m);
    var full := fetch.found.value;
    var s1 := MessageStore.Insert(s, jid, [full]);
    var detached := MessageStore.Insert(MessageStore.Empty(), jid, [full]);
    var loc := MessageStore.Loc(jid, |MessageStore.Conv(s, jid)|);
    FoldVoteOutcomeLocal(lib, me, s1, loc, detached, MessageStore.Loc(jid, 0), m);
    MessageStore.InsertTotal(s, jid, [full]);
    FoldVoteTotal(lib, me, s1, loc, m);
  }

  /** Handling a vote never removes a message: the store grows by the
      fetched creation message at most. */
  lemma VoteKeepsMessages(lib: Lib, me: string, s: Store, m: Message, fetch: Fetch)
    requires MessageStore.Valid(s)
    ensures MessageStore.Total(s) <= MessageStore.Total(HandleVote(lib, me, s, m, fetch).store) <= MessageStore.Total(s) + 1
  {
    var pu := PollUpdateOf(m);
    if IsTruthy(pu) {
      var ck := Get(pu, "pollCreationMessageKey");
      if ck != Undefined && ck != Null {
        var jid := CreationJid(ck, m);
        var found := LookupCreation(s, ck, m);
        var fetched := found.None? && fetch.Loaded? && fetch.found.Some?;
        var s1 := if fetched then MessageStore.Insert(s, jid, [fetch.found.value]) else s;
        if fetched {
          MessageStore.InsertTotal(s, jid, [fetch.found.value]);
        }
        if found.Some? || fetched {
          var loc := if found.Some? then found.value else MessageStore.Loc(jid, |MessageStore.Conv(s, jid)|);
          FoldVoteTotal(lib, me, s1, loc, m);
        }
      }
    }
  }
}

=== FILE: routes.dfy ===
/** The HTTP layer of routes/index.js: the global key every request must
    carry, the `checkInstance` decision (400 / 404 / 401 / pass), and the
    instance routes on top of the session manager. */
module Routes {
  import opened Js
  import AuthState
  import SessionManager

  const DefaultGlobalKey := "change-me"

  /** `process.env.GLOBAL_API_KEY || 'change-me'`. */
  function GlobalKey(env: Option<string>): (r: string)
    ensures Truthy(env) ==> r == env.value
    ensures !Truthy(env) ==> r == DefaultGlobalKey
    ensures r != ""
  {
    if Truthy(env) then env.value else DefaultGlobalKey
  }

  /** The router-wide middleware: the `x-api-key` header, or else the
      `apiKey` query parameter, must be the global key. */
  predicate GlobalGate(globalKey: string, header: Option<string>, query: Option<string>) {
    Or(header, query) == Some(globalKey)
  }

  /** The gate read both ways: a non-empty header decides alone; only
      without one does the query parameter count. */
  lemma GlobalGateCases(globalKey: string, header: Option<string>, query: Option<string>)
    requires globalKey != ""
    ensures Truthy(header) ==> (GlobalGate(globalKey, header, query) <==> header.value == globalKey)
    ensures !Truthy(header) ==> (GlobalGate(globalKey, header, query) <==> query == Some(globalKey))
  {
  }

  /** `a || b || c`: the first truthy of three places a request can carry a
      value. The instance name is looked up in route parameter, body and
      query; the instance key in header, body and query. */
  function FirstTruthy(a: Option<string>, b: Option<string>, c: Option<string>): (r: Option<string>)
    ensures Truthy(a) ==> r == a
    ensures !Truthy(a) && Truthy(b) ==> r == b
    ensures !Truthy(a) && !Truthy(b) ==> r == c
  {
    Or(Or(a, b), c)
  }

  datatype Verdict = Pass(name: string) | Reject(code: int)

  /** `checkInstance`: 400 without a name, 404 without a stored record, 401
      when the record has an api key and the supplied key differs. */
  function CheckInstance(docs: map<string, AuthState.Doc>, name: Option<string>, key: Option<string>): (r: Verdict)
    ensures r == Reject(400) <==> !Truthy(name)
    ensures r == Reject(404) <==> Truthy(name) && name.value !in docs
    ensures r == Reject(401) <==> (Truthy(name) && name.value in docs
      && Truthy(docs[name.value].apiKey) && docs[name.value].apiKey != key)
    ensures r.Pass? <==> (Truthy(name) && name.value in docs
      && (!Truthy(docs[name.value].apiKey) || docs[name.value].apiKey == key))
    ensures r.Pass? ==> r.name == name.value
  {
    if !Truthy(name) then Reject(400)
    else if name.value !in docs then Reject(404)
    else if Truthy(docs[name.value].apiKey) && docs[name.value].apiKey != key then Reject(401)
    else Pass(name.value)
  }

  /** The keys a request carries. */
  datatype Keys = Keys(globalHeader: Option<string>, globalQuery: Option<string>,
                       instanceHeader: Option<string>, instanceBody: Option<string>, instanceQuery: Option<string>)

  /** The instance routes. */
  datatype Action =
    | ListAll(ids: seq<string>)
    | CreateInst(name: string, webhook: Option<string>, apiKey: Option<string>)
    | UpdateInst(id: string, newWebhook: Option<Option<string>>, newApiKey: Option<Option<string>>)
    | StatusOf(id: string)
    | QrOf(id: string)
    | RestartInst(id: string)
    | ReconnectInst(id: string)
    | DeleteInst(id: string)

  /** The status code, the state after the request, and what the body
      reports: the listing, a status, or a QR code. */
  datatype Response = Response(code: int, m: SessionManager.Manager, listing: seq<(string, SessionManager.Status)>,
                               status: Option<SessionManager.Status>, qr: Option<string>)

  function Done(code: int, m: SessionManager.Manager): Response {
    Response(code, m, [], None, None)
  }

  /** `checkInstance` on an `/instance/:id` route parameter. */
  function Checked(m: SessionManager.Manager, keys: Keys, id: string): Verdict {
    CheckInstance(m.docs, Some(id), FirstTruthy(keys.instanceHeader, keys.instanceBody, keys.instanceQuery))
  }

  /** The route an action names, after the global gate and (for the
      `/instance/:id` routes) `checkInstance` on the route parameter. */
  function Handle(m: SessionManager.Manager, globalKey: string, keys: Keys, a: Action, initCreds: Value): (r: Response)
    requires SessionManager.Valid(m)
    ensures !GlobalGate(globalKey, keys.globalHeader, keys.globalQuery) ==> r == Done(401, m)
    ensures SessionManager.Valid(r.m)
    ensures r.code != 200 ==> r.m == m
    ensures a.UpdateInst? && r.code == 200 ==> a.id in m.reg
    ensures a.QrOf? && r.code == 200 ==> r.qr.Some? && r.qr == SessionManager.GetInstanceQR(m, a.id)
    ensures a.CreateInst? && GlobalGate(globalKey, keys.globalHeader, keys.globalQuery) ==>
      r.code == 200 && a.name in r.m.reg
  {
    if !GlobalGate(globalKey, keys.globalHeader, keys.globalQuery) then Done(401, m)
    else match a
      case ListAll(ids) => Response(200, m, SessionManager.ListInstances(m, ids), None, None)
      case CreateInst(name, webhook, apiKey) => Done(200, SessionManager.CreateInstance(m, name, webhook, apiKey, initCreds).0)
      case UpdateInst(id, webhook, apiKey) =>
        (match Checked(m, keys, id)
         case Reject(code) => Done(code, m)
         case Pass(_) =>
           var u := SessionManager.UpdateInstance(m, id, webhook, apiKey);
           if u.1.None? then Done(404, m) else Done(200, u.0))
      case StatusOf(id) =>
        (match Checked(m, keys, id)
         case Reject(code) => Done(code, m)
         case Pass(_) => Response(200, m, [], Some(SessionManager.GetInstanceStatus(m, id)), None))
      case QrOf(id) =>
        (match Checked(m, keys, id)
         case Reject(code) => Done(code, m)
         case Pass(_) =>
           var qr := SessionManager.GetInstanceQR(m, id);
           if qr.None? then Done(404, m) else Response(200, m, [], None, qr))
      case RestartInst(id) =>
        (match Checked(m, keys, id)
         case Reject(code) => Done(code, m)
         case Pass(_) => Done(200, SessionManager.RestartInstance(m, id, initCreds).0))
      case ReconnectInst(id) =>
        (match Checked(m, keys, id)
         case Reject(code) => Done(code, m)
         case Pass(_) => Done(200, SessionManager.RestartInstance(m, id, initCreds).0))
      case DeleteInst(id) =>
        (match Checked(m, keys, id)
         case Reject(code) => Done(code, m)
         case Pass(_) => Done(200, SessionManager.DeleteInstance(m, id)))
  }

  /** A record stored without an api key lets any instance key through. */
  lemma OpenRecordPassesAnyKey(docs: map<string, AuthState.Doc>, name: string, key: Option<string>)
    requires name != "" && name in docs && !Truthy(docs[name].apiKey)
    ensures CheckInstance(docs, Some(name), key) == Pass(name)
  {
  }

  /** A record with an api key lets exactly that key through. */
  lemma KeyedRecordNeedsItsKey(docs: map<string, AuthState.Doc>, name: string, key: Option<string>)
    requires name != "" && name in docs && Truthy(docs[name].apiKey)
    ensures CheckInstance(docs, Some(name), key).Pass? <==> key == docs[name].apiKey
  {
  }

  /** A stored instance that is not running passes `checkInstance` but its
      update answers 404, its status is `closed` and it has no QR code. */
  lemma StoredButIdle(m: SessionManager.Manager, globalKey: string, keys: Keys, id: string,
                      webhook: Option<Option<string>>, apiKey: Option<Option<string>>, initCreds: Value)
    requires SessionManager.Valid(m)
    requires GlobalGate(globalKey, keys.globalHeader, keys.globalQuery)
    requires id != "" && id in m.docs && !Truthy(m.docs[id].apiKey) && id !in m.reg
    ensures Handle(m, globalKey, keys, UpdateInst(id, webhook, apiKey), initCreds).code == 404
    ensures Handle(m, globalKey, keys, StatusOf(id), initCreds).status == Some(SessionManager.Closed)
    ensures Handle(m, globalKey, keys, QrOf(id), initCreds).code == 404
  {
  }

  /** `reconnect` and `restart` are the same operation. */
  lemma ReconnectIsRestart(m: SessionManager.Manager, globalKey: string, keys: Keys, id: string, initCreds: Value)
    requires SessionManager.Valid(m)
    ensures Handle(m, globalKey, keys, ReconnectInst(id), initCreds) == Handle(m, globalKey, keys, RestartInst(id), initCreds)
  {
  }
}

=== FILE: session_manager.dfy ===
/** The session registry of sessions/sessionManager.js: one record per
    instance id, the `connection.update` state machine, and the operations
    the HTTP routes call (create, restart, update, delete, status queries).

    Sockets are not modelled; each record carries the generation `gen` of
    the socket it was created with, so that an update can say which socket
    emitted it. Persistence is two document maps: the session collection
    (`docs`, shared by the credential store and `saveRecord`) and the store
    collection (`storeDocs`). */
module SessionManager {
  import opened Js
  import AuthState
  import MessageStore
  import Polls
  import Dispatch

  /** `DisconnectReason.loggedOut` and `DisconnectReason.restartRequired`. */
  const LoggedOut := 401
  const RestartRequired := 515

  datatype Status = Connecting | Qr | Open | Closed

  /** `sessions[id]`. `needsRestart` stands for the property being present
      (it is deleted, not set to false). */
  datatype Session = Session(
    gen: nat,
    status: Status,
    qr: Option<string>,
    webhook: Option<string>,
    apiKey: Option<string>,
    shouldReconnect: bool,
    wasQr: bool,
    needsRestart: bool,
    auth: AuthState.Auth,
    store: MessageStore.Store)

  /** The module state: the in-memory registry, the generation the next
      socket gets, and the two collections. */
  datatype Manager = Manager(
    reg: map<string, Session>,
    nextGen: nat,
    docs: map<string, AuthState.Doc>,
    storeDocs: map<string, MessageStore.StoreDoc>)

  /** Every registered record belongs to a socket already created, keeps the
      credentials of its own id, and holds a well-formed store. */
  ghost predicate Valid(m: Manager) {
    forall id | id in m.reg ::
      m.reg[id].gen < m.nextGen && m.reg[id].auth.id == id && MessageStore.Valid(m.reg[id].store)
  }

  /** `saveRecord(id)`: upsert `webhook` and `apiKey` of the record into its
      document; credentials and every other document are untouched. */
  function SaveRecord(docs: map<string, AuthState.Doc>, id: string, s: Session): (r: map<string, AuthState.Doc>)
    ensures r.Keys == docs.Keys + {id}
    ensures r[id].webhook == s.webhook && r[id].apiKey == s.apiKey
    ensures id in docs ==> r[id].creds == docs[id].creds && r[id].keys == docs[id].keys
    ensures id !in docs ==> r[id].creds == None && r[id].keys == None
    ensures forall k | k in docs && k != id :: r[k] == docs[k]
  {
    var d := if id in docs then docs[id] else AuthState.EmptyDoc;
    docs[id := d.(webhook := s.webhook, apiKey := s.apiKey)]
  }

  /** `initSessionRecord`: a connecting record with no QR code, ready to
      reconnect, whose falsy webhook or api key is stored as null. */
  function InitSessionRecord(gen: nat, webhook: Option<string>, apiKey: Option<string>,
                             auth: AuthState.Auth, store: MessageStore.Store): (s: Session)
    ensures s.gen == gen && s.auth == auth && s.store == store
    ensures s.status == Connecting && s.qr == None
    ensures s.shouldReconnect && !s.wasQr && !s.needsRestart
    ensures Truthy(webhook) ==> s.webhook == webhook
    ensures !Truthy(webhook) ==> s.webhook == None
    ensures Truthy(apiKey) ==> s.apiKey == apiKey
    ensures !Truthy(apiKey) ==> s.apiKey == None
  {
    Session(gen, Connecting, None, OrNull(webhook), OrNull(apiKey), true, false, false, auth, store)
  }

  /** The persisted store document of `id`, if one was ever written. */
  function StoredDoc(m: Manager, id: string): Option<MessageStore.StoreDoc> {
    if id in m.storeDocs then Some(m.storeDocs[id]) else None
  }

  /** `createInstance(id, webhook, apiKey)`, returning the manager and the
      generation of the socket it hands back. For a registered id only a
      truthy webhook or api key is taken over and nothing is persisted; a new
      id loads its credentials and its store, gets a new socket and has its
      record saved. `initCreds` is what `initAuthCreds()` would produce. */
  function CreateInstance(m: Manager, id: string, webhook: Option<string>, apiKey: Option<string>,
                          initCreds: Value): (r: (Manager, nat))
    ensures Valid(m) ==> Valid(r.0)
    ensures r.0.reg.Keys == m.reg.Keys + {id}
    ensures forall k | k in m.reg && k != id :: r.0.reg[k] == m.reg[k]
    ensures r.0.reg[id].gen == r.1
    ensures Truthy(webhook) ==> r.0.reg[id].webhook == webhook
    ensures Truthy(apiKey) ==> r.0.reg[id].apiKey == apiKey
    // an already registered id
    ensures id in m.reg ==> r.1 == m.reg[id].gen && r.0.nextGen == m.nextGen
    ensures id in m.reg ==> r.0.docs == m.docs && r.0.storeDocs == m.storeDocs
    ensures id in m.reg ==> r.0.reg[id] == m.reg[id].(webhook := r.0.reg[id].webhook, apiKey := r.0.reg[id].apiKey)
    ensures id in m.reg && !Truthy(webhook) ==> r.0.reg[id].webhook == m.reg[id].webhook
    ensures id in m.reg && !Truthy(apiKey) ==> r.0.reg[id].apiKey == m.reg[id].apiKey
    // a new id
    ensures id !in m.reg ==> r.1 == m.nextGen && r.0.nextGen == m.nextGen + 1
    ensures id !in m.reg ==> r.0.reg[id].status == Connecting && r.0.reg[id].qr == None && r.0.reg[id].shouldReconnect
    ensures id !in m.reg && !Truthy(webhook) ==> r.0.reg[id].webhook == None
    ensures id !in m.reg && !Truthy(apiKey) ==> r.0.reg[id].apiKey == None
    ensures id !in m.reg ==> id in r.0.docs && r.0.docs[id].webhook == r.0.reg[id].webhook && r.0.docs[id].apiKey == r.0.reg[id].apiKey
    ensures id !in m.reg ==> r.0.storeDocs == m.storeDocs
    ensures r.0.docs.Keys <= m.docs.Keys + {id}
    ensures forall k | k in m.docs && k != id :: k in r.0.docs && r.0.docs[k] == m.docs[k]
  {
    if id in m.reg then
      var s := m.reg[id];
      var s' := s.(webhook := if Truthy(webhook) then webhook else s.webhook,
                   apiKey := if Truthy(apiKey) then apiKey else s.apiKey);
      (m.(reg := m.reg[id := s']), s.gen)
    else
      var a := AuthState.Load(m.docs, id, initCreds);
      var loaded := if Truthy(webhook) then AuthState.SetWebhook(a, m.docs, webhook) else (a, m.docs);
      var store := MessageStore.Reload(StoredDoc(m, id));
      var s := InitSessionRecord(m.nextGen, webhook, apiKey, loaded.0, store);
      (Manager(m.reg[id := s], m.nextGen + 1, SaveRecord(loaded.1, id, s), m.storeDocs), m.nextGen)
  }

  /** `createInstance` with `messages.insert` as written, so that reloading
      the store throws (`MessageStore.ReloadAsWritten`). The second component
      is the socket's generation, or `None` when the promise rejects. The
      webhook written by `setWebhook` before the reload stays written; no
      socket is made and no record is registered. */
  function CreateInstanceAsWritten(m: Manager, id: string, webhook: Option<string>, apiKey: Option<string>,
                                   initCreds: Value): (r: (Manager, Option<nat>))
    ensures r.1.Some? ==> r.0 == CreateInstance(m, id, webhook, apiKey, initCreds).0
                          && r.1.value == CreateInstance(m, id, webhook, apiKey, initCreds).1
    ensures r.1.None? ==> r.0.reg == m.reg && r.0.nextGen == m.nextGen && r.0.storeDocs == m.storeDocs
    ensures r.1.None? && Truthy(webhook) ==> id in r.0.docs && r.0.docs[id].webhook == webhook
  {
    if id in m.reg then
      var c := CreateInstance(m, id, webhook, apiKey, initCreds);
      (c.0, Some(c.1))
    else
      var a := AuthState.Load(m.docs, id, initCreds);
      var loaded := if Truthy(webhook) then AuthState.SetWebhook(a, m.docs, webhook) else (a, m.docs);
      match MessageStore.ReloadAsWritten(StoredDoc(m, id))
      case Failure(_) => (m.(docs := loaded.1), None)
      case Success(store) =>
        // the snapshot held no conversation, so both reloads agree
        assert store == MessageStore.Reload(StoredDoc(m, id));
        var c := CreateInstance(m, id, webhook, apiKey, initCreds);
        (c.0, Some(c.1))
  }

  /** As written, creating an instance that is not running but whose
      persisted store holds a conversation rejects, and the id stays
      unregistered; the intended create registers it. */
  lemma CreateAsWrittenRejects(m: Manager, id: string, webhook: Option<string>, apiKey: Option<string>, initCreds: Value)
    requires id !in m.reg && id in m.storeDocs && m.storeDocs[id].messages.order != []
    ensures var r := CreateInstanceAsWritten(m, id, webhook, apiKey, initCreds);
            r.1.None? && id !in r.0.reg
    ensures id in CreateInstance(m, id, webhook, apiKey, initCreds).0.reg
  {
    MessageStore.ReloadAsWrittenThrows(m.storeDocs[id]);
  }

  // ---------------------------------------------------------------------
  // The connection.update handler

  datatype Connection = ConnOpen | ConnClose | ConnConnecting

  /** The fields of a `connection.update` the handler reads;
      `statusCode` is `lastDisconnect?.error?.output?.statusCode`. */
  datatype Update = Update(connection: Option<Connection>, statusCode: Option<int>, qr: Option<string>, isNewLogin: bool)

  /** A `setTimeout(..., 1000)` the handler arms: `restartInstance(id)` or
      `createInstance(id)`. */
  datatype Timer = RestartLater | CreateLater

  /** What the close branch does with the registry entry: nothing, delete
      it, or call `createInstance(id)` at once. */
  datatype CloseAction = Stay | Forget | RetryNow

  /** The handler's effect on one record: the record after the update, the
      webhook event types sent (in order), the timers armed, and the
      registry action of the close branch. */
  datatype Step = Step(session: Session, sent: seq<string>, timers: seq<Timer>, close: CloseAction)

  function CountRestarts(ts: seq<Timer>): nat {
    if ts == [] then 0 else CountRestarts(ts[..|ts| - 1]) + (if ts[|ts| - 1] == RestartLater then 1 else 0)
  }

  /** The body of the handler applied to the record it looked up: the `qr`,
      `open`, `isNewLogin` and `close` branches, in that order. Only the
      status, QR code and the two restart flags of the record change. */
  function ApplyUpdate(s: Session, u: Update): (r: Step)
    ensures r.session == s.(status := r.session.status, qr := r.session.qr, wasQr := r.session.wasQr,
                            needsRestart := r.session.needsRestart)
    ensures u.connection == Some(ConnClose) ==> r.session.status == Closed
    ensures u.connection != Some(ConnClose) ==> r.close == Stay && CreateLater !in r.timers
  {
    var afterQr := if Truthy(u.qr) then s.(qr := u.qr, status := Qr, wasQr := true) else s;
    var sentQr := if Truthy(u.qr) then ["qr"] else [];
    var atOpen := afterQr.(status := Open, qr := None);
    var afterOpen :=
      if u.connection != Some(ConnOpen) then afterQr
      else if atOpen.needsRestart then atOpen.(needsRestart := false, wasQr := false)
      else if atOpen.wasQr then atOpen.(needsRestart := true, wasQr := false)
      else atOpen.(wasQr := false);
    var sentOpen := if u.connection == Some(ConnOpen) then sentQr + ["open"] else sentQr;
    var timersOpen := if u.connection == Some(ConnOpen) && !atOpen.needsRestart && atOpen.wasQr then [RestartLater] else [];
    var login := u.isNewLogin && !afterOpen.needsRestart;
    var afterLogin := if login then afterOpen.(needsRestart := true) else afterOpen;
    var timersLogin := if login then timersOpen + [RestartLater] else timersOpen;
    if u.connection != Some(ConnClose) then Step(afterLogin, sentOpen, timersLogin, Stay)
    else
      var closed := afterLogin.(status := Closed);
      var sent := sentOpen + ["close"];
      if u.statusCode == Some(LoggedOut) then Step(closed, sent, timersLogin, Forget)
      else if u.statusCode == Some(RestartRequired) && closed.wasQr then
        Step(closed.(wasQr := false), sent, timersLogin + [CreateLater], Stay)
      else if closed.shouldReconnect then Step(closed, sent, timersLogin, RetryNow)
      else Step(closed, sent, timersLogin, Forget)
  }

  /** The record a `qr` update leaves when no `open` or `close` comes with
      it: the code is kept and the record is marked as paired by QR. */
  lemma QrUpdate(s: Session, u: Update)
    requires Truthy(u.qr) && u.connection !in {Some(ConnOpen), Some(ConnClose)}
    ensures var r := ApplyUpdate(s, u);
            r.session.status == Qr && r.session.qr == u.qr && r.sent == ["qr"] && r.close == Stay
            && (r.session.wasQr || u.isNewLogin)
  {
  }

  /** An `open` leaves the record open, without a QR code and with `wasQr`
      cleared; a pending restart is consumed without arming a new one, and
      otherwise a restart is armed exactly when the record was paired by QR
      (in this update or before). */
  lemma OpenUpdate(s: Session, u: Update)
    requires u.connection == Some(ConnOpen) && !u.isNewLogin
    ensures var r := ApplyUpdate(s, u);
            r.session.status == Open && r.session.qr == None && !r.session.wasQr
            && (s.needsRestart ==> r.timers == [] && !r.session.needsRestart)
            && (!s.needsRestart ==> (r.timers == [RestartLater] <==> s.wasQr || Truthy(u.qr)))
            && (!s.needsRestart ==> (r.session.needsRestart <==> s.wasQr || Truthy(u.qr)))
            && r.sent == (if Truthy(u.qr) then ["qr", "open"] else ["open"])
  {
  }

  /** A new login arms a restart exactly when none is pending after the
      `open` branch. */
  lemma NewLoginUpdate(s: Session, u: Update)
    requires u.isNewLogin && u.connection != Some(ConnOpen)
    ensures var r := ApplyUpdate(s, u);
            r.session.needsRestart
            && (RestartLater in r.timers <==> !s.needsRestart)
  {
  }

  /** One update arms at most one restart, and an armed restart leaves
      `needsRestart` set. */
  lemma {:induction false} AtMostOneRestart(s: Session, u: Update)
    ensures CountRestarts(ApplyUpdate(s, u).timers) <= 1
    ensures RestartLater in ApplyUpdate(s, u).timers ==> ApplyUpdate(s, u).session.needsRestart
  {
    var r := ApplyUpdate(s, u);
    var ts := r.timers;
    if ts != [] && ts[|ts| - 1] == CreateLater {
      assert CountRestarts(ts) == CountRestarts(ts[..|ts| - 1]);
    }
    if |ts| == 2 {
      assert ts[..1] == [ts[0]];
    }
  }

  /** A pending restart blocks every new one, except through an `open` that
      also reports a new login. */
  lemma PendingRestartBlocks(s: Session, u: Update)
    requires s.needsRestart
    requires u.connection != Some(ConnOpen) || !u.isNewLogin
    ensures RestartLater !in ApplyUpdate(s, u).timers
  {
  }

  /** An `open` together with `isNewLogin` arms a restart even when one is
      already pending: `open` consumes the pending flag before the
      `isNewLogin` branch reads it. */
  lemma OpenWithNewLoginRestartsAgain(s: Session)
    requires s.needsRestart
    ensures var r := ApplyUpdate(s, Update(Some(ConnOpen), None, None, true));
            r.timers == [RestartLater] && r.session.needsRestart
  {
  }

  /** A `close` sends `close` and then takes exactly one of four outcomes:
      logged out deletes the entry; `restartRequired` after a QR pairing
      clears `wasQr` and arms one delayed recreate; otherwise the record
      reconnects if it should and is deleted if not. */
  lemma CloseUpdate(s: Session, u: Update)
    requires u.connection == Some(ConnClose)
    ensures var r := ApplyUpdate(s, u);
            var wasQr := (s.wasQr || Truthy(u.qr));
            r.session.status == Closed && r.sent[|r.sent| - 1] == "close"
            && (u.statusCode == Some(LoggedOut) ==> r.close == Forget && CreateLater !in r.timers)
            && (u.statusCode == Some(RestartRequired) && wasQr ==>
                  r.close == Stay && !r.session.wasQr && r.timers[|r.timers| - 1] == CreateLater)
            && (u.statusCode != Some(LoggedOut) && !(u.statusCode == Some(RestartRequired) && wasQr) ==>
                  CreateLater !in r.timers && r.close == (if s.shouldReconnect then RetryNow else Forget))
  {
  }

  /** What a `connection.update` delivery did: the new manager, the webhook
      event types actually posted, and the timers armed. */
  datatype Reaction = Reaction(m: Manager, sent: seq<string>, timers: seq<Timer>)

  /** The registry after the update, for the close branch's `Stay` and
      `Forget`; `RetryNow` leaves it to the caller. */
  function Settle(m: Manager, id: string, st: Step): (r: Manager)
    ensures r.docs == m.docs && r.storeDocs == m.storeDocs && r.nextGen == m.nextGen
    ensures st.close == Forget ==> r.reg == m.reg - {id}
    ensures st.close != Forget ==> r.reg == m.reg[id := st.session]
  {
    var m1 := m.(reg := m.reg[id := st.session]);
    if st.close == Forget then m1.(reg := m1.reg - {id}) else m1
  }

  /** The handler as written: the record is looked up by id (whatever socket
      `from` emitted the update) and the close branch's reconnect calls
      `createInstance(id)` while the record is still registered. */
  function OnConnectionUpdateAsWritten(m: Manager, id: string, from: nat, u: Update, initCreds: Value): (r: Reaction)
    ensures Valid(m) ==> Valid(r.m)
    ensures id !in m.reg ==> r == Reaction(m, [], [])
    ensures id in m.reg ==> r.sent == Dispatch.Deliver(m.reg[id].webhook, ApplyUpdate(m.reg[id], u).sent)
    ensures r.m.docs == m.docs && r.m.storeDocs == m.storeDocs && r.m.nextGen == m.nextGen
    ensures r.m.reg.Keys <= m.reg.Keys
    ensures forall k | k in r.m.reg && k != id :: r.m.reg[k] == m.reg[k]
  {
    if id !in m.reg then Reaction(m, [], [])
    else
      var st := ApplyUpdate(m.reg[id], u);
      var settled := Settle(m, id, st);
      var m' := if st.close == RetryNow then CreateInstance(settled, id, None, None, initCreds).0 else settled;
      Reaction(m', Dispatch.Deliver(m.reg[id].webhook, st.sent), st.timers)
  }

  /** A timer firing, as written: `restartInstance(id)` or `createInstance(id)`,
      both reloading the store with `messages.insert` as written. */
  function FireAsWritten(m: Manager, id: string, t: Timer, initCreds: Value): (r: Manager)
    requires Valid(m)
    ensures t == CreateLater && id in m.reg ==> r == m
    ensures t == RestartLater ==> r == RestartInstance(m, id, initCreds).0 || id !in r.reg
  {
    match t
    case RestartLater => RestartInstanceAsWritten(m, id, initCreds).0
    case CreateLater => CreateInstanceAsWritten(m, id, None, None, initCreds).0
  }

  /** The handler with both defects corrected: an update from a socket other
      than the registered one is ignored, and a reconnect replaces the record
      the way `restartInstance` does. */
  function OnConnectionUpdate(m: Manager, id: string, from: nat, u: Update, initCreds: Value): (r: Reaction)
    requires Valid(m)
    ensures Valid(r.m)
    ensures id !in m.reg || m.reg[id].gen != from ==> r == Reaction(m, [], [])
    ensures id in m.reg && m.reg[id].gen == from ==> r.sent == Dispatch.Deliver(m.reg[id].webhook, ApplyUpdate(m.reg[id], u).sent)
    ensures forall k | k in m.reg && k != id :: k in r.m.reg && r.m.reg[k] == m.reg[k]
  {
    if id !in m.reg || m.reg[id].gen != from then Reaction(m, [], [])
    else
      var st := ApplyUpdate(m.reg[id], u);
      var settled := Settle(m, id, st);
      var m' := if st.close == RetryNow then RestartInstance(settled, id, initCreds).0 else settled;
      Reaction(m', Dispatch.Deliver(m.reg[id].webhook, st.sent), st.timers)
  }

  /** A timer firing, corrected: the delayed recreate replaces the record
      the way `restartInstance` does. */
  function Fire(m: Manager, id: string, t: Timer, initCreds: Value): (r: Manager)
    requires Valid(m)
    ensures Valid(r)
    ensures id in r.reg && r.reg[id].gen == m.nextGen && r.reg[id].status == Connecting
  {
    RestartInstance(m, id, initCreds).0
  }

  // ---------------------------------------------------------------------
  // Operations the routes call

  /** `restartInstance(id)`: flush the credentials, retire the record, and
      create the instance again with the old webhook and api key. */
  function RestartInstance(m: Manager, id: string, initCreds: Value): (r: (Manager, nat))
    requires Valid(m)
    ensures Valid(r.0)
    ensures r.1 == m.nextGen && r.0.nextGen == m.nextGen + 1
    ensures id in r.0.reg && r.0.reg[id].gen == r.1
    ensures r.0.reg[id].status == Connecting && r.0.reg[id].qr == None && r.0.reg[id].shouldReconnect
    ensures r.0.reg.Keys == m.reg.Keys + {id}
    ensures forall k | k in m.reg && k != id :: r.0.reg[k] == m.reg[k]
    ensures id in m.reg && Truthy(m.reg[id].webhook) ==> r.0.reg[id].webhook == m.reg[id].webhook
    ensures id in m.reg && Truthy(m.reg[id].apiKey) ==> r.0.reg[id].apiKey == m.reg[id].apiKey
    ensures r.0.storeDocs == m.storeDocs
    ensures forall k | k in m.docs && k != id :: k in r.0.docs && r.0.docs[k] == m.docs[k]
  {
    if id in m.reg then
      var prev := m.reg[id];
      var docs := AuthState.SaveCreds(prev.auth, m.docs);
      CreateInstance(m.(reg := m.reg - {id}, docs := docs), id, prev.webhook, prev.apiKey, initCreds)
    else CreateInstance(m, id, None, None, initCreds)
  }

  /** `restartInstance(id)` over the as-written create: the record is
      deleted before the create, so when the create rejects the id is left
      unregistered. `None` stands for the rejected promise. */
  function RestartInstanceAsWritten(m: Manager, id: string, initCreds: Value): (r: (Manager, Option<nat>))
    requires Valid(m)
    ensures r.1.Some? ==> r.0 == RestartInstance(m, id, initCreds).0 && r.1.value == RestartInstance(m, id, initCreds).1
    ensures r.1.None? ==> r.0.reg == m.reg - {id} && r.0.nextGen == m.nextGen && r.0.storeDocs == m.storeDocs
  {
    if id in m.reg then
      var prev := m.reg[id];
      var docs := AuthState.SaveCreds(prev.auth, m.docs);
      CreateInstanceAsWritten(m.(reg := m.reg - {id}, docs := docs), id, prev.webhook, prev.apiKey, initCreds)
    else CreateInstanceAsWritten(m, id, None, None, initCreds)
  }

  /** As written, restarting a running instance whose persisted store holds
      a conversation rejects and leaves the id without a record; the
      intended restart registers a new connecting socket. */
  lemma RestartAsWrittenUnregisters(m: Manager, id: string, initCreds: Value)
    requires Valid(m) && id in m.reg
    requires id in m.storeDocs && m.storeDocs[id].messages.order != []
    ensures var r := RestartInstanceAsWritten(m, id, initCreds);
            r.1.None? && id !in r.0.reg && r.0.reg.Keys == m.reg.Keys - {id}
    ensures id in RestartInstance(m, id, initCreds).0.reg
  {
    var prev := m.reg[id];
    var m1 := m.(reg := m.reg - {id}, docs := AuthState.SaveCreds(prev.auth, m.docs));
    CreateAsWrittenRejects(m1, id, prev.webhook, prev.apiKey, initCreds);
  }

  /** `deleteInstance(id)`: retire the record and delete both documents. */
  function DeleteInstance(m: Manager, id: string): (r: Manager)
    ensures Valid(m) ==> Valid(r)
    ensures id !in r.reg && id !in r.docs && id !in r.storeDocs
    ensures r.reg.Keys == m.reg.Keys - {id} && r.docs.Keys == m.docs.Keys - {id} && r.storeDocs.Keys == m.storeDocs.Keys - {id}
    ensures forall k | k in r.reg :: r.reg[k] == m.reg[k]
    ensures forall k | k in r.docs :: r.docs[k] == m.docs[k]
    ensures forall k | k in r.storeDocs :: r.storeDocs[k] == m.storeDocs[k]
  {
    Manager(m.reg - {id}, m.nextGen, m.docs - {id}, m.storeDocs - {id})
  }

  /** `updateInstance(id, details)`. A detail is `None` when the body lacks
      it (`undefined`), `Some(None)` for `null`. Unknown ids give `None`. */
  function UpdateInstance(m: Manager, id: string, webhook: Option<Option<string>>, apiKey: Option<Option<string>>): (r: (Manager, Option<Session>))
    ensures r.1.None? <==> id !in m.reg
    ensures r.1.None? ==> r.0 == m
    ensures r.1.Some? ==> id in r.0.reg && r.1.value == r.0.reg[id]
    ensures Valid(m) ==> Valid(r.0)
    ensures r.0.reg.Keys == m.reg.Keys && r.0.nextGen == m.nextGen && r.0.storeDocs == m.storeDocs
    ensures forall k | k in m.reg && k != id :: r.0.reg[k] == m.reg[k]
    ensures id in m.reg ==> r.0.reg[id].webhook == (if webhook.Some? then webhook.value else m.reg[id].webhook)
    ensures id in m.reg ==> r.0.reg[id].apiKey == (if apiKey.Some? then apiKey.value else m.reg[id].apiKey)
    ensures id in m.reg ==> r.0.reg[id] == m.reg[id].(webhook := r.0.reg[id].webhook, apiKey := r.0.reg[id].apiKey)
    ensures id in m.reg ==> id in r.0.docs && r.0.docs[id].webhook == r.0.reg[id].webhook && r.0.docs[id].apiKey == r.0.reg[id].apiKey
  {
    if id !in m.reg then (m, None)
    else
      var s := m.reg[id];
      var s' := s.(webhook := if webhook.Some? then webhook.value else s.webhook,
                   apiKey := if apiKey.Some? then apiKey.value else s.apiKey);
      var m' := m.(reg := m.reg[id := s'], docs := SaveRecord(m.docs, id, s'));
      (m', Some(s'))
  }

  /** The `creds.update` listener of the socket with generation `from`:
      the transport library has updated that socket's credentials in place to
      `creds`, and `saveCreds()` writes them with the keys. An update from a
      socket that is no longer registered is not applied. */
  function OnCredsUpdate(m: Manager, id: string, from: nat, creds: Value): (r: Manager)
    requires Valid(m)
    ensures Valid(r)
    ensures r.reg.Keys == m.reg.Keys && r.nextGen == m.nextGen && r.storeDocs == m.storeDocs
    ensures forall k | k in m.reg && k != id :: r.reg[k] == m.reg[k]
    ensures forall k | k in m.docs && k != id :: k in r.docs && r.docs[k] == m.docs[k]
    ensures !(id in m.reg && m.reg[id].gen == from) ==> r == m
    ensures id in m.reg && m.reg[id].gen == from ==>
      r.reg[id] == m.reg[id].(auth := m.reg[id].auth.(creds := creds))
      && id in r.docs && r.docs[id].creds == Some(creds) && r.docs[id].keys == Some(m.reg[id].auth.keys)
  {
    if id in m.reg && m.reg[id].gen == from then
      var s := m.reg[id];
      var a := s.auth.(creds := creds);
      m.(reg := m.reg[id := s.(auth := a)], docs := AuthState.SaveCreds(a, m.docs))
    else m
  }

  /** `getInstanceStatus(id)`. */
  function GetInstanceStatus(m: Manager, id: string): (r: Status)
    ensures r != Closed ==> id in m.reg && m.reg[id].status == r
    ensures id !in m.reg ==> r == Closed
  {
    if id in m.reg then m.reg[id].status else Closed
  }

  /** `getInstanceQR(id)`: the record's QR code, or null when there is no
      record or no (non-empty) code. */
  function GetInstanceQR(m: Manager, id: string): (r: Option<string>)
    ensures r.Some? <==> id in m.reg && Truthy(m.reg[id].qr)
    ensures r.Some? ==> r == m.reg[id].qr
  {
    if id in m.reg && Truthy(m.reg[id].qr) then m.reg[id].qr else None
  }

  /** `listInstances()`: every document of the session collection, in the
      order `ids` the database returns them, with its live status. */
  function ListInstances(m: Manager, ids: seq<string>): (r: seq<(string, Status)>)
    ensures |r| == |ids|
    ensures forall i | 0 <= i < |r| :: r[i].0 == ids[i]
    ensures forall i | 0 <= i < |r| :: r[i].1 == GetInstanceStatus(m, ids[i])
  {
    seq(|ids|, i requires 0 <= i < |ids| => (ids[i], GetInstanceStatus(m, ids[i])))
  }

  /** Given the ids of the stored records, each once (what `col.find()`
      returns), the listing names exactly the stored instances, each once. */
  lemma ListsEveryStoredInstance(m: Manager, ids: seq<string>)
    requires forall i, j | 0 <= i < j < |ids| :: ids[i] != ids[j]
    requires forall k :: k in m.docs <==> k in ids
    ensures var r := ListInstances(m, ids);
      && (forall k :: k in m.docs <==> exists i | 0 <= i < |r| :: r[i].0 == k)
      && (forall i, j | 0 <= i < j < |r| :: r[i].0 != r[j].0)
      && |r| == |m.docs.Keys|
  {
    var r := ListInstances(m, ids);
    forall k | k in m.docs ensures exists i | 0 <= i < |r| :: r[i].0 == k {
      var i :| 0 <= i < |ids| && ids[i] == k;
      assert r[i].0 == k;
    }
    DistinctCount(ids, m.docs.Keys);
  }

  /** A sequence without repeats that enumerates a set has the set's size. */
  lemma {:induction false} DistinctCount(ids: seq<string>, ks: set<string>)
    requires forall i, j | 0 <= i < j < |ids| :: ids[i] != ids[j]
    requires forall k :: k in ks <==> k in ids
    ensures |ids| == |ks|
    decreases |ids|
  {
    if ids != [] {
      var rest := ids[1..];
      assert forall k :: k in ks - {ids[0]} <==> k in rest by {
        forall k ensures k in ks - {ids[0]} <==> k in rest {
          if k in rest {
            var j :| 0 <= j < |rest| && rest[j] == k;
            assert ids[j + 1] == k;
          }
        }
      }
      DistinctCount(rest, ks - {ids[0]});
    } else {
      assert forall k :: k !in ks;
      assert ks == {};
    }
  }

  /** One `ev.process` batch entry for instance `id`: the store binding's
      handler updates the store first, then the event pipeline runs on it,
      and the store is written back for the three events it listens to.
      The webhook receives the pipeline's output only when one is set. */
  function OnEvent(m: Manager, id: string, lib: Polls.Lib, me: string, e: Dispatch.Event,
                   fetch: MessageStore.Message -> Polls.Fetch): (r: (Manager, seq<Dispatch.Outbound>))
    requires Valid(m)
    ensures Valid(r.0)
    ensures id !in m.reg ==> r == (m, [])
    ensures r.0.reg.Keys == m.reg.Keys && r.0.docs == m.docs && r.0.nextGen == m.nextGen
    ensures forall k | k in m.reg && k != id :: r.0.reg[k] == m.reg[k]
    ensures id in m.reg ==> r.0.reg[id] == m.reg[id].(store := r.0.reg[id].store)
    ensures id in m.reg && Persists(e) ==> id in r.0.storeDocs && r.0.storeDocs[id] == MessageStore.Snapshot(id, r.0.reg[id].store)
    ensures id in m.reg && !Truthy(m.reg[id].webhook) ==> r.1 == []
  {
    if id !in m.reg then (m, [])
    else
      var s := m.reg[id];
      var p := Dispatch.ProcessEvent(lib, me, Bind(s.store, e), e, fetch);
      var docs := if Persists(e) then m.storeDocs[id := MessageStore.Snapshot(id, p.store)] else m.storeDocs;
      (m.(reg := m.reg[id := s.(store := p.store)], storeDocs := docs), Dispatch.Deliver(s.webhook, p.out))
  }

  /** The store binding's handler for one event (sessions/mongoStore.js
      `bind`): message events update the store, other events leave it. */
  function Bind(s: MessageStore.Store, e: Dispatch.Event): (r: MessageStore.Store)
    ensures MessageStore.Valid(s) ==> MessageStore.Valid(r)
    ensures e.Other? ==> r == s
  {
    match e
    case MessagesUpsert(msgs) => MessageStore.OnMessagesUpsert(s, msgs)
    case MessagesUpdate(ups) => MessageStore.OnMessagesUpdate(s, ups)
    case Other(_) => s
  }

  /** The binding's handlers for every entry of one event map: the
      transport emits all of them before the `ev.process` callback runs. */
  function BindAll(s: MessageStore.Store, es: seq<Dispatch.Event>): (r: MessageStore.Store)
    ensures MessageStore.Valid(s) ==> MessageStore.Valid(r)
    ensures (forall i | 0 <= i < |es| :: es[i].Other?) ==> r == s
    decreases |es|
  {
    if es == [] then s
    else
      assert forall i | 1 <= i < |es| :: es[1..][i - 1] == es[i];
      BindAll(Bind(s, es[0]), es[1..])
  }

  /** One `ev.process` call for instance `id` with the entries `es` of its
      event map: the binding's handlers update the store for all entries,
      then the callback processes the entries in order and stops at the first
      exception. The store is written back when an entry is one the binding
      listens to. */
  function OnEvents(m: Manager, id: string, lib: Polls.Lib, me: string, es: seq<Dispatch.Event>,
                    fetch: MessageStore.Message -> Polls.Fetch): (r: (Manager, seq<Dispatch.Outbound>))
    requires Valid(m)
    ensures Valid(r.0)
    ensures id !in m.reg ==> r == (m, [])
    ensures r.0.reg.Keys == m.reg.Keys && r.0.docs == m.docs && r.0.nextGen == m.nextGen
    ensures forall k | k in m.reg && k != id :: r.0.reg[k] == m.reg[k]
    ensures id in m.reg ==> r.0.reg[id] == m.reg[id].(store := r.0.reg[id].store)
    ensures id in m.reg && (exists i | 0 <= i < |es| :: Persists(es[i])) ==>
      id in r.0.storeDocs && r.0.storeDocs[id] == MessageStore.Snapshot(id, r.0.reg[id].store)
    ensures (forall i | 0 <= i < |es| :: !Persists(es[i])) ==> r.0.storeDocs == m.storeDocs
    ensures id in m.reg && !Truthy(m.reg[id].webhook) ==> r.1 == []
    ensures id in m.reg && Truthy(m.reg[id].webhook) ==>
      r.1 == Dispatch.ProcessBatch(lib, me, BindAll(m.reg[id].store, es), es, fetch).out
  {
    if id !in m.reg then (m, [])
    else
      var s := m.reg[id];
      var bound := BindAll(s.store, es);
      assert MessageStore.Valid(bound);
      var p := Dispatch.ProcessBatch(lib, me, bound, es, fetch);
      var reg := m.reg[id := s.(store := p.store)];
      assert forall k | k in reg :: reg[k].gen < m.nextGen && reg[k].auth.id == k && MessageStore.Valid(reg[k].store);
      var persists := exists i | 0 <= i < |es| :: Persists(es[i]);
      var docs := if persists then m.storeDocs[id := MessageStore.Snapshot(id, p.store)] else m.storeDocs;
      (m.(reg := reg, storeDocs := docs), Dispatch.Deliver(s.webhook, p.out))
  }

  /** `OnEvent` is the call for a map with a single entry. */
  lemma OnEventIsSingleEntry(m: Manager, id: string, lib: Polls.Lib, me: string, e: Dispatch.Event,
                             fetch: MessageStore.Message -> Polls.Fetch)
    requires Valid(m)
    ensures OnEvents(m, id, lib, me, [e], fetch) == OnEvent(m, id, lib, me, e, fetch)
  {
    if id in m.reg {
      assert [e][1..] == [];
      assert BindAll(m.reg[id].store, [e]) == Bind(m.reg[id].store, e);
      Dispatch.SingleEntryBatch(lib, me, Bind(m.reg[id].store, e), e, fetch);
      assert (exists i | 0 <= i < |[e]| :: Persists([e][i])) == Persists(e);
    }
  }

  /** A vote that throws in one entry of a map keeps every later entry from
      reaching the webhook, though the store binding has already applied
      them. */
  lemma ThrowSilencesLaterEntries(m: Manager, id: string, lib: Polls.Lib, me: string,
                                  es1: seq<Dispatch.Event>, es2: seq<Dispatch.Event>,
                                  fetch: MessageStore.Message -> Polls.Fetch)
    requires Valid(m) && id in m.reg
    requires Dispatch.ProcessBatch(lib, me, BindAll(m.reg[id].store, es1 + es2), es1, fetch).thrown
    ensures OnEvents(m, id, lib, me, es1 + es2, fetch).1
         == Dispatch.Deliver(m.reg[id].webhook, Dispatch.ProcessBatch(lib, me, BindAll(m.reg[id].store, es1 + es2), es1, fetch).out)
  {
    Dispatch.ThrownBatchEndsEarly(lib, me, BindAll(m.reg[id].store, es1 + es2), es1, es2, fetch);
  }

  /** The events after which the store binding writes the store document. */
  predicate Persists(e: Dispatch.Event) {
    Dispatch.EventName(e) in {"messages.upsert", "messages.update", "chats.upsert"}
  }

  // ---------------------------------------------------------------------
  // Properties

  /** Creating twice with the same arguments is the same as creating once. */
  lemma CreateInstanceIdempotent(m: Manager, id: string, webhook: Option<string>, apiKey: Option<string>, initCreds: Value)
    ensures var first := CreateInstance(m, id, webhook, apiKey, initCreds);
            CreateInstance(first.0, id, webhook, apiKey, initCreds) == first
  {
    var first := CreateInstance(m, id, webhook, apiKey, initCreds);
    var second := CreateInstance(first.0, id, webhook, apiKey, initCreds);
    assert second.0.reg[id] == first.0.reg[id];
    assert second.0.reg == first.0.reg;
  }

  /** As written, a close that should reconnect leaves the closed record in
      place: same socket generation, status closed, nothing recreated. */
  lemma ReconnectIsNoOp(m: Manager, id: string, from: nat, code: Option<int>, initCreds: Value)
    requires id in m.reg && m.reg[id].shouldReconnect
    requires code != Some(LoggedOut) && code != Some(RestartRequired)
    ensures var r := OnConnectionUpdateAsWritten(m, id, from, Update(Some(ConnClose), code, None, false), initCreds);
            id in r.m.reg && r.m.reg[id].gen == m.reg[id].gen && r.m.reg[id].status == Closed
            && r.m.nextGen == m.nextGen && r.timers == []
  {
    var u := Update(Some(ConnClose), code, None, false);
    var st := ApplyUpdate(m.reg[id], u);
    assert st.close == RetryNow;
  }

  /** As written, the delayed recreate after `restartRequired` is a no-op
      too: the record is still registered when the timer fires. */
  lemma DelayedRecreateIsNoOp(m: Manager, id: string, from: nat, initCreds: Value)
    requires Valid(m) && id in m.reg && m.reg[id].wasQr
    ensures var r := OnConnectionUpdateAsWritten(m, id, from, Update(Some(ConnClose), Some(RestartRequired), None, false), initCreds);
            r.timers == [CreateLater] && FireAsWritten(r.m, id, CreateLater, initCreds) == r.m
            && r.m.reg[id].gen == m.reg[id].gen && r.m.reg[id].status == Closed
  {
    var u := Update(Some(ConnClose), Some(RestartRequired), None, false);
    var st := ApplyUpdate(m.reg[id], u);
    assert st.timers == [CreateLater];
  }

  /** Corrected, a close that should reconnect puts a new connecting record
      with a new socket in place, keeping the webhook and api key. */
  lemma CloseReconnects(m: Manager, id: string, code: Option<int>, initCreds: Value)
    requires Valid(m)
    requires id in m.reg && m.reg[id].shouldReconnect
    requires code != Some(LoggedOut) && code != Some(RestartRequired)
    ensures var r := OnConnectionUpdate(m, id, m.reg[id].gen, Update(Some(ConnClose), code, None, false), initCreds);
            id in r.m.reg && r.m.reg[id].gen == m.nextGen && r.m.reg[id].gen != m.reg[id].gen
            && r.m.reg[id].status == Connecting
            && (Truthy(m.reg[id].webhook) ==> r.m.reg[id].webhook == m.reg[id].webhook)
            && (Truthy(m.reg[id].apiKey) ==> r.m.reg[id].apiKey == m.reg[id].apiKey)
  {
    var u := Update(Some(ConnClose), code, None, false);
    var st := ApplyUpdate(m.reg[id], u);
    assert st.close == RetryNow;
    var m1 := m.(reg := m.reg[id := st.session]);
    assert m1.reg[id].webhook == m.reg[id].webhook && m1.reg[id].apiKey == m.reg[id].apiKey;
  }

  /** As written, after `restartInstance` the retired socket's own close
      (its socket was closed by the restart) lands on the new record: the
      new, still connecting socket's record is reported closed. */
  lemma LateCloseHitsNewRecord(m: Manager, id: string, code: Option<int>, initCreds: Value)
    requires Valid(m) && id in m.reg
    requires code != Some(LoggedOut) && code != Some(RestartRequired)
    ensures var restarted := RestartInstance(m, id, initCreds);
            var r := OnConnectionUpdateAsWritten(restarted.0, id, m.reg[id].gen, Update(Some(ConnClose), code, None, false), initCreds);
            restarted.1 != m.reg[id].gen
            && id in r.m.reg && r.m.reg[id].gen == restarted.1 && r.m.reg[id].status == Closed
  {
    var restarted := RestartInstance(m, id, initCreds);
    ReconnectIsNoOp(restarted.0, id, m.reg[id].gen, code, initCreds);
  }

  /** As written, a retired socket's `loggedOut` close deletes its successor. */
  lemma LateLogoutRemovesNewRecord(m: Manager, id: string, initCreds: Value)
    requires Valid(m) && id in m.reg
    ensures var restarted := RestartInstance(m, id, initCreds);
            id !in OnConnectionUpdateAsWritten(restarted.0, id, m.reg[id].gen, Update(Some(ConnClose), Some(LoggedOut), None, false), initCreds).m.reg
  {
    var restarted := RestartInstance(m, id, initCreds);
    var u := Update(Some(ConnClose), Some(LoggedOut), None, false);
    assert ApplyUpdate(restarted.0.reg[id], u).close == Forget;
  }

  /** Corrected, updates from the retired socket change nothing. */
  lemma RetiredSocketIgnored(m: Manager, id: string, u: Update, initCreds: Value)
    requires Valid(m) && id in m.reg
    ensures var restarted := RestartInstance(m, id, initCreds);
            OnConnectionUpdate(restarted.0, id, m.reg[id].gen, u, initCreds) == Reaction(restarted.0, [], [])
  {
  }

  /** The webhook saved by `updateInstance` is overwritten by the next
      credential write, which persists the webhook the credential store
      loaded (or was last given through `setWebhook`). */
  lemma CredsWriteRevertsWebhook(m: Manager, id: string, w: string, creds: Value)
    requires Valid(m) && id in m.reg
    ensures var updated := UpdateInstance(m, id, Some(Some(w)), None).0;
            var written := OnCredsUpdate(updated, id, m.reg[id].gen, creds);
            updated.docs[id].webhook == Some(w)
            && written.docs[id].webhook == m.reg[id].auth.webhook
            && written.reg[id].webhook == Some(w)
  {
  }

  /** A credential update from the running socket is persisted: a restart
      afterwards comes back with the updated credentials. */
  lemma CredsUpdateSurvivesRestart(m: Manager, id: string, creds: Value, initCreds: Value)
    requires Valid(m) && id in m.reg && IsTruthy(creds)
    ensures var r := RestartInstance(OnCredsUpdate(m, id, m.reg[id].gen, creds), id, initCreds).0;
            r.reg[id].auth.creds == creds && r.reg[id].auth.keys == m.reg[id].auth.keys
  {
    RestartKeepsCredentials(OnCredsUpdate(m, id, m.reg[id].gen, creds), id, initCreds);
  }

  /** An instance created again after deletion starts from scratch: fresh
      credentials, no keys, an empty store and a new socket. */
  lemma RecreateAfterDeleteStartsBlank(m: Manager, id: string, webhook: Option<string>, apiKey: Option<string>, initCreds: Value)
    ensures var r := CreateInstance(DeleteInstance(m, id), id, webhook, apiKey, initCreds);
            r.1 == m.nextGen && r.0.reg[id].auth.keys == map[] && r.0.reg[id].auth.creds == initCreds
            && r.0.reg[id].store == MessageStore.Empty() && r.0.reg[id].status == Connecting
  {
    AuthState.LoadBlank(DeleteInstance(m, id).docs, id, initCreds);
  }

  /** A restart keeps the credentials and keys the retired record held. */
  lemma RestartKeepsCredentials(m: Manager, id: string, initCreds: Value)
    requires Valid(m) && id in m.reg && IsTruthy(m.reg[id].auth.creds)
    ensures var r := RestartInstance(m, id, initCreds).0;
            r.reg[id].auth.creds == m.reg[id].auth.creds && r.reg[id].auth.keys == m.reg[id].auth.keys
  {
    var prev := m.reg[id];
    AuthState.LoadAfterWrite(m.docs, prev.auth, initCreds);
  }

  /** A restart rebuilds the store from its document: when the document is
      the snapshot of the live store, the new record has the same store. */
  lemma RestartKeepsPersistedStore(m: Manager, id: string, initCreds: Value)
    requires Valid(m) && id in m.reg
    requires id in m.storeDocs && m.storeDocs[id] == MessageStore.Snapshot(id, m.reg[id].store)
    ensures RestartInstance(m, id, initCreds).0.reg[id].store == m.reg[id].store
  {
    MessageStore.ReloadSnapshot(id, m.reg[id].store);
  }

  /** After every event that writes the store, reloading the written
      document gives back the live store. */
  lemma EventsPersistStore(m: Manager, id: string, lib: Polls.Lib, me: string, e: Dispatch.Event,
                           fetch: MessageStore.Message -> Polls.Fetch)
    requires Valid(m) && id in m.reg && Persists(e)
    ensures var r := OnEvent(m, id, lib, me, e, fetch).0;
            MessageStore.Reload(StoredDoc(r, id)) == r.reg[id].store
  {
    var r := OnEvent(m, id, lib, me, e, fetch).0;
    MessageStore.ReloadSnapshot(id, r.reg[id].store);
  }

  /** A deleted instance reports `closed`, and so does a listing of it. */
  lemma DeletedIsClosed(m: Manager, id: string)
    ensures GetInstanceStatus(DeleteInstance(m, id), id) == Closed
    ensures GetInstanceQR(DeleteInstance(m, id), id) == None
    ensures ListInstances(DeleteInstance(m, id), [id]) == [(id, Closed)]
  {
  }
}
